=== FILE: README.md ===
# Volume rendering core of Volume-Rendering-In-iOS, modelled in Dafny

This project models the computational core of the iOS volume viewer. The
core turns a DICOM series into a calibrated volume and then into sampling
planes in normalized texture space:

- **HU conversion.** The loader reads 16-bit DICOM samples and applies the
  modality rescale `round(raw * slope + intercept)` (section C.11.1.1.2 of
  DICOM PS3.3). It clamps every value to the CT window [-1024, 3071] and
  reports the observed range.
- **Datasets and textures.** The result is a `VolumeDataset`. Texture
  factories (the current one and the legacy one) provide bundled head and
  chest presets or a one-voxel placeholder, plus the upload layout of the
  3D texture.
- **Patient geometry.** `DICOMGeometry` maps voxel indices to patient
  millimetres and on to texture coordinates (section C.7.6.2.1.1 of DICOM
  PS3.3). It also converts a world-space plane into texture space.
- **Plane material.** The MPR plane material holds a sampling plane
  (origin plus two axes in [0,1]^3), the slab half-thickness, the blend mode
  and the HU window. Canonical planes sit at voxel centres.
- **Tri-planar navigator.** It holds an orthonormal basis `R` and a
  crosshair. Drags move the crosshair along a basis column, clamped to
  [eps, 1-eps]^3. Twists rotate the basis about one of its own columns with
  the Rodrigues matrix. Every viewport's plane is centred on the crosshair.
- **Node pose.** `setTransformFromBasisTex` turns a plane into a node pose:
  a Gram-Schmidt frame, a centre and an extent.
- **Volume cube material.** It holds the ray-caster's uniforms: method ids,
  flags, the density gate, the HU gate, and the dimensions and window copied
  from the dataset.
- **Scene controller.** It covers the render-mode switch, the current plane
  axis, slider-to-slice mapping, slab forwarding, adaptive quality during
  gestures, body-part loading and start-up.

Floating-point values are modelled as `real`. `lround` and Swift's `round`
are modelled as rounding half away from zero (`Numeric.Round`), and
`Int32(Float)` as truncation toward zero (`Numeric.Trunc`). Square roots,
cosines and sines are not computed. Each operation that needs one takes the
value as a parameter together with its defining property: `IsLength(v, len)`
for `len * len == |v|^2` with `len >= 0`, and `c * c + s * s == 1` for a
cosine/sine pair. The 4x4 inverses are computed explicitly, through the
adjugate of the 3x3 block, and return `None` when that block is singular.
Matrices are column-major, as in `simd`.

Module layout, one module per source file:

| module | file |
|---|---|
| `Numeric`, `Linear`, `Results`, `Bytes`, `Homogeneous`, `Rodrigues` | shared arithmetic, vectors and matrices, Option/Result, 16-bit samples, 4x4 affine/block maps, rotation matrix |
| `Dataset` | VolumeDataset.swift |
| `DicomLoader` | DicomVolumeLoader.swift |
| `TextureFactory`, `LegacyTextureFactory` | VolumeTextureFactory.swift, VolumeTexture.swift |
| `BodyParts`, `CubeMaterial` | VolumeCubeMaterial.swift |
| `DicomGeometry` | DICOMGeometry.swift |
| `MprMaterial` | MPRPlaneMaterial.swift |
| `TriPlanar` | TriPlanarMPR.swift |
| `NodeBasis` | SCNNode+Basis.swift |
| `SceneController` | SceneViewController.swift |

## Model

| member | source | states |
|---|---|---|
| Numeric.Round | VolumeRendering-iOS/Source/Helper/DicomVolumeLoader.swift:134 | the integer returned is the nearest one, with halves rounded away from zero (`lround`) |
| Numeric.Trunc | VolumeRendering-iOS/Source/Core/VolumeCubeMaterial.swift:186 | `Int32(step)` drops the fraction toward zero, for either sign |
| Numeric.Clamp | VolumeRendering-iOS/Source/Helper/DicomVolumeLoader.swift:137 | `max(lo, min(hi, x))` lies in [lo, hi], leaves values inside unchanged and sends values outside to the nearer end |
| Numeric.RoundMonotone | VolumeRendering-iOS/Source/Helper/DicomVolumeLoader.swift:134 | rounding never reverses the order of two values |
| Numeric.RoundOfInt | VolumeRendering-iOS/Source/Helper/DicomVolumeLoader.swift:134 | rounding an integral value returns it unchanged |
| Numeric.ClampMonotone | VolumeRendering-iOS/Source/Helper/DicomVolumeLoader.swift:137 | clamping is monotone in the clamped value |
| Bytes.S16 | VolumeRendering-iOS/Source/Helper/DicomVolumeLoader.swift:130-132 | a little-endian byte pair read as `Int16` lies in [-32768, 32767] and differs from the unsigned reading by 0 or 65536 |
| Bytes.EncodeDecodeS16 | VolumeRendering-iOS/Source/Helper/DicomVolumeLoader.swift:139 | writing an `Int16` and reading it back are inverse: decoding then re-encoding returns the same two bytes |
| Bytes.EncodeAllS16 | VolumeRendering-iOS/Source/Helper/DicomVolumeLoader.swift:112 | the output buffer holds two bytes per sample and sample i reads back as the i-th value |
| Dataset.ToMetalPixelFormat | VolumeRendering-iOS/Source/Core/VolumeDataset.swift:9-16 | signed maps to `r16Sint` and only signed does |
| Dataset.MetalPixelFormatInjective | VolumeRendering-iOS/Source/Core/VolumeDataset.swift:9-16 | distinct sample formats give distinct texture formats |
| Dataset.BytesPerVoxel | VolumeRendering-iOS/Source/Core/VolumeDataset.swift:18-23 | both formats use two bytes per voxel |
| Dataset.DefaultIntensityRange | VolumeRendering-iOS/Source/Core/VolumeDataset.swift:25-36 | the default range is ordered and contains every value a sample of the format can hold |
| Dataset.DefaultRangeIsRepresentable | VolumeRendering-iOS/Source/Core/VolumeDataset.swift:25-36 | a value is in the default range exactly when some byte pair decodes to it, so the range is the exact value set of the type |
| Dataset.MakeDataset | VolumeRendering-iOS/Source/Core/VolumeDataset.swift:46-56 | every argument is stored verbatim; a missing range becomes the format's default range |
| Dataset.MakeDatasetDoesNotValidate | VolumeRendering-iOS/Source/Core/VolumeDataset.swift:46-56 | the initialiser accepts a buffer whose length differs from voxel count times bytes per voxel |
| Dataset.VoxelCount | VolumeRendering-iOS/Source/Core/VolumeDataset.swift:58-60 | the voxel count is positive whenever all three dimensions are |
| Dataset.DatasetScale | VolumeRendering-iOS/Source/Core/VolumeDataset.swift:62-66 | the scale is spacing times dimensions, component by component |
| DicomLoader.EffectiveSlope | VolumeRendering-iOS/Source/Helper/DicomVolumeLoader.swift:120 | the slope used is never zero, and a non-zero slope is used as given |
| DicomLoader.Rescale | VolumeRendering-iOS/Source/Helper/DicomVolumeLoader.swift:133-134 | the HU value is an integer within 0.5 of `raw * slope + intercept`; with slope 0 or 1 and a whole intercept it is exactly `raw + intercept` |
| DicomLoader.HUAt | VolumeRendering-iOS/Source/Helper/DicomVolumeLoader.swift:129-134 | voxel i's HU value is the rescale of bytes 2i and 2i+1 read little-endian, as `Int16` for a signed series and as `UInt16` otherwise |
| DicomLoader.RawValue | VolumeRendering-iOS/Source/Helper/DicomVolumeLoader.swift:129-132 | a raw sample read from the series lies in the default range of the series' sample format |
| DicomLoader.StoredValue | VolumeRendering-iOS/Source/Helper/DicomVolumeLoader.swift:137-139 | every stored sample is the HU value clamped to [-1024, 3071], so it equals the HU value when that is inside; since the window lies inside the `Int16` range, the second clamp adds nothing |
| DicomLoader.HUValues | VolumeRendering-iOS/Source/Helper/DicomVolumeLoader.swift:131-134 | there is one HU value per voxel, and value i is the rounded rescale of raw sample i |
| DicomLoader.SeqMin | VolumeRendering-iOS/Source/Helper/DicomVolumeLoader.swift:135 | the minimum is a lower bound of the sequence and is one of its elements |
| DicomLoader.SeqMax | VolumeRendering-iOS/Source/Helper/DicomVolumeLoader.swift:136 | the maximum is an upper bound of the sequence and is one of its elements |
| DicomLoader.ExtremesOfLongerPrefix | VolumeRendering-iOS/Source/Helper/DicomVolumeLoader.swift:135-136 | extending a prefix by one value updates its minimum and maximum with one `min` and one `max` |
| DicomLoader.SeqMinUnique | VolumeRendering-iOS/Source/Helper/DicomVolumeLoader.swift:135 | a lower bound that occurs in the sequence is its minimum |
| DicomLoader.SeqMaxUnique | VolumeRendering-iOS/Source/Helper/DicomVolumeLoader.swift:136 | an upper bound that occurs in the sequence is its maximum |
| DicomLoader.ClampCommutesWithExtremes | VolumeRendering-iOS/Source/Helper/DicomVolumeLoader.swift:135-137 | the minimum (maximum) of the clamped values is the clamp of the minimum (maximum) |
| DicomLoader.RunningExtremesAreExtremes | VolumeRendering-iOS/Source/Helper/DicomVolumeLoader.swift:114-115 | starting from `Int32.max` and `Int32.min`, the running min and max over a non-empty prefix are its true minimum and maximum |
| DicomLoader.ConvertPass | VolumeRendering-iOS/Source/Helper/DicomVolumeLoader.swift:114-152 | the loop stores the clamped value of every voxel and ends with the true extremes, or with the sentinels when there are no voxels |
| DicomLoader.ConvertSamples | VolumeRendering-iOS/Source/Helper/DicomVolumeLoader.swift:125-155 | for signed and unsigned series alike, sample i is the clamped HU value of voxel i, and the running bounds are the extremes of the HU values, or the sentinels when there are no voxels |
| DicomLoader.ClosedRange | VolumeRendering-iOS/Source/Helper/DicomVolumeLoader.swift:174-175 | `minHU...maxHU` succeeds exactly when the bounds are ordered |
| DicomLoader.AsWrittenRange | VolumeRendering-iOS/Source/Helper/DicomVolumeLoader.swift:157-175 | an empty pass reports the CT window; otherwise the literal reduction traps exactly when both bounds lie above 3071 or both below -1024, and when it does not it returns [max(min, -1024), min(max, 3071)], inside [-1024, 3071] |
| DicomLoader.CorrectedRange | VolumeRendering-iOS/Source/Helper/DicomVolumeLoader.swift:157-163 | the corrected reduction always gives an ordered range inside [-1024, 3071] |
| DicomLoader.EmptyPassReportsWindow | VolumeRendering-iOS/Source/Helper/DicomVolumeLoader.swift:157-159 | with zero voxels both reductions report [-1024, 3071] |
| DicomLoader.AsWrittenTrapsIff | VolumeRendering-iOS/Source/Helper/DicomVolumeLoader.swift:157-175 | the as-written range traps exactly when every HU value is above 3071 or every one is below -1024 |
| DicomLoader.AsWrittenAgreesWhenDefined | VolumeRendering-iOS/Source/Helper/DicomVolumeLoader.swift:160-163 | whenever the as-written reduction does not trap, it equals the corrected one |
| DicomLoader.CorrectedRangeIsStoredRange | VolumeRendering-iOS/Source/Helper/DicomVolumeLoader.swift:157-163 | the corrected range is exactly the minimum and maximum of the stored samples |
| DicomLoader.TrapExampleTraps | VolumeRendering-iOS/Source/Helper/DicomVolumeLoader.swift:175 | a one-voxel series whose sample is 5000 HU makes the as-written range trap |
| DicomLoader.ConvertToHUAsWritten | VolumeRendering-iOS/Source/Helper/DicomVolumeLoader.swift:110-176 | the literal conversion fails exactly on the crossing bounds; otherwise it holds two bytes per voxel, each the stored value of that voxel, and reports [max(min HU, -1024), min(max HU, 3071)], or the CT window for an empty series |
| DicomLoader.ConvertToHU | VolumeRendering-iOS/Source/Helper/DicomVolumeLoader.swift:110-176 | the corrected conversion stores every voxel's clamped HU value; the reported range is the clamped [min HU, max HU], so it contains every stored sample and both of its ends are attained; an empty series reports the CT window |
| DicomLoader.RescaleMonotone | VolumeRendering-iOS/Source/Helper/DicomVolumeLoader.swift:133-134 | with a positive slope, a larger raw value never gives a smaller HU value |
| DicomLoader.StoredMonotone | VolumeRendering-iOS/Source/Helper/DicomVolumeLoader.swift:133-137 | with a positive slope, the stored samples keep the order of the raw values |
| DicomLoader.LoadVolume | VolumeRendering-iOS/Source/Helper/DicomVolumeLoader.swift:37-52 | with the corrected range reduction: a bit depth other than 16 fails with `unsupportedBitDepth`; otherwise the dataset is signed 16-bit with the series' dimensions, spacing in metres (mm * 0.001), the converted samples and, as intensity range, the clamped [min HU, max HU] of the series, whose both ends occur among the samples, or the CT window [-1024, 3071] when there are no voxels |
| DicomLoader.LoadVolumeAsWritten | VolumeRendering-iOS/Source/Helper/DicomVolumeLoader.swift:37-52 | the literal load: a bit depth other than 16 fails with `unsupportedBitDepth`; a non-empty 16-bit series traps exactly when all its HU values lie above 3071 or all below -1024; otherwise the dataset is signed 16-bit with the series' grid, spacing in metres, each voxel's stored value and, as intensity range, [max(min HU, -1024), min(max HU, 3071)], or the CT window for an empty series |
| DicomLoader.MillimetresToMetres | VolumeRendering-iOS/Source/Helper/DicomVolumeLoader.swift:42-45 | the metre value times 1000 is the millimetre value, and the sign is kept |
| TextureFactory.Concat | VolumeRendering-iOS/Source/Core/VolumeTextureFactory.swift:106-112 | the appended data is empty exactly when every archive entry is empty |
| TextureFactory.Placeholder | VolumeRendering-iOS/Source/Core/VolumeTextureFactory.swift:82-89 | the placeholder is one zero voxel with unit spacing and the CT window, and its buffer length matches its grid (2 bytes) |
| TextureFactory.LoadZippedResource | VolumeRendering-iOS/Source/Core/VolumeTextureFactory.swift:91-128 | a missing resource, an unreadable archive, a failed extraction or empty data gives the placeholder; otherwise the requested metadata with the extracted bytes, unchecked |
| TextureFactory.DatasetFor | VolumeRendering-iOS/Source/Core/VolumeTextureFactory.swift:63-80 | `.none` and `.dicom` give the placeholder; head is 512x512x511 at (0.000449, 0.000449, 0.000501) and chest 512x512x179 at (0.000586, 0.000586, 0.002), signed with the CT window, whenever their archives load |
| TextureFactory.PresetLoadedIff | VolumeRendering-iOS/Source/Core/VolumeTextureFactory.swift:63-128 | a preset differs from the placeholder exactly when its archive extracts to non-empty data |
| TextureFactory.Update | VolumeRendering-iOS/Source/Core/VolumeTextureFactory.swift:16-22 | after `update`, resolution, dimension and scale are the new dataset's spacing, dimensions and extent |
| TextureFactory.Resolution | VolumeRendering-iOS/Source/Core/VolumeTextureFactory.swift:16 | the factory's resolution is its dataset's voxel spacing |
| TextureFactory.Dimension | VolumeRendering-iOS/Source/Core/VolumeTextureFactory.swift:17 | the factory's dimension is its dataset's grid |
| TextureFactory.FactoryScale | VolumeRendering-iOS/Source/Core/VolumeTextureFactory.swift:18 | the factory's scale is the volume's physical extent: spacing times grid size on each axis |
| TextureFactory.Generate | VolumeRendering-iOS/Source/Core/VolumeTextureFactory.swift:24-59 | a texture exists exactly when the device makes one; its format follows the sample format, its size is the dataset's dimensions, and the row and image strides are 2*width and row*height |
| TextureFactory.UploadCoversData | VolumeRendering-iOS/Source/Core/VolumeTextureFactory.swift:38-55 | for a buffer that matches its grid, image stride times depth is exactly the buffer length |
| LegacyTextureFactory.Init | VolumeRendering-iOS/Source/Core/VolumeTexture.swift:19-37 | head and chest get their scanned grid and spacing; every other part gets 1x1x1 with unit spacing |
| LegacyTextureFactory.LegacyScale | VolumeRendering-iOS/Source/Core/VolumeTexture.swift:11-17 | the scale is resolution times dimension, component by component |
| LegacyTextureFactory.PresetsAgree | VolumeRendering-iOS/Source/Core/VolumeTexture.swift:23-33 | whenever the newer factory loads a preset, the legacy factory declares the same grid and spacing for it |
| LegacyTextureFactory.Generate | VolumeRendering-iOS/Source/Core/VolumeTexture.swift:39-103 | `.none` gives a texture without upload exactly when the device makes one; other parts read the archive named after their raw value: missing or unreadable gives nil, a failed extraction crashes (`try!`), and extracted data gives a texture exactly when the device makes one; the upload is `r16Sint` with strides 2*width and row*height |
| LegacyTextureFactory.DicomNeedsBundledArchive | VolumeRendering-iOS/Source/Core/VolumeTexture.swift:50-67 | without a bundled "dicom" archive, the legacy factory gives no texture for `.dicom`, while the newer one falls back to the placeholder |
| BodyParts.RawValue | VolumeRendering-iOS/Source/Core/VolumeCubeMaterial.swift:29-30 | each part's raw value is its case name ("none", "chest", "head", "dicom"), and each name belongs to exactly one part |
| BodyParts.RawValueInjective | VolumeRendering-iOS/Source/Core/VolumeCubeMaterial.swift:29-30 | distinct parts have distinct raw values, so a resource name identifies its part |
| BodyParts.DisplayName | VolumeRendering-iOS/Source/Core/VolumeCubeMaterial.swift:34-43 | `.none` is shown as "none", `.dicom` as "DICOM" and every other part by its raw value |
| BodyParts.DisplayNameInjective | VolumeRendering-iOS/Source/Core/VolumeCubeMaterial.swift:34-43 | no two parts share a label, and only `.dicom` is shown differently from its raw value |
| Homogeneous.AffineInverse | VolumeRendering-iOS/Source/Core/DICOMGeometry.swift:35 | `simd_inverse` of an affine matrix with an invertible linear part is a two-sided inverse |
| Homogeneous.BlockInverse | VolumeRendering-iOS/Source/Core/DICOMGeometry.swift:35 | `simd_inverse` of the matrix as constructed (translation in the w row) is a two-sided inverse |
| DicomGeometry.IopNorm | VolumeRendering-iOS/Source/Core/DICOMGeometry.swift:19 | the slice normal is a unit vector orthogonal to both orientation vectors |
| DicomGeometry.VoxelToWorldAsWritten | VolumeRendering-iOS/Source/Core/DICOMGeometry.swift:22-33 | the matrix as constructed is the transposed scaled frame with `ipp0` in the w row |
| DicomGeometry.VoxelToWorldAsWrittenApply | VolumeRendering-iOS/Source/Core/DICOMGeometry.swift:22-33 | the constructed matrix applies the transposed scaled frame to v and adds `ipp0 . v` to w, so `ipp0` never reaches the position |
| DicomGeometry.AsWrittenMatchesDocIff | VolumeRendering-iOS/Source/Core/DICOMGeometry.swift:21-33 | the construction agrees with the formula on line 21 exactly when `ipp0` is zero and the scaled frame is symmetric |
| DicomGeometry.IdentityOrientationVoxelToWorld | VolumeRendering-iOS/Source/Core/DICOMGeometry.swift:22-33 | with identity orientation and `ipp0 = 0`, the slice normal is z and the constructed matrix maps voxel (i, j, k) to (i dx, j dy, k dz), as documented |
| DicomGeometry.AsWrittenLosesPosition | VolumeRendering-iOS/Source/Core/DICOMGeometry.swift:21-33 | with the first slice at (10, 0, 0) mm, the constructed matrix sends voxel 0 to the origin instead |
| DicomGeometry.VoxelToWorld | VolumeRendering-iOS/Source/Core/DICOMGeometry.swift:21 | the corrected matrix maps voxel v to ipp0 + i dx r + j dy c + k dz n |
| DicomGeometry.WorldToVoxelAsWritten | VolumeRendering-iOS/Source/Core/DICOMGeometry.swift:35 | the inverse of the constructed matrix exists exactly when its frame is non-singular, and is then two-sided |
| DicomGeometry.WorldToVoxel | VolumeRendering-iOS/Source/Core/DICOMGeometry.swift:35 | the inverse of the corrected matrix exists exactly when the frame is non-singular, and is then two-sided |
| DicomGeometry.WorldToVoxelRoundTrip | VolumeRendering-iOS/Source/Core/DICOMGeometry.swift:21-35 | world-to-voxel undoes voxel-to-world on every voxel |
| DicomGeometry.HalfAsWritten | VolumeRendering-iOS/Source/Core/DICOMGeometry.swift:41-46 | the constructed half-voxel matrix has the 0.5/d terms in its w row |
| DicomGeometry.VoxelToTexAsWritten | VolumeRendering-iOS/Source/Core/DICOMGeometry.swift:38-48 | the constructed map is defined exactly when all three dimensions are non-zero |
| DicomGeometry.VoxelToTexAsWrittenApply | VolumeRendering-iOS/Source/Core/DICOMGeometry.swift:38-48 | the constructed map's `.xyz` is v / dims: the half-voxel shift ends up in w |
| DicomGeometry.VoxelToTexAsWrittenLosesHalfVoxel | VolumeRendering-iOS/Source/Core/DICOMGeometry.swift:37-48 | voxel 0 maps to texture 0, not to the voxel centre that line 37 promises |
| DicomGeometry.VoxelToTex | VolumeRendering-iOS/Source/Core/DICOMGeometry.swift:37 | the corrected map sends voxel v to (v + 0.5) / dims |
| DicomGeometry.TexCoordBounds | VolumeRendering-iOS/Source/Core/DICOMGeometry.swift:37 | for an in-bounds index, v / d lies in [0, 1) and (v + 0.5) / d strictly inside (0, 1) |
| DicomGeometry.WorldToTexAsWritten | VolumeRendering-iOS/Source/Core/DICOMGeometry.swift:51 | the literal composition is defined exactly when the grid has extent and the frame is non-singular; after the constructed voxel-to-world it gives the constructed voxel-to-texture map |
| DicomGeometry.WorldToTex | VolumeRendering-iOS/Source/Core/DICOMGeometry.swift:51 | with the corrected maps, the composition is defined under the same conditions, and after voxel-to-world it gives the voxel-centre texture map |
| DicomGeometry.WorldToTexOfVoxel | VolumeRendering-iOS/Source/Core/DICOMGeometry.swift:51 | the world position of voxel v maps to its voxel-centre texture coordinate |
| DicomGeometry.PlaneThrough | VolumeRendering-iOS/Source/Core/DICOMGeometry.swift:61-64 | the origin is the `.xyz` of the mapped point; each axis is the mapped direction (w = 0), so the w row is ignored |
| DicomGeometry.EdgeIsDirection | VolumeRendering-iOS/Source/Core/DICOMGeometry.swift:62-63 | the difference of two mapped points is the mapped direction between them |
| DicomGeometry.PlaneAxesIgnoreOrigin | VolumeRendering-iOS/Source/Core/DICOMGeometry.swift:55-65 | the texture-space axes do not depend on the world origin |
| DicomGeometry.PlaneAxisLinear | VolumeRendering-iOS/Source/Core/DICOMGeometry.swift:55-65 | the texture-space axes are additive and homogeneous in the world axes, and a zero axis maps to zero |
| DicomGeometry.PlaneWorldToTex | VolumeRendering-iOS/Source/Core/DICOMGeometry.swift:55-65 | with the corrected maps, the plane conversion is defined exactly when world-to-texture is |
| DicomGeometry.PlaneWorldToTexAsWritten | VolumeRendering-iOS/Source/Core/DICOMGeometry.swift:55-65 | the literal plane conversion is defined exactly when the literal world-to-texture map is |
| DicomGeometry.PlaneOriginAtVoxelCentre | VolumeRendering-iOS/Source/Core/DICOMGeometry.swift:55-65 | a plane through a voxel's world position has that voxel's centre as its texture origin |
| MprMaterial.BlendRawRoundTrip | VolumeRendering-iOS/Source/Core/MPRPlaneMaterial.swift:17-19 | blend modes and raw values 0..3 convert into each other in both directions |
| MprMaterial.BlendFromRaw | VolumeRendering-iOS/Source/Core/MPRPlaneMaterial.swift:17-19 | a raw value names a blend mode exactly when it is in 0..3 |
| MprMaterial.InitialMaterial | VolumeRendering-iOS/Source/Core/MPRPlaneMaterial.swift:21-53 | a new material has the default uniforms, a 1x1x1 grid, unit resolution and the placeholder factory |
| MprMaterial.SetDataset | VolumeRendering-iOS/Source/Core/MPRPlaneMaterial.swift:56-59 | dimension and resolution are replaced; the uniforms and the factory are untouched |
| MprMaterial.SetHU | VolumeRendering-iOS/Source/Core/MPRPlaneMaterial.swift:112-116 | both bounds are stored verbatim, unordered, and nothing else changes |
| MprMaterial.SetBlend | VolumeRendering-iOS/Source/Core/MPRPlaneMaterial.swift:118-121 | the stored raw value decodes back to the chosen mode and nothing else changes |
| MprMaterial.SetUseTF | VolumeRendering-iOS/Source/Core/MPRPlaneMaterial.swift:182-185 | the flag is 1 exactly when on and 0 exactly when off, and nothing else changes |
| MprMaterial.DimAlong | VolumeRendering-iOS/Source/Core/MPRPlaneMaterial.swift:130-134 | axis 0 reads the x size, axis 1 the y size, and every other axis the z size, like the `default:` branch |
| MprMaterial.AxisDenominator | VolumeRendering-iOS/Source/Core/MPRPlaneMaterial.swift:129-134 | the divisor is at least 1 and is the dimension along the axis when that is positive; axes other than 0 and 1 use z |
| MprMaterial.SetSlab | VolumeRendering-iOS/Source/Core/MPRPlaneMaterial.swift:128-138 | the step count is at least 1 and equals a positive request; twice the half-thickness times the divisor is the thickness in voxels; nothing else changes |
| MprMaterial.SlabEdgeCases | VolumeRendering-iOS/Source/Core/MPRPlaneMaterial.swift:128-138 | zero thickness gives a zero half-thickness, and any axis outside {0, 1} acts as axis 2 |
| MprMaterial.ClampSlice | VolumeRendering-iOS/Source/Core/MPRPlaneMaterial.swift:143 | the slice index is clamped into [0, dim-1] and in-range indices are kept |
| MprMaterial.SliceCoord | VolumeRendering-iOS/Source/Core/MPRPlaneMaterial.swift:143-145 | the plane coordinate is positive; for dim >= 1 it times dim is the clamped index plus one half (the voxel centre); an empty axis gives 0.5 |
| MprMaterial.SliceCoordInside | VolumeRendering-iOS/Source/Core/MPRPlaneMaterial.swift:143-145 | for dim >= 1 the plane coordinate lies strictly inside (0, 1) and falls in the voxel of the clamped index |
| MprMaterial.SliceCoordSaturates | VolumeRendering-iOS/Source/Core/MPRPlaneMaterial.swift:143-145 | out-of-range indices give the same coordinate as the nearest end slice |
| MprMaterial.SliceCoordIsVoxelCentre | VolumeRendering-iOS/Source/Core/MPRPlaneMaterial.swift:144-145 | the slice coordinate is the voxel-centre texture coordinate of the corrected geometry |
| MprMaterial.SetAxial | VolumeRendering-iOS/Source/Core/MPRPlaneMaterial.swift:142-150 | the origin is (0, 0, slice coordinate along z), the axes are x and y, and no other uniform changes |
| MprMaterial.SetSagittal | VolumeRendering-iOS/Source/Core/MPRPlaneMaterial.swift:153-160 | the origin is (slice coordinate along x, 0, 0), the axes are y and z, and no other uniform changes |
| MprMaterial.SetCoronal | VolumeRendering-iOS/Source/Core/MPRPlaneMaterial.swift:163-170 | the origin is (0, slice coordinate along y, 0), the axes are x and z, and no other uniform changes |
| MprMaterial.CanonicalPlanesAreSlices | VolumeRendering-iOS/Source/Core/MPRPlaneMaterial.swift:142-170 | every point of a canonical plane has the slice coordinate on its normal axis; the normals are +z, +x and -y |
| MprMaterial.SetOblique | VolumeRendering-iOS/Source/Core/MPRPlaneMaterial.swift:174-179 | origin and axes are stored verbatim and no other uniform changes |
| MprMaterial.CanonicalIsOblique | VolumeRendering-iOS/Source/Core/MPRPlaneMaterial.swift:142-179 | each canonical setter is the oblique setter with the fixed axis pair |
| MprMaterial.Apply | VolumeRendering-iOS/Source/Core/MPRPlaneMaterial.swift:193-209 | the factory is always replaced; only when a texture is made do dimension, resolution and the HU window follow the dataset |
| MprMaterial.SetPart | VolumeRendering-iOS/Source/Core/MPRPlaneMaterial.swift:104-106 | the part's dataset is installed, and with a texture the grid and window are the preset's |
| MprMaterial.SetVolume | VolumeRendering-iOS/Source/Core/MPRPlaneMaterial.swift:108-110 | the given dataset is installed, and with a texture the grid, spacing and window are the dataset's |
| Rodrigues.AsWrittenIsTranspose | VolumeRendering-iOS/Source/View/TriPlanarMPR.swift:52-56 | the matrix built from rows passed as columns is the transpose of the textbook Rodrigues matrix |
| Rodrigues.AsWrittenIsReverse | VolumeRendering-iOS/Source/View/TriPlanarMPR.swift:49-56 | that matrix is the textbook matrix for the opposite angle |
| Rodrigues.AsWrittenApply | VolumeRendering-iOS/Source/View/TriPlanarMPR.swift:52-56 | applying the constructed matrix is Rodrigues' rotation formula for -delta |
| Rodrigues.TextbookApply | VolumeRendering-iOS/Source/View/TriPlanarMPR.swift:52-56 | the textbook matrix applies Rodrigues' rotation formula |
| Rodrigues.RotatePreservesDot | VolumeRendering-iOS/Source/View/TriPlanarMPR.swift:48-56 | about a unit axis with c^2 + s^2 = 1, the rotation preserves every dot product |
| Rodrigues.RotateFixesAxis | VolumeRendering-iOS/Source/View/TriPlanarMPR.swift:48-56 | the rotation leaves its unit axis fixed |
| Rodrigues.AsWrittenOrthonormal | VolumeRendering-iOS/Source/View/TriPlanarMPR.swift:48-56 | the constructed matrix is orthonormal for a unit axis and c^2 + s^2 = 1 |
| Rodrigues.AsWrittenFixesAxis | VolumeRendering-iOS/Source/View/TriPlanarMPR.swift:48-56 | the constructed matrix fixes the unit axis |
| Rodrigues.AsWrittenAtZero | VolumeRendering-iOS/Source/View/TriPlanarMPR.swift:49-56 | at delta = 0 (c = 1, s = 0) the constructed matrix is the identity |
| TriPlanar.Initial | VolumeRendering-iOS/Source/View/TriPlanarMPR.swift:30-35 | the initial state is the identity frame, which is orthonormal, and the crosshair (0.5, 0.5, 0.5), which is inside [eps, 1-eps]^3 |
| TriPlanar.BaseColumn | VolumeRendering-iOS/Source/View/TriPlanarMPR.swift:38-44 | the base column is R applied to the unit vector of the index |
| TriPlanar.BaseColumnIndices | VolumeRendering-iOS/Source/View/TriPlanarMPR.swift:38-44 | index 0 gives column 0, index 1 column 1, and any other index column 2 |
| TriPlanar.ClampToBox | VolumeRendering-iOS/Source/View/TriPlanarMPR.swift:62-64 | the clamp always lands in the box and leaves points inside unchanged |
| TriPlanar.Translate | VolumeRendering-iOS/Source/View/TriPlanarMPR.swift:61-65 | R never changes; the crosshair always stays in the box; an in-box target is reached exactly; a zero delta keeps an in-box crosshair |
| TriPlanar.Rotate | VolumeRendering-iOS/Source/View/TriPlanarMPR.swift:47-58 | the rotation is undefined exactly when base column i has length zero, which an orthonormal R never has; it keeps the crosshair and orthonormality, fixes column i of an orthonormal R, and changes nothing at delta = 0 |
| TriPlanar.UAxis | VolumeRendering-iOS/Source/View/TriPlanarMPR.swift:126-132 | the horizontal axis is an in-plane axis (not the normal) and the lower of the two |
| TriPlanar.VAxis | VolumeRendering-iOS/Source/View/TriPlanarMPR.swift:126-132 | the vertical axis is an in-plane axis (not the normal), y or z |
| TriPlanar.NormalAxis | VolumeRendering-iOS/Source/View/TriPlanarMPR.swift:126-132 | axial looks along z, coronal along y and sagittal along x, and each normal belongs to exactly one viewport |
| TriPlanar.AxesArePermutation | VolumeRendering-iOS/Source/View/TriPlanarMPR.swift:126-132 | each plane's u axis, v axis and normal are the three base axes |
| TriPlanar.ViewportPose | VolumeRendering-iOS/Source/View/TriPlanarMPR.swift:120-136 | u and v are the plane's base columns and the plane's centre is the crosshair |
| TriPlanar.ViewportIsNormalToAxis | VolumeRendering-iOS/Source/View/TriPlanarMPR.swift:126-132 | for an orthonormal R, both plane axes are orthogonal to the plane's normal column and to each other |
| TriPlanar.ViewportApply | VolumeRendering-iOS/Source/View/TriPlanarMPR.swift:120-138 | the material receives the plane's axes and a centred origin; no other uniform or field changes |
| TriPlanar.IdentityOrigins | VolumeRendering-iOS/Source/View/TriPlanarMPR.swift:127-136 | with R = I, each viewport's origin is the crosshair moved back by 0.5 along both of its in-plane axes (x, y for axial; x, z for coronal; y, z for sagittal) |
| TriPlanar.InitialOrigins | VolumeRendering-iOS/Source/View/TriPlanarMPR.swift:237 | from R = I with the crosshair at the centre, the origins are (0, 0, 0.5), (0, 0.5, 0) and (0.5, 0, 0) |
| TriPlanar.IdentityAxialIsCanonical | VolumeRendering-iOS/Source/View/TriPlanarMPR.swift:120-138 | with R = I and the crosshair at (0.5, 0.5, slice coordinate of k), the axial viewport sets exactly the canonical axial plane of slice k |
| TriPlanar.IdentityCoronalIsCanonical | VolumeRendering-iOS/Source/View/TriPlanarMPR.swift:120-138 | with R = I and the crosshair at (0.5, slice coordinate of k, 0.5), the coronal viewport sets exactly the canonical coronal plane of slice k |
| TriPlanar.IdentitySagittalIsCanonical | VolumeRendering-iOS/Source/View/TriPlanarMPR.swift:120-138 | with R = I and the crosshair at (slice coordinate of k, 0.5, 0.5), the sagittal viewport sets exactly the canonical sagittal plane of slice k |
| TriPlanar.ViewportSetDataset | VolumeRendering-iOS/Source/View/TriPlanarMPR.swift:111-117 | the viewport takes the grid and spacing and resets to a thin slab (half-thickness 0, one step); nothing else changes |
| TriPlanar.SyncAll | VolumeRendering-iOS/Source/View/TriPlanarMPR.swift:242-244 | after a sync, all three viewports are centred on the crosshair |
| TriPlanar.GestureAxis | VolumeRendering-iOS/Source/View/TriPlanarMPR.swift:253-312 | the vertical line drags along the plane's u axis, the horizontal line along its v axis, and the twist rotates about its normal |
| TriPlanar.OnDrag | VolumeRendering-iOS/Source/View/TriPlanarMPR.swift:253-262 | a drag keeps R, keeps the crosshair in the box, and moves it by delta along the viewport's u axis (vertical line) or v axis (horizontal line) when the target is in the box |
| TriPlanar.OnTwist | VolumeRendering-iOS/Source/View/TriPlanarMPR.swift:263-267 | a twist about the viewport's normal exists for an orthonormal R, keeps R orthonormal, keeps that normal column and the crosshair fixed, and leaves the viewport's centre in place |
| TriPlanar.TwistDeltas | VolumeRendering-iOS/Source/View/TriPlanarMPR.swift:200-206 | each update of a rotation gesture produces one delta |
| TriPlanar.TwistDeltasTelescope | VolumeRendering-iOS/Source/View/TriPlanarMPR.swift:200-205 | the deltas of a gesture sum to the last angle minus the starting one |
| TriPlanar.OneGestureSumsToFinalAngle | VolumeRendering-iOS/Source/View/TriPlanarMPR.swift:200-206 | since `lastAngle` is reset to 0 at the end, the deltas of one gesture sum to its final angle |
| NodeBasis.ZeroLength | VolumeRendering-iOS/Source/Helper/SCNNode+Basis.swift:13-17 | a length is zero exactly for the zero vector, so `width > 0` is the same test as u != 0 |
| NodeBasis.NormalizeOr | VolumeRendering-iOS/Source/Helper/SCNNode+Basis.swift:17-19 | a non-zero vector normalizes to a unit vector that rescales back to it; the zero vector gives the fallback |
| NodeBasis.UHat | VolumeRendering-iOS/Source/Helper/SCNNode+Basis.swift:17 | Uhat is a unit vector for every u, including u = 0 |
| NodeBasis.VOrtho | VolumeRendering-iOS/Source/Helper/SCNNode+Basis.swift:18 | vOrtho is orthogonal to a unit Uhat, and adding back the removed component gives v |
| NodeBasis.VHat | VolumeRendering-iOS/Source/Helper/SCNNode+Basis.swift:19 | Vhat is a unit vector for every vOrtho, including a zero one |
| NodeBasis.Orientation | VolumeRendering-iOS/Source/Helper/SCNNode+Basis.swift:20-21 | the frame is undefined exactly when Uhat x Vhat is zero |
| NodeBasis.OrientationAxes | VolumeRendering-iOS/Source/Helper/SCNNode+Basis.swift:17-21 | the frame's columns are unit vectors, and the first rescales to u |
| NodeBasis.RotationIsProper | VolumeRendering-iOS/Source/Helper/SCNNode+Basis.swift:17-21 | when vOrtho is non-zero, (Uhat, Vhat, Nhat) is a right-handed orthonormal frame with determinant 1 |
| NodeBasis.VHatPerpendicular | VolumeRendering-iOS/Source/Helper/SCNNode+Basis.swift:18-19 | Vhat is orthogonal to Uhat |
| NodeBasis.RightHandedFrame | VolumeRendering-iOS/Source/Helper/SCNNode+Basis.swift:20-21 | two orthonormal vectors and their cross product form an orthonormal matrix of determinant 1 |
| NodeBasis.CrossOfOrthonormal | VolumeRendering-iOS/Source/Helper/SCNNode+Basis.swift:20 | the cross product of two orthonormal vectors is a unit vector |
| NodeBasis.SetTransformFromBasis | VolumeRendering-iOS/Source/Helper/SCNNode+Basis.swift:8-35 | on every input the size is |u| by |v| and the position plus (0.5, 0.5, 0.5) is the plane's centre; the rotation is the frame, missing exactly when Uhat x Vhat is zero |
| NodeBasis.ViewportNode | VolumeRendering-iOS/Source/Helper/SCNNode+Basis.swift:24 | for a viewport of an orthonormal navigator the pose exists: its rotation is (u, v, u x v) of the viewport, its size is 1 x 1, and its position is the crosshair minus (0.5, 0.5, 0.5) |
| NodeBasis.UHatOfUnit | VolumeRendering-iOS/Source/Helper/SCNNode+Basis.swift:17 | a unit u is its own Uhat |
| NodeBasis.VOrthoAlongX | VolumeRendering-iOS/Source/Helper/SCNNode+Basis.swift:18 | a v parallel to Uhat = x leaves nothing orthogonal |
| NodeBasis.ZeroFallsBackToY | VolumeRendering-iOS/Source/Helper/SCNNode+Basis.swift:19 | a zero vOrtho has length 0 and Vhat falls back to y |
| NodeBasis.ParallelAlongYIsDegenerate | VolumeRendering-iOS/Source/Helper/SCNNode+Basis.swift:17-20 | u = y with v parallel to it makes Vhat = Uhat, so Nhat is undefined |
| NodeBasis.ParallelAlongXFallsBack | VolumeRendering-iOS/Source/Helper/SCNNode+Basis.swift:17-21 | u = x with v parallel to it falls back to the identity frame |
| CubeMaterial.MethodId | VolumeRendering-iOS/Source/Core/VolumeCubeMaterial.swift:17-25 | every method id lies in 0..4 |
| CubeMaterial.MethodFromId | VolumeRendering-iOS/Source/Core/VolumeCubeMaterial.swift:17-25 | an id names a method exactly when it is in 0..4 |
| CubeMaterial.MethodIdRoundTrip | VolumeRendering-iOS/Source/Core/VolumeCubeMaterial.swift:17-26 | method and id convert into each other in both directions |
| CubeMaterial.MethodIdInjective | VolumeRendering-iOS/Source/Core/VolumeCubeMaterial.swift:17-26 | distinct methods have distinct ids |
| CubeMaterial.DefaultsAreConsistent | VolumeRendering-iOS/Source/Core/VolumeCubeMaterial.swift:48-81 | the defaults select DVR; the voxel window is the CT window; the density gate is ordered inside [0, 1]; flags are bits; the HU gate [-900, -500] lies inside the window |
| CubeMaterial.Scale | VolumeRendering-iOS/Source/Core/VolumeCubeMaterial.swift:93-94 | the cube's scale is the extent of the generator's dataset |
| CubeMaterial.Flag | VolumeRendering-iOS/Source/Core/VolumeCubeMaterial.swift:181 | true maps to 1 and false to 0 |
| CubeMaterial.SetMethod | VolumeRendering-iOS/Source/Core/VolumeCubeMaterial.swift:149-152 | the stored id decodes back to the chosen method and nothing else changes |
| CubeMaterial.SetLighting | VolumeRendering-iOS/Source/Core/VolumeCubeMaterial.swift:180-183 | the lighting flag is 1 exactly when on, and nothing else changes |
| CubeMaterial.SetUseTFOnProjections | VolumeRendering-iOS/Source/Core/VolumeCubeMaterial.swift:207-210 | the projection TF flag is 1 exactly when on, and nothing else changes |
| CubeMaterial.SetHuGate | VolumeRendering-iOS/Source/Core/VolumeCubeMaterial.swift:213-216 | the HU gate flag is 1 exactly when enabled, and nothing else changes |
| CubeMaterial.FlagSettersKeepBits | VolumeRendering-iOS/Source/Core/VolumeCubeMaterial.swift:180-216 | the flag setters keep every flag in {0, 1} |
| CubeMaterial.SetHuWindow | VolumeRendering-iOS/Source/Core/VolumeCubeMaterial.swift:218-222 | the gate bounds are stored verbatim and nothing else changes |
| CubeMaterial.HuWindowNotReordered | VolumeRendering-iOS/Source/Core/VolumeCubeMaterial.swift:218-222 | a reversed window is stored reversed: the bounds are not sorted |
| CubeMaterial.SetStep | VolumeRendering-iOS/Source/Core/VolumeCubeMaterial.swift:185-188 | for a non-negative step, the quality is the step truncated toward zero (q <= step < q + 1); nothing else changes |
| CubeMaterial.WholeStepIsExact | VolumeRendering-iOS/Source/Core/VolumeCubeMaterial.swift:186 | a whole-number step is stored exactly |
| CubeMaterial.SetDensityGate | VolumeRendering-iOS/Source/Core/VolumeCubeMaterial.swift:200-204 | for any inputs the stored gate satisfies 0 <= floor <= ceil <= 1; the floor is the input clamped to [0, 1]; nothing else changes |
| CubeMaterial.DensityCeilIsClamped | VolumeRendering-iOS/Source/Core/VolumeCubeMaterial.swift:202 | the ceiling is the input clamped to [floor, 1] |
| CubeMaterial.DensityGateKeepsOrderedInput | VolumeRendering-iOS/Source/Core/VolumeCubeMaterial.swift:200-204 | an already ordered gate inside [0, 1] is stored as given |
| CubeMaterial.DensityGateIdempotent | VolumeRendering-iOS/Source/Core/VolumeCubeMaterial.swift:200-204 | setting the resulting gate again changes nothing |
| CubeMaterial.Apply | VolumeRendering-iOS/Source/Core/VolumeCubeMaterial.swift:227-249 | the generator, and so the scale, is always replaced; on texture failure the uniforms are unchanged; on success dimX/Y/Z and the voxel window follow the dataset and nothing else changes |
| CubeMaterial.ApplyIdempotent | VolumeRendering-iOS/Source/Core/VolumeCubeMaterial.swift:227-249 | applying the same factory twice is the same as once |
| CubeMaterial.ApplyKeepsGateAndFlags | VolumeRendering-iOS/Source/Core/VolumeCubeMaterial.swift:227-249 | applying a dataset neither breaks nor repairs the gate ordering or the flag bits |
| CubeMaterial.SetPart | VolumeRendering-iOS/Source/Core/VolumeCubeMaterial.swift:155-157 | the part's dataset is installed, and with a texture its dimensions and window reach the uniforms |
| CubeMaterial.SetDataset | VolumeRendering-iOS/Source/Core/VolumeCubeMaterial.swift:159-161 | the given dataset is installed, and with a texture its dimensions and window reach the uniforms |
| CubeMaterial.Initial | VolumeRendering-iOS/Source/Core/VolumeCubeMaterial.swift:98-121 | a new material holds the placeholder dataset |
| CubeMaterial.InitialIsDefault | VolumeRendering-iOS/Source/Core/VolumeCubeMaterial.swift:98-121 | loading the placeholder leaves the default uniforms unchanged and the scale is (1, 1, 1) |
| CubeMaterial.InitialIsStable | VolumeRendering-iOS/Source/Core/VolumeCubeMaterial.swift:111 | loading `.none` again into a new material changes nothing |
| CubeMaterial.AgreesWithPlaneMaterial | VolumeRendering-iOS/Source/Core/VolumeCubeMaterial.swift:227-249 | given the same factory, the volume and plane materials adopt the same grid and HU window |
| SceneController.MapToVRMethod | VolumeRendering-iOS/Source/View/SceneViewController.swift:232-241 | the MPR mode maps to DVR |
| SceneController.ModeOf | VolumeRendering-iOS/Source/View/SceneViewController.swift:14-17 | each method has a volume-rendering mode (never MPR) that `mapToVRMethod` sends back to it |
| SceneController.MapToVRMethodIsIdentityOnShared | VolumeRendering-iOS/Source/View/SceneViewController.swift:232-241 | on the five shared modes the mapping and its inverse undo each other |
| SceneController.SetRenderMode | VolumeRendering-iOS/Source/View/SceneViewController.swift:220-229 | the volume is hidden exactly in MPR mode and the plane exactly outside it; only non-MPR modes change the method; nothing else changes |
| SceneController.SetRenderModeShowsMode | VolumeRendering-iOS/Source/View/SceneViewController.swift:220-229 | after a switch, visibility and method agree with the mode, and switching to the same mode again changes nothing |
| SceneController.HalfTowardZero | VolumeRendering-iOS/Source/View/SceneViewController.swift:63 | `Int32 / 2` rounds toward zero, for either sign |
| SceneController.PlaneAxis | VolumeRendering-iOS/Source/View/SceneViewController.swift:58-71 | the axis `setMPRPlane` selects lies in 0..2, is the plane's normal axis, and is neither of its in-plane axes |
| SceneController.PlaneAxisIsNormalAxis | VolumeRendering-iOS/Source/View/SceneViewController.swift:58-71 | the controller's axis for axial, coronal and sagittal (2, 1, 0) is the plane's normal axis in the tri-planar view |
| SceneController.ShowSlice | VolumeRendering-iOS/Source/View/SceneViewController.swift:270-283 | the plane shows the clamped slice along the axis and nothing else changes; without a plane nothing changes |
| SceneController.MprDimCurrent | VolumeRendering-iOS/Source/View/SceneViewController.swift:49-56 | the slider range is the dimension along the current axis (0 is x, 1 is y, anything else z), or 1 without a plane |
| SceneController.MprDimZ | VolumeRendering-iOS/Source/View/SceneViewController.swift:44-46 | the number of axial slices, or 1 without a plane |
| SceneController.SetMprPlane | VolumeRendering-iOS/Source/View/SceneViewController.swift:58-71 | the current axis becomes the plane's normal axis and the middle slice along it is shown |
| SceneController.MiddleSliceIsCentred | VolumeRendering-iOS/Source/View/SceneViewController.swift:63-69 | the middle slice dim/2 sits at texture coordinate 0.5, or at most half a voxel above it |
| SceneController.SliceIndex | VolumeRendering-iOS/Source/View/SceneViewController.swift:78-85 | slider 0 gives slice 0; slider 1 gives the last slice when there are at least two; the slider range [0, 1] covers [0, max(1, d-1)] |
| SceneController.SliceIndexReachesEverySlice | VolumeRendering-iOS/Source/View/SceneViewController.swift:78-85 | every slice index is reached by some slider position |
| SceneController.SliceIndexMonotone | VolumeRendering-iOS/Source/View/SceneViewController.swift:78-85 | moving the slider forward never moves the slice back |
| SceneController.UpdateSlice | VolumeRendering-iOS/Source/View/SceneViewController.swift:74-87 | the slider shows the slice it maps to, along the current axis; without a plane nothing changes |
| SceneController.SliderEndsShowEndSlices | VolumeRendering-iOS/Source/View/SceneViewController.swift:74-87 | slider 0 shows the first slice and slider 1 the last |
| SceneController.UpdateAxialSlice | VolumeRendering-iOS/Source/View/SceneViewController.swift:339-344 | the axial slider always moves the axial plane |
| SceneController.AxialSliderAgrees | VolumeRendering-iOS/Source/View/SceneViewController.swift:339-344 | when the current axis is z, the axial slider and the general slider do the same thing |
| SceneController.SetStep | VolumeRendering-iOS/Source/View/SceneViewController.swift:205-208 | the chosen step is remembered and applied, and nothing else changes |
| SceneController.SetAdaptive | VolumeRendering-iOS/Source/View/SceneViewController.swift:295 | only the adaptive flag changes |
| SceneController.SetStepIsChosenQuality | VolumeRendering-iOS/Source/View/SceneViewController.swift:205-208 | after `setStep` the volume renders at the chosen quality |
| SceneController.InteractionStep | VolumeRendering-iOS/Source/View/SceneViewController.swift:301 | the interactive step is max(64, last * 0.35): at least 64 and never above a last step of 64 or more |
| SceneController.OnGesture | VolumeRendering-iOS/Source/View/SceneViewController.swift:298-324 | with adaptive on, a begin lowers the quality to the interactive step and an end, cancel or failure restores the last step; other states, or adaptive off, change nothing; the last step is never changed |
| SceneController.GestureRestoresQuality | VolumeRendering-iOS/Source/View/SceneViewController.swift:298-324 | a begin followed by an end, cancel or failure returns the controller to where it was |
| SceneController.SetMprSlab | VolumeRendering-iOS/Source/View/SceneViewController.swift:260-268 | without a plane nothing changes; with one, only the plane's material changes, and it always renders at least one step |
| SceneController.SlabFollowsCurrentAxis | VolumeRendering-iOS/Source/View/SceneViewController.swift:260-268 | the net effect is one slab setting along the current axis |
| SceneController.SetDatasetForMprOnly | VolumeRendering-iOS/Source/View/SceneViewController.swift:346-354 | the plane takes the grid and spacing, and its scale becomes resolution times dimension |
| SceneController.MprOnlyScaleMatchesVolume | VolumeRendering-iOS/Source/View/SceneViewController.swift:346-354 | given a dataset's grid and spacing, the plane's scale is the same extent the volume gets from that dataset |
| SceneController.LoadPartIntoPlane | VolumeRendering-iOS/Source/View/SceneViewController.swift:175-185 | the plane shows the part's middle axial slice with a thin slab |
| SceneController.PlaneAfterPart | VolumeRendering-iOS/Source/View/SceneViewController.swift:170-186 | the plane's scale follows the volume; `.none` leaves its material alone, and other parts load into it |
| SceneController.SetPart | VolumeRendering-iOS/Source/View/SceneViewController.swift:167-189 | the volume takes the part's extent and the plane copies it; a real part shows its middle axial slice; the render mode is reapplied and still shown |
| SceneController.StartupVolume | VolumeRendering-iOS/Source/View/SceneViewController.swift:104-119 | the start-up volume holds the placeholder with the default uniforms at quality 128 |
| SceneController.StartupPlane | VolumeRendering-iOS/Source/View/SceneViewController.swift:140-141 | the start-up plane holds the placeholder dataset |
| SceneController.StartupVolumeIsSettled | VolumeRendering-iOS/Source/View/SceneViewController.swift:119-122 | setting quality 128 again changes nothing, and the cube's scale is (1, 1, 1) |
| SceneController.Started | VolumeRendering-iOS/Source/View/SceneViewController.swift:120-155 | after start-up the volume is visible at its scale; the plane is hidden with the same scale; the mode is DVR, adaptive is on and the axis is z |
| SceneController.OnAppear | VolumeRendering-iOS/Source/View/SceneViewController.swift:89-156 | after `onAppear` the visible nodes match the DVR mode, the volume renders at the chosen quality 128 on a (1, 1, 1) cube, adaptive quality is on, the axis is z, and the plane node is hidden, in the cube's frame, showing the placeholder |
| SceneController.StartedIsSettled | VolumeRendering-iOS/Source/View/SceneViewController.swift:120-155 | a DVR material already at quality 128 gives a start state that shows its mode at the chosen quality |
| SceneController.SliceControlsKeepMode | VolumeRendering-iOS/Source/View/SceneViewController.swift:58-71 | slice, slab and plane changes never break the agreement between visibility and render mode |

## Left out

- File and archive I/O is not modelled. This covers unzipping and directory preparation, Bundle lookups and FileManager cleanup. Each becomes an abstract outcome: `TextureFactory.ArchiveOutcome` for a bundled archive, and a `SeriesVolume` record for the decoder's result.
- The Objective-C DICOM decoder bridge (Bridging/DICOMSeriesLoader.h) is not modelled. Its result is an input record, and its errors are not modelled.
- GPU work is not modelled: texture creation and upload, uniform buffer packing, the `_pad` fields and stride padding. Texture creation is a boolean parameter (`deviceMakesTexture`) and upload is described by its layout.
- Transfer functions are not modelled. This covers the `Preset` enum, `setPreset`, `setShift`, `setTransferFunction` and their file loading, which are I/O on texture contents.
- SceneKit scene management is not modelled: camera, cull mode, node hierarchy, and the quaternion conversion of the node basis. A node's visibility and scale are fields of the controller.
- The transform sync `syncMPRTransformWithVolume` is modelled as copying the volume's scale to the plane node, which is the only part of the transform the controller changes.
- SwiftUI layout and drawing are not modelled. The drag handlers divide SwiftUI's translation by the view size; that normalisation is a parameter (`delta`). SwiftUI's `value.translation` is cumulative since the drag began and each `onChanged` passes it whole (TriPlanarMPR.swift:178, 191, 255-260), so `TriPlanar.OnDrag`'s `delta` is the model's per-step input, not what one `onChanged` applies; only the twist is differenced, through `lastAngle`.
- `setMPROblique` is not one member. Its parts are modelled: `DicomGeometry.PlaneWorldToTex`, `MprMaterial.SetOblique`, `NodeBasis.SetTransformFromBasis` and the visibility flag.
- `enableMPR`, `enableTriPlanarMPR` and `makeMPRNode` are not modelled. They create or show extra scene nodes and have no state the rest of the core reads.
- The controller's one-line forwarders are not modelled separately, because each one calls a modelled setter verbatim. These are `setMethod`, `setLighting`, `setDensityGate`, `setUseTFOnProjections`, `setHuGate`, `setHuWindow`, `setMPRBlend`, `setMPRHuWindow` and `setMPRUseTF`.
- Debug printing is not modelled.
- SceneController.OnAppear: models the first call only. A second `onAppear` builds fresh nodes and materials but keeps `activeRenderMode`, `lastStep`, `adaptiveOn` and `currentPlaneAxis` from before, so `IsStartState` need not hold after it.
- DicomLoader.ConvertToHU: requires `HUFitsInInt32`. `Int32(lround(x))` traps outside the `Int32` range, and that trap is excluded rather than modelled.
- DicomLoader.ConvertToHUAsWritten: requires `HUFitsInInt32`, for the same reason.
- DicomLoader.ConvertSamples: requires `HUFitsInInt32`, for the same reason.
- DicomLoader.ConvertPass: requires every HU value to fit in `Int32`, for the same reason.
- DicomLoader.LoadVolume: requires `HUFitsInInt32` and a buffer with one sample per voxel for 16-bit series. The decoder guarantees the buffer; the `Int32` trap is excluded as above. It also uses the corrected range reduction, so it succeeds, with range [3071, 3071] or [-1024, -1024], on the series where the source traps when building `minHU...maxHU` (DicomVolumeLoader.swift:175); `DicomLoader.LoadVolumeAsWritten` models that trap.
- DicomLoader.LoadVolumeAsWritten: requires `HUFitsInInt32` and the sample buffer, as `LoadVolume` does.
- Integer widths are not modelled: `Int32`/`Int` overflow and the trapping `Int32(...)` conversions of dimensions and steps. All integers are unbounded.
- Floating point is modelled as exact `real` arithmetic. Rounding drift, NaN and infinity are outside the model.
- Square roots, cosines and sines are witness parameters. `IsLength` pins a length down, and `c * c + s * s == 1` is an explicit precondition wherever a lemma needs it.
- NodeBasis.Orientation: returns `None` when Uhat x Vhat is zero. `simd_normalize` of the zero vector gives NaN components, which the model does not represent.
- NodeBasis.SetTransformFromBasis: on that same input the pose's rotation is `None` instead of a NaN quaternion; its position and plane size are still set. The model always sets the plane size, while the source sets it only when the node's geometry is an `SCNPlane` (SCNNode+Basis.swift:31); the scene graph is not modelled, so that test is left out.
- TriPlanar.Rotate: returns `None` for a zero base column. `normalize` of zero gives NaN in the source; for an orthonormal R this case cannot arise.
- DicomGeometry.WorldToVoxelAsWritten: returns `None` for a singular frame. `simd_inverse` gives a non-finite matrix there.

## Findings

| source | as written | input that shows it | evidently intended | confidence | as-written member | corrected member |
|---|---|---|---|---|---|---|
| VolumeRendering-iOS/Source/Helper/DicomVolumeLoader.swift:157-175 | a non-empty pass reduces the range with `max(minHU, -1024)` and `min(maxHU, 3071)` only, so when every HU value lies above 3071 (or below -1024) the bounds cross and `minHU...maxHU` traps | a one-voxel unsigned series whose sample is 5000, with slope 1 and intercept 0: the bounds are 5000 and 3071 | clamp both bounds into [-1024, 3071], which gives the range of the stored samples, here [3071, 3071] | not executed | DicomLoader.AsWrittenRange | DicomLoader.ConvertToHU |
| VolumeRendering-iOS/Source/Core/DICOMGeometry.swift:21-33 | the four vectors given to `simd_float4x4(columns:)` are the intended rows: the scaled frame is transposed and `ipp0` lands in the w row, so the voxel-to-world map has no translation | identity orientation, unit spacing, first slice at (10, 0, 0) mm: voxel (0, 0, 0) maps to (0, 0, 0) instead of (10, 0, 0) | the map `ipp0 + i dx r + j dy c + k dz n` of the doc comment, with the scaled directions as columns and `ipp0` as the translation column | not executed | DicomGeometry.AsWrittenLosesPosition | DicomGeometry.VoxelToWorld |
| VolumeRendering-iOS/Source/Core/DICOMGeometry.swift:37-48 | the half-voxel matrix is also built from rows given as columns, so the 0.5/d terms sit in the w row and `.xyz` of the map is v / dims | voxel (0, 0, 0) of any grid maps to texture (0, 0, 0), not to the voxel centre (0.5/cols, 0.5/rows, 0.5/slices) | (v + 0.5) / dims, as the doc comment states and as the canonical planes of the plane material use | not executed | DicomGeometry.VoxelToTexAsWrittenLosesHalfVoxel | DicomGeometry.VoxelToTex |

The corrected members are the ones the rest of the model builds on: `DicomLoader.LoadVolume` uses `ConvertToHU` (while `LoadVolumeAsWritten` keeps the literal conversion for comparison), and `DicomGeometry.WorldToTex` and `PlaneWorldToTex` use `VoxelToWorld` and `VoxelToTex`. The as-written plane conversion `DicomGeometry.PlaneWorldToTexAsWritten` stays in the model for comparison.

=== FILE: body_part.dfy ===
/** `VolumeCubeMaterial.BodyPart`: which bundled volume to show. */
module BodyParts {

  /** `.none`, `.chest`, `.head`, `.dicom`; `NoPart` is `.none`. */
  datatype BodyPart = NoPart | Chest | Head | Dicom

  /** The enum's raw value, which doubles as the bundled resource name. */
  function RawValue(p: BodyPart): (s: string)
    ensures |s| >= 4
    ensures s == "none" <==> p == NoPart
    ensures s == "dicom" <==> p == Dicom
    ensures s == "head" <==> p == Head
    ensures s == "chest" <==> p == Chest
  {
    match p
    case NoPart => "none"
    case Chest => "chest"
    case Head => "head"
    case Dicom => "dicom"
  }

  /** Distinct parts have distinct raw values, so a resource name identifies
      its part. */
  lemma RawValueInjective(a: BodyPart, b: BodyPart)
    ensures RawValue(a) == RawValue(b) ==> a == b
  {
  }

  /** The label shown in the picker: "none" and "DICOM" for the two special
      cases, the raw value otherwise. */
  function DisplayName(p: BodyPart): (s: string)
    ensures p == NoPart ==> s == "none"
    ensures p == Dicom ==> s == "DICOM"
    ensures p != Dicom ==> s == RawValue(p)
  {
    match p
    case NoPart => "none"
    case Dicom => "DICOM"
    case _ => RawValue(p)
  }

  /** Only the DICOM label differs from the raw value, and no two parts share
      a label. */
  lemma DisplayNameInjective(a: BodyPart, b: BodyPart)
    ensures DisplayName(a) == DisplayName(b) ==> a == b
    ensures DisplayName(a) != RawValue(a) <==> a == Dicom
  {
  }
}

=== FILE: bytes.dfy ===
/** Bytes and the little-endian 16-bit samples stored in them. Every Apple
    device the viewer runs on is little-endian, so `bindMemory(to: Int16.self)`
    reads a sample as low byte first. */
module Bytes {
  import opened Numeric

  newtype Byte = b: int | 0 <= b < 256

  /** The unsigned 16-bit value of a low and a high byte. */
  function U16(lo: Byte, hi: Byte): (r: int)
    ensures 0 <= r <= UInt16Max
  {
    lo as int + 256 * hi as int
  }

  /** The same two bytes read as a two's-complement `Int16`. */
  function S16(lo: Byte, hi: Byte): (r: int)
    ensures Int16Min <= r <= Int16Max
    ensures r == U16(lo, hi) || r == U16(lo, hi) - 65536
  {
    var u := U16(lo, hi);
    if u <= Int16Max then u else u - 65536
  }

  /** The two bytes of an `Int16`, low byte first. */
  function EncodeS16(v: int): (bs: seq<Byte>)
    requires Int16Min <= v <= Int16Max
    ensures |bs| == 2
    ensures S16(bs[0], bs[1]) == v
  {
    var u := if v < 0 then v + 65536 else v;
    [(u % 256) as Byte, (u / 256) as Byte]
  }

  /** Decoding then re-encoding gives the same two bytes back. */
  lemma EncodeDecodeS16(lo: Byte, hi: Byte)
    ensures EncodeS16(S16(lo, hi)) == [lo, hi]
  {
  }

  /** Sample `i` of a buffer of 16-bit samples, read as signed. */
  function ReadS16(data: seq<Byte>, i: nat): int
    requires 2 * i + 1 < |data|
  {
    S16(data[2 * i], data[2 * i + 1])
  }

  /** Sample `i` of a buffer of 16-bit samples, read as unsigned. */
  function ReadU16(data: seq<Byte>, i: nat): int
    requires 2 * i + 1 < |data|
  {
    U16(data[2 * i], data[2 * i + 1])
  }

  /** A buffer of `Int16` samples, two bytes each. */
  function EncodeAllS16(vs: seq<int>): (data: seq<Byte>)
    requires forall i :: 0 <= i < |vs| ==> Int16Min <= vs[i] <= Int16Max
    ensures |data| == 2 * |vs|
    ensures forall i :: 0 <= i < |vs| ==> ReadS16(data, i) == vs[i]
  {
    if vs == [] then []
    else
      var rest := EncodeAllS16(vs[1..]);
      var data := EncodeS16(vs[0]) + rest;
      assert forall i :: 1 <= i < |vs| ==> ReadS16(data, i) == ReadS16(rest, i - 1);
      data
  }
}

=== FILE: dicom_geometry.dfy ===
/** DICOM patient geometry (section C.7.6.2.1.1 of DICOM PS3.3, Image
    Position and Image Orientation): the maps between voxel indices (i, j, k),
    patient coordinates in millimetres, and normalized texture coordinates in
    [0, 1]^3.

    Each matrix is modelled twice. The `AsWritten` members follow the
    construction in the source, where the vectors handed to
    `simd_float4x4(columns:)` are the intended ROWS; the plain members are
    the maps the doc comments describe, and the plane conversion uses them. */
module DicomGeometry {
  import opened Linear
  import opened Homogeneous
  import opened Results

  datatype Geometry = Geometry(
    cols: int, rows: int, slices: int,
    spacingX: real, spacingY: real, spacingZ: real,
    iopRow: Vec3, iopCol: Vec3,
    ipp0: Vec3)

  /** `iopNorm`: the unit slice normal, given the length `len` of the cross
      product of the two orientation vectors. */
  function IopNorm(g: Geometry, len: real): (n: Vec3)
    requires IsLength(Cross(g.iopRow, g.iopCol), len) && len > 0.0
    ensures IsUnit(n)
    ensures Dot(n, g.iopRow) == 0.0 && Dot(n, g.iopCol) == 0.0
  {
    var c := Cross(g.iopRow, g.iopCol);
    var n := Normalize(c, len);
    CrossOrthogonal(g.iopRow, g.iopCol);
    DotScaleLeft(len, n, g.iopRow);
    DotScaleLeft(len, n, g.iopCol);
    ZeroFactor(len, Dot(n, g.iopRow));
    ZeroFactor(len, Dot(n, g.iopCol));
    n
  }

  lemma ZeroFactor(a: real, b: real)
    requires a != 0.0 && a * b == 0.0
    ensures b == 0.0
  {
  }

  /** The scaled direction matrix: its columns are the row direction times
      the column spacing, the column direction times the row spacing, and
      the normal `n` times the slice spacing. */
  function Frame(g: Geometry, n: Vec3): Mat3 {
    Mat3(Scale(g.spacingX, g.iopRow), Scale(g.spacingY, g.iopCol), Scale(g.spacingZ, n))
  }

  /** The map the doc comment of `voxelToWorld` promises:
      `ipp0 + i dx r + j dy c + k dz n`. */
  function DocumentedVoxelToWorld(g: Geometry, n: Vec3, v: Vec3): Vec3 {
    Add(g.ipp0, MulVec(Frame(g, n), v))
  }

  // ---------------------------------------------------------------- voxel -> world

  /** `voxelToWorld` as constructed: the four vectors are columns, so the
      scaled directions become rows and `ipp0` becomes the last row. */
  function VoxelToWorldAsWritten(g: Geometry, n: Vec3): (m: Mat4)
    ensures m == Block(Transpose(Frame(g, n)), g.ipp0)
  {
    var rx := Scale(g.spacingX, g.iopRow);
    var cy := Scale(g.spacingY, g.iopCol);
    var nz := Scale(g.spacingZ, n);
    var t := g.ipp0;
    Mat4(Vec4(rx.x, cy.x, nz.x, t.x),
         Vec4(rx.y, cy.y, nz.y, t.y),
         Vec4(rx.z, cy.z, nz.z, t.z),
         Vec4(0.0, 0.0, 0.0, 1.0))
  }

  /** The constructed matrix sends voxel `v` to `(r' . v, c' . v, n' . v)`, the
      scaled directions used as rows, and puts `ipp0 . v + 1` in w. */
  lemma VoxelToWorldAsWrittenApply(g: Geometry, n: Vec3, v: Vec3)
    ensures MulVec4(VoxelToWorldAsWritten(g, n), Point(v))
         == Extend(MulVec(Transpose(Frame(g, n)), v), Dot(g.ipp0, v) + 1.0)
  {
    BlockApply(Transpose(Frame(g, n)), g.ipp0, Point(v));
  }

  ghost predicate AsWrittenMatchesDoc(g: Geometry, n: Vec3) {
    forall v :: Xyz(MulVec4(VoxelToWorldAsWritten(g, n), Point(v))) == DocumentedVoxelToWorld(g, n, v)
  }

  /** The constructed matrix does what its doc comment says exactly when the
      first slice sits at the origin and the scaled direction matrix is
      symmetric. */
  lemma AsWrittenMatchesDocIff(g: Geometry, n: Vec3)
    ensures AsWrittenMatchesDoc(g, n) <==> g.ipp0 == Zero3 && Transpose(Frame(g, n)) == Frame(g, n)
  {
    var f := Frame(g, n);
    var t := Transpose(f);
    forall v ensures Xyz(MulVec4(VoxelToWorldAsWritten(g, n), Point(v))) == MulVec(t, v) {
      VoxelToWorldAsWrittenApply(g, n, v);
    }
    if AsWrittenMatchesDoc(g, n) {
      assert MulVec(t, Zero3) == DocumentedVoxelToWorld(g, n, Zero3);
      assert g.ipp0 == Zero3;
      assert MulVec(t, UnitX) == DocumentedVoxelToWorld(g, n, UnitX);
      assert MulVec(t, UnitY) == DocumentedVoxelToWorld(g, n, UnitY);
      assert MulVec(t, UnitZ) == DocumentedVoxelToWorld(g, n, UnitZ);
      assert t.c0 == f.c0 && t.c1 == f.c1 && t.c2 == f.c2;
    }
    if g.ipp0 == Zero3 && t == f {
      forall v ensures Xyz(MulVec4(VoxelToWorldAsWritten(g, n), Point(v))) == DocumentedVoxelToWorld(g, n, v) {
      }
    }
  }

  /** With the identity orientation and the first slice at the origin, voxel
      (i, j, k) lands at (i dx, j dy, k dz). */
  lemma IdentityOrientationVoxelToWorld(cols: int, rows: int, slices: int,
                                        dx: real, dy: real, dz: real, v: Vec3)
    ensures var g := Geometry(cols, rows, slices, dx, dy, dz, UnitX, UnitY, Zero3);
            && IopNorm(g, 1.0) == UnitZ
            && Xyz(MulVec4(VoxelToWorldAsWritten(g, UnitZ), Point(v))) == Vec3(v.x * dx, v.y * dy, v.z * dz)
  {
    var g := Geometry(cols, rows, slices, dx, dy, dz, UnitX, UnitY, Zero3);
    var f := Mat3(Vec3(dx, 0.0, 0.0), Vec3(0.0, dy, 0.0), Vec3(0.0, 0.0, dz));
    assert Frame(g, UnitZ) == f;
    assert Transpose(f) == f;
    VoxelToWorldAsWrittenApply(g, UnitZ, v);
    assert MulVec(f, v) == Vec3(v.x * dx, v.y * dy, v.z * dz);
  }

  /** A first slice at (10, 0, 0) mm with the identity orientation and unit
      spacing: the constructed matrix sends voxel (0, 0, 0) to the origin,
      not to the first slice's position. */
  lemma AsWrittenLosesPosition()
    ensures var g := Geometry(1, 1, 1, 1.0, 1.0, 1.0, UnitX, UnitY, Vec3(10.0, 0.0, 0.0));
            && Xyz(MulVec4(VoxelToWorldAsWritten(g, UnitZ), Point(Zero3))) == Zero3
            && DocumentedVoxelToWorld(g, UnitZ, Zero3) == Vec3(10.0, 0.0, 0.0)
  {
    var g := Geometry(1, 1, 1, 1.0, 1.0, 1.0, UnitX, UnitY, Vec3(10.0, 0.0, 0.0));
    assert Frame(g, UnitZ) == Identity3;
    VoxelToWorldAsWrittenApply(g, UnitZ, Zero3);
    assert MulVec(Transpose(Identity3), Zero3) == Zero3;
    assert MulVec(Identity3, Zero3) == Zero3;
  }

  /** `voxelToWorld` as documented: the scaled directions as columns and
      `ipp0` as the translation column. */
  function VoxelToWorld(g: Geometry, n: Vec3): (m: Mat4)
    ensures forall v :: MulVec4(m, Point(v)) == Point(DocumentedVoxelToWorld(g, n, v))
  {
    var m := Affine(Frame(g, n), g.ipp0);
    forall v ensures MulVec4(m, Point(v)) == Point(DocumentedVoxelToWorld(g, n, v)) {
      AffineApply(Frame(g, n), g.ipp0, Point(v));
    }
    m
  }

  // ---------------------------------------------------------------- world -> voxel

  /** `worldToVoxel = simd_inverse(voxelToWorld)` for the constructed matrix.
      No degeneracy check is made in the source; `None` stands for the
      non-finite matrix a singular input produces. */
  function WorldToVoxelAsWritten(g: Geometry, n: Vec3): (r: Option<Mat4>)
    ensures r.Some? <==> Det3(Transpose(Frame(g, n))) != 0.0
    ensures r.Some? ==> IsInverse4(VoxelToWorldAsWritten(g, n), r.value)
  {
    var a := Transpose(Frame(g, n));
    if Det3(a) != 0.0 then Some(BlockInverse(a, g.ipp0)) else None
  }

  /** The inverse of the documented map: a two-sided inverse whenever the
      scaled direction matrix is invertible. */
  function WorldToVoxel(g: Geometry, n: Vec3): (r: Option<Mat4>)
    ensures r.Some? <==> Det3(Frame(g, n)) != 0.0
    ensures r.Some? ==> IsInverse4(VoxelToWorld(g, n), r.value)
  {
    if Det3(Frame(g, n)) != 0.0 then Some(AffineInverse(Frame(g, n), g.ipp0)) else None
  }

  /** Mapping a voxel to the world and back gives the voxel. */
  lemma WorldToVoxelRoundTrip(g: Geometry, n: Vec3, v: Vec3)
    requires WorldToVoxel(g, n).Some?
    ensures MulVec4(WorldToVoxel(g, n).value, Point(DocumentedVoxelToWorld(g, n, v))) == Point(v)
  {
    assert MulVec4(VoxelToWorld(g, n), Point(v)) == Point(DocumentedVoxelToWorld(g, n, v));
  }

  // ---------------------------------------------------------------- voxel -> texture

  predicate HasExtent(g: Geometry) {
    g.cols != 0 && g.rows != 0 && g.slices != 0
  }

  /** The texture coordinate the doc comment of `voxelToTex` promises: the
      centre of voxel `v`, `(v + 0.5) / dims`. */
  function VoxelCentreTex(g: Geometry, v: Vec3): Vec3
    requires HasExtent(g)
  {
    Vec3((v.x + 0.5) / g.cols as real, (v.y + 0.5) / g.rows as real, (v.z + 0.5) / g.slices as real)
  }

  /** `simd_float4x4(diagonal: (1/dx, 1/dy, 1/dz, 1))`. */
  function TexScale(g: Geometry): Mat4
    requires HasExtent(g)
  {
    Diagonal4(Vec4(1.0 / g.cols as real, 1.0 / g.rows as real, 1.0 / g.slices as real, 1.0))
  }

  /** The `half` matrix as constructed: the half-voxel offsets are the last
      entries of the first three columns, that is, the last row. */
  function HalfAsWritten(g: Geometry): (m: Mat4)
    requires HasExtent(g)
    ensures m == Block(Identity3, Vec3(0.5 / g.cols as real, 0.5 / g.rows as real, 0.5 / g.slices as real))
  {
    Mat4(Vec4(1.0, 0.0, 0.0, 0.5 / g.cols as real),
         Vec4(0.0, 1.0, 0.0, 0.5 / g.rows as real),
         Vec4(0.0, 0.0, 1.0, 0.5 / g.slices as real),
         Vec4(0.0, 0.0, 0.0, 1.0))
  }

  /** `voxelToTex = half * scale` as constructed; `None` stands for the
      non-finite matrix a zero dimension produces. */
  function VoxelToTexAsWritten(g: Geometry): (r: Option<Mat4>)
    ensures r.Some? <==> HasExtent(g)
  {
    if HasExtent(g) then Some(MatMul4(HalfAsWritten(g), TexScale(g))) else None
  }

  /** The constructed matrix divides by the dimensions and nothing more: the
      half-voxel offset is lost from xyz (it lands in w). */
  lemma VoxelToTexAsWrittenApply(g: Geometry, v: Vec3)
    requires HasExtent(g)
    ensures Xyz(MulVec4(VoxelToTexAsWritten(g).value, Point(v)))
         == Vec3(v.x / g.cols as real, v.y / g.rows as real, v.z / g.slices as real)
  {
    var dx, dy, dz := g.cols as real, g.rows as real, g.slices as real;
    MulVec4Assoc(HalfAsWritten(g), TexScale(g), Point(v));
    var p := MulVec4(TexScale(g), Point(v));
    assert p == Vec4(1.0 / dx * v.x, 1.0 / dy * v.y, 1.0 / dz * v.z, 1.0);
    BlockApply(Identity3, Vec3(0.5 / dx, 0.5 / dy, 0.5 / dz), p);
    MulVecIdentity(Xyz(p));
  }

  /** At voxel (0, 0, 0) the constructed matrix gives texture coordinate 0,
      where the documented map gives the centre of the first voxel. */
  lemma VoxelToTexAsWrittenLosesHalfVoxel(g: Geometry)
    requires HasExtent(g)
    ensures Xyz(MulVec4(VoxelToTexAsWritten(g).value, Point(Zero3))) == Zero3
    ensures VoxelCentreTex(g, Zero3) != Zero3
  {
    VoxelToTexAsWrittenApply(g, Zero3);
  }

  /** `voxelToTex` as documented: scale by `1/dims` after shifting by half a
      voxel. */
  function VoxelToTex(g: Geometry): (r: Option<Mat4>)
    ensures r.Some? <==> HasExtent(g)
    ensures r.Some? ==> forall v :: MulVec4(r.value, Point(v)) == Point(VoxelCentreTex(g, v))
  {
    if HasExtent(g) then
      var dx, dy, dz := g.cols as real, g.rows as real, g.slices as real;
      var a := Mat3(Vec3(1.0 / dx, 0.0, 0.0), Vec3(0.0, 1.0 / dy, 0.0), Vec3(0.0, 0.0, 1.0 / dz));
      var m := Affine(a, Vec3(0.5 / dx, 0.5 / dy, 0.5 / dz));
      assert forall v :: MulVec4(m, Point(v)) == Point(VoxelCentreTex(g, v)) by {
        forall v ensures MulVec4(m, Point(v)) == Point(VoxelCentreTex(g, v)) {
          AffineApply(a, Vec3(0.5 / dx, 0.5 / dy, 0.5 / dz), Point(v));
          HalfShift(v.x, dx);
          HalfShift(v.y, dy);
          HalfShift(v.z, dz);
        }
      }
      Some(m)
    else None
  }

  lemma HalfShift(v: real, d: real)
    requires d != 0.0
    ensures 1.0 / d * v + 1.0 * (0.5 / d) == (v + 0.5) / d
  {
  }

  /** Inside the grid, the constructed map stays in [0, 1) and reaches 0 on
      the first voxel; the documented map stays strictly inside (0, 1). */
  lemma TexCoordBounds(v: real, d: int)
    requires d >= 1 && 0.0 <= v <= d as real - 1.0
    ensures 0.0 <= v / d as real < 1.0
    ensures 0.0 < (v + 0.5) / d as real < 1.0
  {
    var r := d as real;
    QuotientBounds(v, r);
    QuotientBounds(v + 0.5, r);
  }

  /** For a positive divisor `r` and `0 <= a`, `a / r` is non-negative,
      positive when `a` is, and below 1 when `a < r`. */
  lemma QuotientBounds(a: real, r: real)
    requires r > 0.0 && 0.0 <= a
    ensures 0.0 <= a / r
    ensures 0.0 < a ==> 0.0 < a / r
    ensures a < r ==> a / r < 1.0
  {
    var q := a / r;
    assert q * r == a;
    assert q < 0.0 ==> q * r < 0.0;
    assert q >= 1.0 ==> q * r >= r;
  }

  // ---------------------------------------------------------------- world -> texture

  /** `worldToTex = voxelToTex * worldToVoxel`, as constructed. */
  function WorldToTexAsWritten(g: Geometry, n: Vec3): (r: Option<Mat4>)
    ensures r.Some? <==> HasExtent(g) && Det3(Transpose(Frame(g, n))) != 0.0
    ensures r.Some? ==> forall p :: MulVec4(r.value, MulVec4(VoxelToWorldAsWritten(g, n), p))
                                 == MulVec4(VoxelToTexAsWritten(g).value, p)
  {
    var t := VoxelToTexAsWritten(g);
    var w := WorldToVoxelAsWritten(g, n);
    if t.Some? && w.Some? then
      ComposeThroughInverse(t.value, w.value, VoxelToWorldAsWritten(g, n));
      Some(MatMul4(t.value, w.value))
    else None
  }

  /** `worldToTex` built from the documented maps. */
  function WorldToTex(g: Geometry, n: Vec3): (r: Option<Mat4>)
    ensures r.Some? <==> HasExtent(g) && Det3(Frame(g, n)) != 0.0
    ensures r.Some? ==> forall p :: MulVec4(r.value, MulVec4(VoxelToWorld(g, n), p))
                                 == MulVec4(VoxelToTex(g).value, p)
  {
    var t := VoxelToTex(g);
    var w := WorldToVoxel(g, n);
    if t.Some? && w.Some? then
      ComposeThroughInverse(t.value, w.value, VoxelToWorld(g, n));
      Some(MatMul4(t.value, w.value))
    else None
  }

  lemma ComposeThroughInverse(t: Mat4, w: Mat4, m: Mat4)
    requires IsInverse4(m, w)
    ensures forall p :: MulVec4(MatMul4(t, w), MulVec4(m, p)) == MulVec4(t, p)
  {
    forall p ensures MulVec4(MatMul4(t, w), MulVec4(m, p)) == MulVec4(t, p) {
      MulVec4Assoc(t, w, MulVec4(m, p));
    }
  }

  /** A world point at the documented position of voxel `v` maps to the
      centre of that voxel in texture space. */
  lemma WorldToTexOfVoxel(g: Geometry, n: Vec3, v: Vec3)
    requires WorldToTex(g, n).Some?
    ensures MulVec4(WorldToTex(g, n).value, Point(DocumentedVoxelToWorld(g, n, v))) == Point(VoxelCentreTex(g, v))
  {
    assert MulVec4(VoxelToWorld(g, n), Point(v)) == Point(DocumentedVoxelToWorld(g, n, v));
  }

  // ---------------------------------------------------------------- planes

  /** A plane in texture space: an origin and two edge vectors. */
  datatype TexPlane = TexPlane(origin: Vec3, axisU: Vec3, axisV: Vec3)

  /** The body of `planeWorldToTex` for a given world-to-texture matrix `w`:
      the origin is the `.xyz` of the mapped point (w is dropped, not
      divided by), and each axis is the difference of two mapped points. */
  function PlaneThrough(w: Mat4, originW: Vec3, axisUW: Vec3, axisVW: Vec3): (r: TexPlane)
    ensures r.origin == Xyz(MulVec4(w, Point(originW)))
    ensures r.axisU == Xyz(MulVec4(w, Direction(axisUW)))
    ensures r.axisV == Xyz(MulVec4(w, Direction(axisVW)))
  {
    var o := Xyz(MulVec4(w, Point(originW)));
    var u := Sub(Xyz(MulVec4(w, Point(Add(originW, axisUW)))), o);
    var v := Sub(Xyz(MulVec4(w, Point(Add(originW, axisVW)))), o);
    EdgeIsDirection(w, originW, axisUW);
    EdgeIsDirection(w, originW, axisVW);
    TexPlane(o, u, v)
  }

  /** The translation part cancels in the difference of two mapped points. */
  lemma EdgeIsDirection(w: Mat4, o: Vec3, a: Vec3)
    ensures Sub(Xyz(MulVec4(w, Point(Add(o, a)))), Xyz(MulVec4(w, Point(o)))) == Xyz(MulVec4(w, Direction(a)))
  {
    assert Point(Add(o, a)) == Add4(Point(o), Direction(a));
    MulVec4Add(w, Point(o), Direction(a));
  }

  /** The plane's texture-space axes do not depend on its world origin. */
  lemma PlaneAxesIgnoreOrigin(w: Mat4, o1: Vec3, o2: Vec3, a: Vec3, b: Vec3)
    ensures PlaneThrough(w, o1, a, b).axisU == PlaneThrough(w, o2, a, b).axisU
    ensures PlaneThrough(w, o1, a, b).axisV == PlaneThrough(w, o2, a, b).axisV
  {
  }

  /** Each axis is a linear function of the world axis: sums map to sums,
      multiples to multiples, and a zero axis to a zero axis. */
  lemma PlaneAxisLinear(w: Mat4, o: Vec3, a1: Vec3, a2: Vec3, k: real, b: Vec3)
    ensures PlaneThrough(w, o, Add(a1, a2), b).axisU
         == Add(PlaneThrough(w, o, a1, b).axisU, PlaneThrough(w, o, a2, b).axisU)
    ensures PlaneThrough(w, o, Scale(k, a1), b).axisU == Scale(k, PlaneThrough(w, o, a1, b).axisU)
    ensures PlaneThrough(w, o, Zero3, b).axisU == Zero3
  {
    AxisAdditive(w, a1, a2);
    AxisHomogeneous(w, k, a1);
    AxisHomogeneous(w, 0.0, a1);
    assert Scale(0.0, a1) == Zero3;
  }

  lemma AxisAdditive(w: Mat4, a1: Vec3, a2: Vec3)
    ensures Xyz(MulVec4(w, Direction(Add(a1, a2)))) == Add(Xyz(MulVec4(w, Direction(a1))), Xyz(MulVec4(w, Direction(a2))))
  {
    assert Direction(Add(a1, a2)) == Add4(Direction(a1), Direction(a2));
    MulVec4Add(w, Direction(a1), Direction(a2));
  }

  lemma AxisHomogeneous(w: Mat4, k: real, a: Vec3)
    ensures Xyz(MulVec4(w, Direction(Scale(k, a)))) == Scale(k, Xyz(MulVec4(w, Direction(a))))
  {
    assert Direction(Scale(k, a)) == Scale4(k, Direction(a));
    MulVec4Scale(w, k, Direction(a));
  }

  /** `planeWorldToTex` with the documented maps. */
  function PlaneWorldToTex(g: Geometry, n: Vec3, originW: Vec3, axisUW: Vec3, axisVW: Vec3): (r: Option<TexPlane>)
    ensures r.Some? <==> WorldToTex(g, n).Some?
    ensures r.Some? ==> r.value == PlaneThrough(WorldToTex(g, n).value, originW, axisUW, axisVW)
  {
    var w := WorldToTex(g, n);
    if w.Some? then Some(PlaneThrough(w.value, originW, axisUW, axisVW)) else None
  }

  /** `planeWorldToTex` as constructed. */
  function PlaneWorldToTexAsWritten(g: Geometry, n: Vec3, originW: Vec3, axisUW: Vec3, axisVW: Vec3): (r: Option<TexPlane>)
    ensures r.Some? <==> WorldToTexAsWritten(g, n).Some?
    ensures r.Some? ==> r.value == PlaneThrough(WorldToTexAsWritten(g, n).value, originW, axisUW, axisVW)
  {
    var w := WorldToTexAsWritten(g, n);
    if w.Some? then Some(PlaneThrough(w.value, originW, axisUW, axisVW)) else None
  }

  /** A plane whose world origin is the documented position of voxel `v`
      starts at the centre of that voxel in texture space. */
  lemma PlaneOriginAtVoxelCentre(g: Geometry, n: Vec3, v: Vec3, axisUW: Vec3, axisVW: Vec3)
    requires WorldToTex(g, n).Some?
    ensures PlaneWorldToTex(g, n, DocumentedVoxelToWorld(g, n, v), axisUW, axisVW).value.origin
         == VoxelCentreTex(g, v)
  {
    WorldToTexOfVoxel(g, n, v);
  }
}

=== FILE: dicom_volume_loader.dfy ===
/** Turning a decoded DICOM series into a calibrated volume: the modality
    rescale to Hounsfield units (section C.11.1.1.2 of DICOM PS3.3,
    `HU = slope * stored + intercept`), the clamp to the CT window the
    renderer uses, the intensity range reported with the data, and the
    assembly of the dataset. */
module DicomLoader {
  import opened Numeric
  import opened Linear
  import opened Bytes
  import opened Results
  import opened Dataset

  /** The window every converted sample is clamped to. */
  const ClampMinHU: int := -1024
  const ClampMaxHU: int := 3071

  /** The loader's error cases, plus `RangeTrap`: the runtime trap of
      building a closed range whose lower bound exceeds its upper bound.
      The first four mirror the Swift error enum; only `UnsupportedBitDepth`
      arises here, since file access and the decoder bridge are not
      modelled. */
  datatype LoaderError =
    | SecurityScopeUnavailable
    | UnsupportedBitDepth
    | MissingResult
    | BridgeError
    | RangeTrap

  /** What the DICOM decoder hands back for a series: little-endian 16-bit
      samples, the grid, spacing in millimetres, and the rescale pair. */
  datatype SeriesVolume = SeriesVolume(
    voxels: seq<Byte>,
    width: nat, height: nat, depth: nat,
    spacingX: real, spacingY: real, spacingZ: real,
    rescaleSlope: real, rescaleIntercept: real,
    isSignedPixel: bool,
    bitsAllocated: int,
    seriesDescription: string)

  function SeriesVoxelCount(vol: SeriesVolume): nat {
    vol.width * vol.height * vol.depth
  }

  /** The sample buffer holds at least one 16-bit sample per voxel. */
  predicate HasSamples(vol: SeriesVolume) {
    2 * SeriesVoxelCount(vol) <= |vol.voxels|
  }

  /** A rescale slope of zero is read as "no rescale". */
  function EffectiveSlope(slope: real): (r: real)
    ensures r != 0.0
    ensures slope != 0.0 ==> r == slope
  {
    if slope == 0.0 then 1.0 else slope
  }

  /** How the stored samples are read: as `Int16` when the series says its
      pixels are signed, as `UInt16` otherwise. */
  function SourceFormat(vol: SeriesVolume): PixelFormat {
    if vol.isSignedPixel then Int16Signed else Int16Unsigned
  }

  function RawValue(vol: SeriesVolume, i: nat): (v: int)
    requires HasSamples(vol) && i < SeriesVoxelCount(vol)
    ensures Contains(DefaultIntensityRange(SourceFormat(vol)), v)
  {
    Sample(SourceFormat(vol), vol.voxels[2 * i], vol.voxels[2 * i + 1])
  }

  /** The modality rescale `raw * slope + intercept`, in floating point. */
  function Affine(raw: int, slope: real, intercept: real): real {
    raw as real * EffectiveSlope(slope) + intercept
  }

  /** The rescaled value, rounded half away from zero (`lround`): the
      integer nearest to `raw * slope + intercept`. Without a rescale (slope
      0 or 1) and with a whole intercept the raw value is only shifted. */
  function Rescale(raw: int, slope: real, intercept: real): (hu: int)
    ensures Affine(raw, slope, intercept) - 0.5 <= hu as real <= Affine(raw, slope, intercept) + 0.5
    ensures (slope == 0.0 || slope == 1.0) && intercept == intercept.Floor as real ==> hu == raw + intercept.Floor
  {
    if (slope == 0.0 || slope == 1.0) && intercept == intercept.Floor as real then
      UnitRescaleShifts(raw, slope, intercept);
      Round(Affine(raw, slope, intercept))
    else
      Round(Affine(raw, slope, intercept))
  }

  lemma UnitRescaleShifts(raw: int, slope: real, intercept: real)
    requires (slope == 0.0 || slope == 1.0) && intercept == intercept.Floor as real
    ensures Round(Affine(raw, slope, intercept)) == raw + intercept.Floor
  {
    assert Affine(raw, slope, intercept) == (raw + intercept.Floor) as real;
    RoundOfInt(raw + intercept.Floor);
  }

  /** The value written for one voxel: the HU value clamped to the CT
      window, then to the `Int16` range; the second clamp never changes
      anything. */
  function StoredValue(hu: int): (r: int)
    ensures ClampMinHU <= r <= ClampMaxHU
    ensures r == Clamp(ClampMinHU, ClampMaxHU, hu)
    ensures ClampMinHU <= hu <= ClampMaxHU ==> r == hu
  {
    Clamp(Int16Min, Int16Max, Clamp(ClampMinHU, ClampMaxHU, hu))
  }

  /** The HU value of voxel `i` before clamping. */
  function HUAt(vol: SeriesVolume, i: nat): (hu: int)
    requires HasSamples(vol) && i < SeriesVoxelCount(vol)
    ensures vol.isSignedPixel ==>
              hu == Rescale(S16(vol.voxels[2 * i], vol.voxels[2 * i + 1]), vol.rescaleSlope, vol.rescaleIntercept)
    ensures !vol.isSignedPixel ==>
              hu == Rescale(U16(vol.voxels[2 * i], vol.voxels[2 * i + 1]), vol.rescaleSlope, vol.rescaleIntercept)
  {
    Rescale(RawValue(vol, i), vol.rescaleSlope, vol.rescaleIntercept)
  }

  /** All HU values of the series, in voxel order. */
  function HUValues(vol: SeriesVolume): (hus: seq<int>)
    requires HasSamples(vol)
    ensures |hus| == SeriesVoxelCount(vol)
    ensures forall i :: 0 <= i < |hus| ==> hus[i] == HUAt(vol, i)
  {
    seq(SeriesVoxelCount(vol), i requires 0 <= i < SeriesVoxelCount(vol) => HUAt(vol, i))
  }

  /** `Int32(lround(x))` traps outside the `Int32` range; the conversion is
      only defined for series whose HU values fit. */
  predicate HUFitsInInt32(vol: SeriesVolume)
    requires HasSamples(vol)
  {
    forall i :: 0 <= i < SeriesVoxelCount(vol) ==> Int32Min <= HUAt(vol, i) <= Int32Max
  }

  // ---------------------------------------------------------------- minimum and maximum

  function SeqMin(s: seq<int>): (m: int)
    requires |s| > 0
    ensures forall i :: 0 <= i < |s| ==> m <= s[i]
    ensures exists i :: 0 <= i < |s| && m == s[i]
  {
    if |s| == 1 then s[0]
    else
      var m := SeqMin(s[..|s| - 1]);
      assert forall i :: 0 <= i < |s| - 1 ==> s[..|s| - 1][i] == s[i];
      MinInt(m, s[|s| - 1])
  }

  function SeqMax(s: seq<int>): (m: int)
    requires |s| > 0
    ensures forall i :: 0 <= i < |s| ==> m >= s[i]
    ensures exists i :: 0 <= i < |s| && m == s[i]
  {
    if |s| == 1 then s[0]
    else
      var m := SeqMax(s[..|s| - 1]);
      assert forall i :: 0 <= i < |s| - 1 ==> s[..|s| - 1][i] == s[i];
      MaxInt(m, s[|s| - 1])
  }

  /** Extending a prefix by one element updates its minimum and maximum as
      the running `min`/`max` of the conversion pass does. */
  lemma ExtremesOfLongerPrefix(s: seq<int>, k: nat)
    requires k < |s|
    ensures k == 0 ==> SeqMin(s[..k + 1]) == s[k] && SeqMax(s[..k + 1]) == s[k]
    ensures k > 0 ==> SeqMin(s[..k + 1]) == MinInt(SeqMin(s[..k]), s[k])
    ensures k > 0 ==> SeqMax(s[..k + 1]) == MaxInt(SeqMax(s[..k]), s[k])
  {
    assert s[..k + 1][..k] == s[..k];
  }

  /** The minimum of a sequence is its unique lower bound that it contains. */
  lemma SeqMinUnique(s: seq<int>, m: int)
    requires |s| > 0
    requires forall i :: 0 <= i < |s| ==> m <= s[i]
    requires exists i :: 0 <= i < |s| && m == s[i]
    ensures SeqMin(s) == m
  {
    var j :| 0 <= j < |s| && m == s[j];
    var k :| 0 <= k < |s| && SeqMin(s) == s[k];
    assert SeqMin(s) <= s[j] && m <= s[k];
  }

  lemma SeqMaxUnique(s: seq<int>, m: int)
    requires |s| > 0
    requires forall i :: 0 <= i < |s| ==> m >= s[i]
    requires exists i :: 0 <= i < |s| && m == s[i]
    ensures SeqMax(s) == m
  {
    var j :| 0 <= j < |s| && m == s[j];
    var k :| 0 <= k < |s| && SeqMax(s) == s[k];
    assert SeqMax(s) >= s[j] && m >= s[k];
  }

  /** Clamping every element and then taking the minimum (maximum) is the
      same as clamping the minimum (maximum): clamping is monotone. */
  lemma ClampCommutesWithExtremes(s: seq<int>, t: seq<int>)
    requires |s| > 0 && |t| == |s|
    requires forall i :: 0 <= i < |s| ==> t[i] == StoredValue(s[i])
    ensures SeqMin(t) == StoredValue(SeqMin(s))
    ensures SeqMax(t) == StoredValue(SeqMax(s))
  {
    forall i | 0 <= i < |s|
      ensures StoredValue(SeqMin(s)) <= t[i] && StoredValue(SeqMax(s)) >= t[i]
    {
      ClampMonotone(ClampMinHU, ClampMaxHU, SeqMin(s), s[i]);
      ClampMonotone(ClampMinHU, ClampMaxHU, s[i], SeqMax(s));
    }
    var j :| 0 <= j < |s| && SeqMin(s) == s[j];
    assert t[j] == StoredValue(SeqMin(s));
    SeqMinUnique(t, StoredValue(SeqMin(s)));
    var k :| 0 <= k < |s| && SeqMax(s) == s[k];
    assert t[k] == StoredValue(SeqMax(s));
    SeqMaxUnique(t, StoredValue(SeqMax(s)));
  }

  // ---------------------------------------------------------------- the conversion pass

  /** The running minimum after the first `k` values, starting from the
      `Int32.max` sentinel. */
  function RunningMin(s: seq<int>, k: nat): int
    requires k <= |s|
  {
    if k == 0 then Int32Max else MinInt(RunningMin(s, k - 1), s[k - 1])
  }

  /** The running maximum after the first `k` values, starting from `Int32.min`. */
  function RunningMax(s: seq<int>, k: nat): int
    requires k <= |s|
  {
    if k == 0 then Int32Min else MaxInt(RunningMax(s, k - 1), s[k - 1])
  }

  /** Once a value has been seen, the running minimum and maximum are the
      minimum and maximum of the values seen so far, as long as no value
      lies beyond the `Int32` sentinels. */
  lemma {:induction false} RunningExtremesAreExtremes(s: seq<int>, k: nat)
    requires 0 < k <= |s|
    requires forall i :: 0 <= i < |s| ==> Int32Min <= s[i] <= Int32Max
    ensures RunningMin(s, k) == SeqMin(s[..k])
    ensures RunningMax(s, k) == SeqMax(s[..k])
  {
    ExtremesOfLongerPrefix(s, k - 1);
    if k > 1 {
      RunningExtremesAreExtremes(s, k - 1);
    }
  }

  /** The loop body of the conversion pass over a series' HU values, in
      voxel order: it stores each value clamped, and keeps a running minimum
      and maximum of the unclamped values, which start at `Int32.max` and
      `Int32.min`. */
  method ConvertPass(hus: seq<int>) returns (samples: seq<int>, minHU: int, maxHU: int)
    requires forall i :: 0 <= i < |hus| ==> Int32Min <= hus[i] <= Int32Max
    ensures |samples| == |hus|
    ensures forall i :: 0 <= i < |hus| ==> samples[i] == StoredValue(hus[i])
    ensures |hus| == 0 ==> minHU == Int32Max && maxHU == Int32Min
    ensures |hus| > 0 ==> minHU == SeqMin(hus) && maxHU == SeqMax(hus)
  {
    samples := [];
    minHU, maxHU := Int32Max, Int32Min;
    for index := 0 to |hus|
      invariant |samples| == index
      invariant forall i :: 0 <= i < index ==> samples[i] == StoredValue(hus[i])
      invariant minHU == RunningMin(hus, index) && maxHU == RunningMax(hus, index)
    {
      var hu := hus[index];
      minHU := MinInt(minHU, hu);
      maxHU := MaxInt(maxHU, hu);
      samples := samples + [StoredValue(hu)];
    }
    if |hus| > 0 {
      RunningExtremesAreExtremes(hus, |hus|);
      assert hus[..|hus|] == hus;
    }
  }

  /** The pass over a series: HU value of every voxel, clamped and stored. */
  method ConvertSamples(vol: SeriesVolume) returns (samples: seq<int>, minHU: int, maxHU: int)
    requires HasSamples(vol) && HUFitsInInt32(vol)
    ensures |samples| == SeriesVoxelCount(vol)
    ensures forall i :: 0 <= i < |samples| ==> samples[i] == StoredValue(HUAt(vol, i))
    ensures |samples| == 0 ==> minHU == Int32Max && maxHU == Int32Min
    ensures |samples| > 0 ==> minHU == SeqMin(HUValues(vol)) && maxHU == SeqMax(HUValues(vol))
  {
    samples, minHU, maxHU := ConvertPass(HUValues(vol));
  }

  // ---------------------------------------------------------------- the reported range

  /** `minHU...maxHU`: building a closed range traps when the bounds cross. */
  function ClosedRange(lower: int, upper: int): (r: Result<IntensityRange, LoaderError>)
    ensures r.Success? <==> lower <= upper
    ensures r.Success? ==> r.value == IntensityRange(lower, upper)
  {
    if lower <= upper then Success(IntensityRange(lower, upper)) else Failure(RangeTrap)
  }

  /** The reduction as written: the sentinel pair of an empty pass becomes
      the CT window; otherwise each bound is clamped on one side only. */
  function AsWrittenRange(minHU: int, maxHU: int): (r: Result<IntensityRange, LoaderError>)
    ensures minHU > maxHU ==> r == Success(IntensityRange(ClampMinHU, ClampMaxHU))
    ensures minHU <= maxHU ==> (r.Failure? <==> minHU > ClampMaxHU || maxHU < ClampMinHU)
    ensures minHU <= maxHU && r.Success? ==>
              r.value == IntensityRange(MaxInt(minHU, ClampMinHU), MinInt(maxHU, ClampMaxHU))
    ensures r.Success? ==> ClampMinHU <= r.value.lower <= r.value.upper <= ClampMaxHU
    ensures r.Failure? ==> r.error == RangeTrap
  {
    if minHU > maxHU then ClosedRange(ClampMinHU, ClampMaxHU)
    else ClosedRange(MaxInt(minHU, ClampMinHU), MinInt(maxHU, ClampMaxHU))
  }

  /** The reduction as intended: both bounds clamped into the CT window, so
      the range is never empty and never traps. */
  function CorrectedRange(minHU: int, maxHU: int): (r: IntensityRange)
    ensures ClampMinHU <= r.lower <= r.upper <= ClampMaxHU
  {
    if minHU > maxHU then IntensityRange(ClampMinHU, ClampMaxHU)
    else
      ClampMonotone(ClampMinHU, ClampMaxHU, minHU, maxHU);
      IntensityRange(StoredValue(minHU), StoredValue(maxHU))
  }

  /** With no voxels the reported range is the CT window. */
  lemma EmptyPassReportsWindow()
    ensures AsWrittenRange(Int32Max, Int32Min) == Success(IntensityRange(ClampMinHU, ClampMaxHU))
    ensures CorrectedRange(Int32Max, Int32Min) == IntensityRange(ClampMinHU, ClampMaxHU)
  {
  }

  /** The as-written range traps exactly when every HU value lies above the
      window or every HU value lies below it. */
  lemma AsWrittenTrapsIff(hus: seq<int>)
    requires |hus| > 0
    ensures AsWrittenRange(SeqMin(hus), SeqMax(hus)).Failure?
        <==> SeqMin(hus) > ClampMaxHU || SeqMax(hus) < ClampMinHU
  {
    assert SeqMin(hus) <= hus[0] <= SeqMax(hus);
  }

  /** Whenever the as-written reduction does not trap it agrees with the
      corrected one. */
  lemma AsWrittenAgreesWhenDefined(minHU: int, maxHU: int)
    requires AsWrittenRange(minHU, maxHU).Success?
    ensures AsWrittenRange(minHU, maxHU).value == CorrectedRange(minHU, maxHU)
  {
  }

  /** The corrected range is exactly the range of the stored samples. */
  lemma CorrectedRangeIsStoredRange(vol: SeriesVolume, samples: seq<int>)
    requires HasSamples(vol) && SeriesVoxelCount(vol) > 0
    requires |samples| == SeriesVoxelCount(vol)
    requires forall i :: 0 <= i < |samples| ==> samples[i] == StoredValue(HUAt(vol, i))
    ensures CorrectedRange(SeqMin(HUValues(vol)), SeqMax(HUValues(vol)))
         == IntensityRange(SeqMin(samples), SeqMax(samples))
  {
    var hus := HUValues(vol);
    ClampCommutesWithExtremes(hus, samples);
    assert SeqMin(hus) <= hus[0] <= SeqMax(hus);
  }

  /** A one-voxel unsigned series whose only sample is 5000 (bytes 0x88,
      0x13) with the identity rescale. */
  const TrapExample: SeriesVolume :=
    SeriesVolume([0x88, 0x13], 1, 1, 1, 1.0, 1.0, 1.0, 1.0, 0.0, false, 16, "")

  /** On that series the as-written reduction yields the bounds 5000 and
      3071 and building the range traps; the corrected range is [3071, 3071]. */
  lemma TrapExampleTraps()
    ensures HasSamples(TrapExample) && HUValues(TrapExample) == [5000]
    ensures AsWrittenRange(5000, 5000).Failure?
    ensures CorrectedRange(5000, 5000) == IntensityRange(ClampMaxHU, ClampMaxHU)
  {
    assert RawValue(TrapExample, 0) == 5000;
    RoundOfInt(5000);
    assert HUAt(TrapExample, 0) == 5000;
    assert HUValues(TrapExample) == [5000];
  }

  /** The converted buffer and its range. */
  datatype Conversion = Conversion(data: seq<Byte>, range: IntensityRange)

  /** The range `convertToHU` reports as written: the CT window for an empty
      series, otherwise the smallest HU value raised to -1024 and the largest
      lowered to 3071 (which may cross). */
  function AsWrittenBounds(vol: SeriesVolume): IntensityRange
    requires HasSamples(vol)
  {
    if SeriesVoxelCount(vol) == 0 then IntensityRange(ClampMinHU, ClampMaxHU)
    else IntensityRange(MaxInt(SeqMin(HUValues(vol)), ClampMinHU), MinInt(SeqMax(HUValues(vol)), ClampMaxHU))
  }

  /** `convertToHU` as written: the pass, then the one-sided reduction, whose
      range construction can trap. */
  method ConvertToHUAsWritten(vol: SeriesVolume) returns (r: Result<Conversion, LoaderError>)
    requires HasSamples(vol) && HUFitsInInt32(vol)
    ensures SeriesVoxelCount(vol) == 0 ==> r.Success?
    ensures SeriesVoxelCount(vol) > 0 ==>
              (r.Failure? <==> SeqMin(HUValues(vol)) > ClampMaxHU || SeqMax(HUValues(vol)) < ClampMinHU)
    ensures r.Success? ==> |r.value.data| == 2 * SeriesVoxelCount(vol)
    ensures r.Success? ==>
              forall i :: 0 <= i < SeriesVoxelCount(vol) ==> ReadS16(r.value.data, i) == StoredValue(HUAt(vol, i))
    ensures r.Success? ==> r.value.range == AsWrittenBounds(vol)
    ensures r.Failure? ==> r.error == RangeTrap
  {
    var samples, minHU, maxHU := ConvertSamples(vol);
    if |samples| > 0 {
      AsWrittenTrapsIff(HUValues(vol));
      assert SeqMin(HUValues(vol)) <= HUValues(vol)[0] <= SeqMax(HUValues(vol));
    }
    var range := AsWrittenRange(minHU, maxHU);
    if range.Failure? {
      return Failure(range.error);
    }
    r := Success(Conversion(EncodeAllS16(samples), range.value));
  }

  /** `convertToHU` with the corrected reduction: it never traps, and the
      range it reports is exactly the range of the samples it stores (the
      CT window when there are none). */
  method ConvertToHU(vol: SeriesVolume) returns (c: Conversion)
    requires HasSamples(vol) && HUFitsInInt32(vol)
    ensures |c.data| == 2 * SeriesVoxelCount(vol)
    ensures forall i :: 0 <= i < SeriesVoxelCount(vol) ==> ReadS16(c.data, i) == StoredValue(HUAt(vol, i))
    ensures forall i :: 0 <= i < SeriesVoxelCount(vol) ==> Contains(c.range, ReadS16(c.data, i))
    ensures SeriesVoxelCount(vol) > 0 ==>
              (exists i :: 0 <= i < SeriesVoxelCount(vol) && ReadS16(c.data, i) == c.range.lower)
              && (exists i :: 0 <= i < SeriesVoxelCount(vol) && ReadS16(c.data, i) == c.range.upper)
    ensures SeriesVoxelCount(vol) == 0 ==> c.range == IntensityRange(ClampMinHU, ClampMaxHU)
    ensures SeriesVoxelCount(vol) > 0 ==> c.range == CorrectedRange(SeqMin(HUValues(vol)), SeqMax(HUValues(vol)))
  {
    var samples, minHU, maxHU := ConvertSamples(vol);
    var data := EncodeAllS16(samples);
    c := Conversion(data, CorrectedRange(minHU, maxHU));
    EncodedMatchesHU(vol, samples, c.data);
    if |samples| > 0 {
      CorrectedRangeIsStoredRange(vol, samples);
      RangeOfConversion(samples, c);
    }
  }

  /** Encoding the stored samples puts voxel i's stored HU value at sample
      i of the buffer. */
  lemma EncodedMatchesHU(vol: SeriesVolume, samples: seq<int>, data: seq<Byte>)
    requires HasSamples(vol)
    requires |samples| == SeriesVoxelCount(vol) && 2 * |samples| == |data|
    requires forall i :: 0 <= i < |samples| ==> samples[i] == StoredValue(HUAt(vol, i))
    requires forall i :: 0 <= i < |samples| ==> ReadS16(data, i) == samples[i]
    ensures forall i :: 0 <= i < SeriesVoxelCount(vol) ==> ReadS16(data, i) == StoredValue(HUAt(vol, i))
  {
  }

  /** A conversion whose range is its samples' extremes holds every sample
      in that range and attains both ends. */
  lemma RangeOfConversion(samples: seq<int>, c: Conversion)
    requires |samples| > 0
    requires 2 * |samples| == |c.data|
    requires forall i :: 0 <= i < |samples| ==> ReadS16(c.data, i) == samples[i]
    requires c.range == IntensityRange(SeqMin(samples), SeqMax(samples))
    ensures forall i :: 0 <= i < |samples| ==> Contains(c.range, ReadS16(c.data, i))
    ensures exists i :: 0 <= i < |samples| && ReadS16(c.data, i) == c.range.lower
    ensures exists i :: 0 <= i < |samples| && ReadS16(c.data, i) == c.range.upper
  {
    RangeOfEncodedSamples(samples, c.data);
  }

  /** Every encoded sample lies between the smallest and the largest one,
      and both of those occur in the buffer. */
  lemma RangeOfEncodedSamples(samples: seq<int>, data: seq<Byte>)
    requires |samples| > 0
    requires 2 * |samples| == |data|
    requires forall i :: 0 <= i < |samples| ==> ReadS16(data, i) == samples[i]
    ensures forall i :: 0 <= i < |samples| ==> Contains(IntensityRange(SeqMin(samples), SeqMax(samples)), ReadS16(data, i))
    ensures exists i :: 0 <= i < |samples| && ReadS16(data, i) == SeqMin(samples)
    ensures exists i :: 0 <= i < |samples| && ReadS16(data, i) == SeqMax(samples)
  {
    var lo :| 0 <= lo < |samples| && SeqMin(samples) == samples[lo];
    var hi :| 0 <= hi < |samples| && SeqMax(samples) == samples[hi];
    assert ReadS16(data, lo) == SeqMin(samples);
    assert ReadS16(data, hi) == SeqMax(samples);
  }

  /** For a positive slope, a larger raw value never yields a smaller HU
      value. */
  lemma RescaleMonotone(raw1: int, raw2: int, slope: real, intercept: real)
    requires slope > 0.0 && raw1 <= raw2
    ensures Rescale(raw1, slope, intercept) <= Rescale(raw2, slope, intercept)
  {
    AffineMonotone(raw1, raw2, slope, intercept);
    RoundMonotone(Affine(raw1, slope, intercept), Affine(raw2, slope, intercept));
  }

  /** The same order holds for the stored, clamped values. */
  lemma StoredMonotone(raw1: int, raw2: int, slope: real, intercept: real)
    requires slope > 0.0 && raw1 <= raw2
    ensures StoredValue(Rescale(raw1, slope, intercept)) <= StoredValue(Rescale(raw2, slope, intercept))
  {
    RescaleMonotone(raw1, raw2, slope, intercept);
    ClampMonotone(ClampMinHU, ClampMaxHU, Rescale(raw1, slope, intercept), Rescale(raw2, slope, intercept));
  }

  lemma AffineMonotone(raw1: int, raw2: int, slope: real, intercept: real)
    requires slope > 0.0 && raw1 <= raw2
    ensures Affine(raw1, slope, intercept) <= Affine(raw2, slope, intercept)
  {
    MulMonotone(raw1 as real, raw2 as real, slope);
  }

  lemma MulMonotone(a: real, b: real, k: real)
    requires a <= b && k > 0.0
    ensures a * k <= b * k
  {
    assert (b - a) * k >= 0.0;
  }

  /** Millimetres to metres. */
  function MillimetresToMetres(mm: real): (m: real)
    ensures 1000.0 * m == mm
    ensures mm > 0.0 <==> m > 0.0
  {
    mm * (1.0 / 1000.0)
  }

  /** Wrapping a conversion as a dataset over the series' grid keeps its
      samples, its range, and the fact that both ends of the range occur. */
  lemma WrappedConversion(vol: SeriesVolume, c: Conversion, d: VolumeDataset)
    requires HasSamples(vol)
    requires |c.data| == 2 * SeriesVoxelCount(vol)
    requires forall i :: 0 <= i < SeriesVoxelCount(vol) ==> ReadS16(c.data, i) == StoredValue(HUAt(vol, i))
    requires forall i :: 0 <= i < SeriesVoxelCount(vol) ==> Contains(c.range, ReadS16(c.data, i))
    requires SeriesVoxelCount(vol) > 0 ==>
               (exists i :: 0 <= i < SeriesVoxelCount(vol) && ReadS16(c.data, i) == c.range.lower)
               && (exists i :: 0 <= i < SeriesVoxelCount(vol) && ReadS16(c.data, i) == c.range.upper)
    requires d.data == c.data && d.intensityRange == c.range && d.pixelFormat == Int16Signed
    requires d.dimensions == Dims(vol.width, vol.height, vol.depth)
    ensures VoxelCount(d) == SeriesVoxelCount(vol)
    ensures HasConsistentLength(d)
    ensures forall i :: 0 <= i < VoxelCount(d) ==> ReadS16(d.data, i) == StoredValue(HUAt(vol, i))
    ensures forall i :: 0 <= i < VoxelCount(d) ==> Contains(d.intensityRange, ReadS16(d.data, i))
    ensures VoxelCount(d) > 0 ==> AttainsRange(d)
  {
    assert VoxelCount(d) == SeriesVoxelCount(vol);
  }

  /** Both ends of the dataset's intensity range occur among its samples. */
  predicate AttainsRange(d: VolumeDataset)
    requires HasConsistentLength(d)
  {
    && (exists i :: 0 <= i < VoxelCount(d) && ReadS16(d.data, i) == d.intensityRange.lower)
    && (exists i :: 0 <= i < VoxelCount(d) && ReadS16(d.data, i) == d.intensityRange.upper)
  }

  /** `loadVolume` after the decoder returned: reject anything but 16-bit
      samples, convert to HU, and wrap the result as a signed dataset with
      spacing in metres. The conversion uses the corrected range reduction. */
  method LoadVolume(vol: SeriesVolume) returns (r: Result<VolumeDataset, LoaderError>)
    requires vol.bitsAllocated == 16 ==> HasSamples(vol) && HUFitsInInt32(vol)
    ensures r.Failure? <==> vol.bitsAllocated != 16
    ensures r.Failure? ==> r.error == UnsupportedBitDepth
    ensures r.Success? ==>
      var d := r.value;
      && d.pixelFormat == Int16Signed
      && d.dimensions == Dims(vol.width, vol.height, vol.depth)
      && d.spacing == Scale(1.0 / 1000.0, Vec3(vol.spacingX, vol.spacingY, vol.spacingZ))
      && HasConsistentLength(d)
      && (forall i :: 0 <= i < VoxelCount(d) ==> ReadS16(d.data, i) == StoredValue(HUAt(vol, i)))
      && (forall i :: 0 <= i < VoxelCount(d) ==> Contains(d.intensityRange, ReadS16(d.data, i)))
      && (VoxelCount(d) > 0 ==> AttainsRange(d))
      && (VoxelCount(d) > 0 ==> d.intensityRange == CorrectedRange(SeqMin(HUValues(vol)), SeqMax(HUValues(vol))))
      && (VoxelCount(d) == 0 ==> d.intensityRange == IntensityRange(ClampMinHU, ClampMaxHU))
  {
    if vol.bitsAllocated != 16 {
      return Failure(UnsupportedBitDepth);
    }
    var dims := Dims(vol.width, vol.height, vol.depth);
    var spacing := Vec3(MillimetresToMetres(vol.spacingX), MillimetresToMetres(vol.spacingY),
                        MillimetresToMetres(vol.spacingZ));
    var c := ConvertToHU(vol);
    var d := MakeDataset(c.data, dims, spacing, Int16Signed, Some(c.range));
    WrappedConversion(vol, c, d);
    r := Success(d);
  }

  /** `loadVolume` as written: the same steps over the literal conversion,
      so a 16-bit series whose HU values all lie above the CT window or all
      below it traps when the range is built, and nothing is returned. */
  method LoadVolumeAsWritten(vol: SeriesVolume) returns (r: Result<VolumeDataset, LoaderError>)
    requires vol.bitsAllocated == 16 ==> HasSamples(vol) && HUFitsInInt32(vol)
    ensures vol.bitsAllocated != 16 ==> r == Failure(UnsupportedBitDepth)
    ensures vol.bitsAllocated == 16 && SeriesVoxelCount(vol) == 0 ==> r.Success?
    ensures vol.bitsAllocated == 16 && SeriesVoxelCount(vol) > 0 ==>
              (r.Failure? <==> SeqMin(HUValues(vol)) > ClampMaxHU || SeqMax(HUValues(vol)) < ClampMinHU)
    ensures vol.bitsAllocated == 16 && r.Failure? ==> r.error == RangeTrap
    ensures r.Success? ==>
      var d := r.value;
      && d.pixelFormat == Int16Signed
      && d.dimensions == Dims(vol.width, vol.height, vol.depth)
      && d.spacing == Scale(1.0 / 1000.0, Vec3(vol.spacingX, vol.spacingY, vol.spacingZ))
      && |d.data| == 2 * VoxelCount(d)
      && (forall i :: 0 <= i < VoxelCount(d) ==> ReadS16(d.data, i) == StoredValue(HUAt(vol, i)))
      && d.intensityRange == AsWrittenBounds(vol)
  {
    if vol.bitsAllocated != 16 {
      return Failure(UnsupportedBitDepth);
    }
    var dims := Dims(vol.width, vol.height, vol.depth);
    var spacing := Vec3(MillimetresToMetres(vol.spacingX), MillimetresToMetres(vol.spacingY),
                        MillimetresToMetres(vol.spacingZ));
    var c := ConvertToHUAsWritten(vol);
    if c.Failure? {
      return Failure(c.error);
    }
    var d := MakeDataset(c.value.data, dims, spacing, Int16Signed, Some(c.value.range));
    assert VoxelCount(d) == SeriesVoxelCount(vol);
    r := Success(d);
  }
}

=== FILE: homogeneous.dfy ===
/** 4x4 matrices of the two shapes the geometry builds, and their inverses.
    `Affine(A, t)` is the usual affine map `p -> A p + t` on points; `Block(A, t)`
    is the matrix whose LAST ROW is `(t, 1)` and whose last column is
    `(0, 0, 0, 1)`, the shape that results when the columns of an affine
    matrix are passed where its rows were meant. Both are inverted through
    the 3x3 inverse of `A`, which exists exactly when `Det3(A) != 0`. */
module Homogeneous {
  import opened Linear

  /** `simd_float4(q, w)`. */
  function Extend(q: Vec3, w: real): (p: Vec4)
    ensures Xyz(p) == q && p.w == w
  {
    Vec4(q.x, q.y, q.z, w)
  }

  /** `inv` undoes `m` on every vector, from either side. */
  ghost predicate IsInverse4(m: Mat4, inv: Mat4) {
    forall p :: MulVec4(m, MulVec4(inv, p)) == p && MulVec4(inv, MulVec4(m, p)) == p
  }

  // ---------------------------------------------------------------- the affine shape

  function Affine(a: Mat3, t: Vec3): Mat4 {
    Mat4(Extend(a.c0, 0.0), Extend(a.c1, 0.0), Extend(a.c2, 0.0), Extend(t, 1.0))
  }

  /** An affine matrix maps `(q, w)` to `(A q + w t, w)`. */
  lemma AffineApply(a: Mat3, t: Vec3, p: Vec4)
    ensures MulVec4(Affine(a, t), p) == Extend(Add(MulVec(a, Xyz(p)), Scale(p.w, t)), p.w)
  {
  }

  /** The inverse of an affine matrix with an invertible linear part is the
      affine matrix of the inverse map `p -> A^-1 p - A^-1 t`. */
  function AffineInverse(a: Mat3, t: Vec3): (inv: Mat4)
    requires Det3(a) != 0.0
    ensures IsInverse4(Affine(a, t), inv)
  {
    var ai := Inverse3(a);
    var inv := Affine(ai, Scale(-1.0, MulVec(ai, t)));
    forall p ensures MulVec4(Affine(a, t), MulVec4(inv, p)) == p && MulVec4(inv, MulVec4(Affine(a, t), p)) == p {
      AffineUndo(a, t, ai, p);
    }
    inv
  }

  lemma AffineUndo(a: Mat3, t: Vec3, ai: Mat3, p: Vec4)
    requires forall q :: MulVec(ai, MulVec(a, q)) == q
    requires forall q :: MulVec(a, MulVec(ai, q)) == q
    ensures MulVec4(Affine(a, t), MulVec4(Affine(ai, Scale(-1.0, MulVec(ai, t))), p)) == p
    ensures MulVec4(Affine(ai, Scale(-1.0, MulVec(ai, t))), MulVec4(Affine(a, t), p)) == p
  {
    var s := Scale(-1.0, MulVec(ai, t));
    var q := Xyz(p);
    // forward: A (A^-1 q + w s) + w t = q
    AffineApply(ai, s, p);
    var p1 := Extend(Add(MulVec(ai, q), Scale(p.w, s)), p.w);
    AffineApply(a, t, p1);
    MulVecAdd(a, MulVec(ai, q), Scale(p.w, s));
    MulVecScale(a, p.w, s);
    MulVecScale(a, -1.0, MulVec(ai, t));
    assert MulVec(a, MulVec(ai, t)) == t;
    assert MulVec(a, MulVec(ai, q)) == q;
    CancelTranslation(q, p.w, t);
    // backward: A^-1 (A q + w t) + w s = q
    AffineApply(a, t, p);
    var p2 := Extend(Add(MulVec(a, q), Scale(p.w, t)), p.w);
    AffineApply(ai, s, p2);
    MulVecAdd(ai, MulVec(a, q), Scale(p.w, t));
    MulVecScale(ai, p.w, t);
    assert MulVec(ai, MulVec(a, q)) == q;
    CancelScaledTranslation(q, p.w, MulVec(ai, t));
  }

  lemma CancelTranslation(q: Vec3, w: real, t: Vec3)
    ensures Add(Add(q, Scale(w, Scale(-1.0, t))), Scale(w, t)) == q
  {
  }

  lemma CancelScaledTranslation(q: Vec3, w: real, u: Vec3)
    ensures Add(Add(q, Scale(w, u)), Scale(w, Scale(-1.0, u))) == q
  {
  }

  // ---------------------------------------------------------------- the block shape

  function Block(a: Mat3, t: Vec3): Mat4 {
    Mat4(Extend(a.c0, t.x), Extend(a.c1, t.y), Extend(a.c2, t.z), Vec4(0.0, 0.0, 0.0, 1.0))
  }

  /** A block matrix maps `(q, w)` to `(A q, t . q + w)`: the translation
      ends up in the w component. */
  lemma BlockApply(a: Mat3, t: Vec3, p: Vec4)
    ensures MulVec4(Block(a, t), p) == Extend(MulVec(a, Xyz(p)), Dot(t, Xyz(p)) + p.w)
  {
  }

  /** The inverse of a block matrix with an invertible `A` is the block
      matrix of `A^-1` with last row `-(A^-T t)`. */
  function BlockInverse(a: Mat3, t: Vec3): (inv: Mat4)
    requires Det3(a) != 0.0
    ensures IsInverse4(Block(a, t), inv)
  {
    var ai := Inverse3(a);
    var s := Scale(-1.0, MulVec(Transpose(ai), t));
    var inv := Block(ai, s);
    forall p ensures MulVec4(Block(a, t), MulVec4(inv, p)) == p && MulVec4(inv, MulVec4(Block(a, t), p)) == p {
      BlockUndo(a, t, ai, p);
    }
    inv
  }

  lemma BlockUndo(a: Mat3, t: Vec3, ai: Mat3, p: Vec4)
    requires forall q :: MulVec(ai, MulVec(a, q)) == q
    requires forall q :: MulVec(a, MulVec(ai, q)) == q
    ensures MulVec4(Block(a, t), MulVec4(Block(ai, Scale(-1.0, MulVec(Transpose(ai), t))), p)) == p
    ensures MulVec4(Block(ai, Scale(-1.0, MulVec(Transpose(ai), t))), MulVec4(Block(a, t), p)) == p
  {
    var s := Scale(-1.0, MulVec(Transpose(ai), t));
    var q := Xyz(p);
    // forward: (A A^-1 q, t . A^-1 q + s . q + w) = (q, w)
    BlockApply(ai, s, p);
    var p1 := Extend(MulVec(ai, q), Dot(s, q) + p.w);
    BlockApply(a, t, p1);
    assert MulVec(a, MulVec(ai, q)) == q;
    DotTransposeMulVec(ai, t, q);
    DotNegate(MulVec(Transpose(ai), t), q);
    // backward: (A^-1 A q, s . A q + t . q + w) = (q, w)
    BlockApply(a, t, p);
    var p2 := Extend(MulVec(a, q), Dot(t, q) + p.w);
    BlockApply(ai, s, p2);
    assert MulVec(ai, MulVec(a, q)) == q;
    DotTransposeMulVec(ai, t, MulVec(a, q));
    DotNegate(MulVec(Transpose(ai), t), MulVec(a, q));
  }

  lemma DotNegate(u: Vec3, v: Vec3)
    ensures Dot(Scale(-1.0, u), v) == -Dot(u, v)
  {
  }

  /** `(M^T a) . b == a . (M b)`. */
  lemma DotTransposeMulVec(m: Mat3, a: Vec3, b: Vec3)
    ensures Dot(MulVec(Transpose(m), a), b) == Dot(a, MulVec(m, b))
  {
    DotTransposeScalar(m.c0.x, m.c0.y, m.c0.z, m.c1.x, m.c1.y, m.c1.z, m.c2.x, m.c2.y, m.c2.z,
                       a.x, a.y, a.z, b.x, b.y, b.z);
  }

  lemma DotTransposeScalar(m00: real, m01: real, m02: real, m10: real, m11: real, m12: real,
                           m20: real, m21: real, m22: real,
                           a0: real, a1: real, a2: real, b0: real, b1: real, b2: real)
    ensures (m00 * a0 + m01 * a1 + m02 * a2) * b0
          + (m10 * a0 + m11 * a1 + m12 * a2) * b1
          + (m20 * a0 + m21 * a1 + m22 * a2) * b2
         == a0 * (m00 * b0 + m10 * b1 + m20 * b2)
          + a1 * (m01 * b0 + m11 * b1 + m21 * b2)
          + a2 * (m02 * b0 + m12 * b1 + m22 * b2)
  {
  }
}

=== FILE: linear.dfy ===
/** Vectors and matrices over `real`, laid out as the `simd` types are: a
    matrix is a tuple of COLUMNS, and a matrix-vector product combines the
    columns with the vector's components as weights. */
module Linear {

  datatype Vec3 = Vec3(x: real, y: real, z: real)
  datatype Vec4 = Vec4(x: real, y: real, z: real, w: real)

  /** A 3x3 matrix given by its columns (`simd_float3x3(columns:)`). */
  datatype Mat3 = Mat3(c0: Vec3, c1: Vec3, c2: Vec3)

  /** A 4x4 matrix given by its columns (`simd_float4x4(columns:)`). */
  datatype Mat4 = Mat4(c0: Vec4, c1: Vec4, c2: Vec4, c3: Vec4)

  const Zero3: Vec3 := Vec3(0.0, 0.0, 0.0)
  const UnitX: Vec3 := Vec3(1.0, 0.0, 0.0)
  const UnitY: Vec3 := Vec3(0.0, 1.0, 0.0)
  const UnitZ: Vec3 := Vec3(0.0, 0.0, 1.0)
  const Half3: Vec3 := Vec3(0.5, 0.5, 0.5)

  const Identity3: Mat3 := Mat3(UnitX, UnitY, UnitZ)
  const Identity4: Mat4 :=
    Mat4(Vec4(1.0, 0.0, 0.0, 0.0), Vec4(0.0, 1.0, 0.0, 0.0),
         Vec4(0.0, 0.0, 1.0, 0.0), Vec4(0.0, 0.0, 0.0, 1.0))

  // ---------------------------------------------------------------- Vec3

  function Add(a: Vec3, b: Vec3): Vec3 {
    Vec3(a.x + b.x, a.y + b.y, a.z + b.z)
  }

  function Sub(a: Vec3, b: Vec3): Vec3 {
    Vec3(a.x - b.x, a.y - b.y, a.z - b.z)
  }

  function Scale(k: real, v: Vec3): Vec3 {
    Vec3(k * v.x, k * v.y, k * v.z)
  }

  /** Componentwise product (`a * b` on SIMD vectors). */
  function Hadamard(a: Vec3, b: Vec3): Vec3 {
    Vec3(a.x * b.x, a.y * b.y, a.z * b.z)
  }

  function Dot(a: Vec3, b: Vec3): real {
    a.x * b.x + a.y * b.y + a.z * b.z
  }

  function Cross(a: Vec3, b: Vec3): Vec3 {
    Vec3(a.y * b.z - a.z * b.y, a.z * b.x - a.x * b.z, a.x * b.y - a.y * b.x)
  }

  /** `len` is the Euclidean length of `v`: the value `simd_length(v)` stands for. */
  predicate IsLength(v: Vec3, len: real) {
    len >= 0.0 && len * len == Dot(v, v)
  }

  predicate IsUnit(v: Vec3) {
    Dot(v, v) == 1.0
  }

  /** `simd_normalize(v)`, given the length of `v`. */
  function Normalize(v: Vec3, len: real): (r: Vec3)
    requires IsLength(v, len) && len > 0.0
    ensures IsUnit(r)
    ensures Scale(len, r) == v
  {
    var k := 1.0 / len;
    DotScaleBoth(k, v);
    Scale(k, v)
  }

  lemma DotScaleBoth(k: real, v: Vec3)
    ensures Dot(Scale(k, v), Scale(k, v)) == (k * k) * Dot(v, v)
  {
  }

  lemma DotScaleLeft(k: real, u: Vec3, v: Vec3)
    ensures Dot(Scale(k, u), v) == k * Dot(u, v)
  {
  }

  /** The cross product is orthogonal to both of its factors. */
  lemma CrossOrthogonal(a: Vec3, b: Vec3)
    ensures Dot(Cross(a, b), a) == 0.0
    ensures Dot(Cross(a, b), b) == 0.0
  {
  }

  // ---------------------------------------------------------------- Mat3

  /** One row of a 3x3 matrix-vector product. */
  function Lin3(a: real, b: real, c: real, v: Vec3): real {
    a * v.x + b * v.y + c * v.z
  }

  /** `m * v`: the columns of `m` weighted by the components of `v`. */
  function MulVec(m: Mat3, v: Vec3): Vec3 {
    Vec3(Lin3(m.c0.x, m.c1.x, m.c2.x, v),
         Lin3(m.c0.y, m.c1.y, m.c2.y, v),
         Lin3(m.c0.z, m.c1.z, m.c2.z, v))
  }

  /** `a * b`: column j of the product is `a` applied to column j of `b`. */
  function MatMul(a: Mat3, b: Mat3): Mat3 {
    Mat3(MulVec(a, b.c0), MulVec(a, b.c1), MulVec(a, b.c2))
  }

  function Transpose(m: Mat3): Mat3 {
    Mat3(Vec3(m.c0.x, m.c1.x, m.c2.x),
         Vec3(m.c0.y, m.c1.y, m.c2.y),
         Vec3(m.c0.z, m.c1.z, m.c2.z))
  }

  /** The columns are unit length and pairwise orthogonal: m^T m = I. */
  predicate IsOrthonormal(m: Mat3) {
    && Dot(m.c0, m.c0) == 1.0 && Dot(m.c1, m.c1) == 1.0 && Dot(m.c2, m.c2) == 1.0
    && Dot(m.c0, m.c1) == 0.0 && Dot(m.c0, m.c2) == 0.0 && Dot(m.c1, m.c2) == 0.0
  }

  /** Determinant, as the scalar triple product of the columns. */
  function Det3(m: Mat3): real {
    Dot(m.c0, Cross(m.c1, m.c2))
  }

  /** The adjugate applied to `w`: its rows are the cross products of pairs
      of columns of `m`. */
  function AdjApply(m: Mat3, w: Vec3): Vec3 {
    Vec3(Dot(Cross(m.c1, m.c2), w), Dot(Cross(m.c2, m.c0), w), Dot(Cross(m.c0, m.c1), w))
  }

  /** The adjugate: its rows are the cross products of pairs of columns of `m`. */
  function Adjugate(m: Mat3): Mat3 {
    Transpose(Mat3(Cross(m.c1, m.c2), Cross(m.c2, m.c0), Cross(m.c0, m.c1)))
  }

  function ScaleMat(k: real, m: Mat3): Mat3 {
    Mat3(Scale(k, m.c0), Scale(k, m.c1), Scale(k, m.c2))
  }

  /** `simd_inverse` of an invertible 3x3 matrix: the adjugate divided by the
      determinant, a two-sided inverse. */
  function Inverse3(m: Mat3): (inv: Mat3)
    requires Det3(m) != 0.0
    ensures forall q :: MulVec(inv, MulVec(m, q)) == q
    ensures forall q :: MulVec(m, MulVec(inv, q)) == q
  {
    var inv := ScaleMat(1.0 / Det3(m), Adjugate(m));
    InverseIsTwoSided(m, inv);
    inv
  }

  lemma InverseIsTwoSided(m: Mat3, inv: Mat3)
    requires Det3(m) != 0.0 && inv == ScaleMat(1.0 / Det3(m), Adjugate(m))
    ensures forall q :: MulVec(inv, MulVec(m, q)) == q
    ensures forall q :: MulVec(m, MulVec(inv, q)) == q
  {
    var k := 1.0 / Det3(m);
    forall q ensures MulVec(inv, MulVec(m, q)) == q {
      MulVecScaleMat(k, Adjugate(m), MulVec(m, q));
      AdjugateApply(m, MulVec(m, q));
      AdjugateLeft(m, q);
      ScaleScale(k, Det3(m), q);
    }
    forall q ensures MulVec(m, MulVec(inv, q)) == q {
      MulVecScaleMat(k, Adjugate(m), q);
      AdjugateApply(m, q);
      MulVecScale(m, k, AdjApply(m, q));
      AdjugateRight(m, q);
      ScaleScale(k, Det3(m), q);
    }
  }

  lemma ScaleScale(k: real, d: real, q: Vec3)
    requires d != 0.0 && k == 1.0 / d
    ensures Scale(k, Scale(d, q)) == q
  {
    assert k * d == 1.0;
    ScalarAssoc(k, d, q.x);
    ScalarAssoc(k, d, q.y);
    ScalarAssoc(k, d, q.z);
  }

  lemma ScalarAssoc(a: real, b: real, c: real)
    ensures a * (b * c) == (a * b) * c
  {
  }

  lemma AdjugateApply(m: Mat3, w: Vec3)
    ensures MulVec(Adjugate(m), w) == AdjApply(m, w)
  {
  }

  lemma MulVecScaleMat(k: real, m: Mat3, w: Vec3)
    ensures MulVec(ScaleMat(k, m), w) == Scale(k, MulVec(m, w))
  {
    MulVecScaleMatX(k, m, w);
    MulVecScaleMatY(k, m, w);
    MulVecScaleMatZ(k, m, w);
  }

  lemma MulVecScaleMatX(k: real, m: Mat3, w: Vec3)
    ensures MulVec(ScaleMat(k, m), w).x == Scale(k, MulVec(m, w)).x
  {
    UnfoldScaleMat(k, m, w);
    UnfoldScaleMulVecX(k, m, w);
    Lin3ScaleCoeffs(m.c0.x, m.c1.x, m.c2.x, k, w);
  }

  lemma MulVecScaleMatY(k: real, m: Mat3, w: Vec3)
    ensures MulVec(ScaleMat(k, m), w).y == Scale(k, MulVec(m, w)).y
  {
    UnfoldScaleMat(k, m, w);
    UnfoldScaleMulVecY(k, m, w);
    Lin3ScaleCoeffs(m.c0.y, m.c1.y, m.c2.y, k, w);
  }

  lemma MulVecScaleMatZ(k: real, m: Mat3, w: Vec3)
    ensures MulVec(ScaleMat(k, m), w).z == Scale(k, MulVec(m, w)).z
  {
    UnfoldScaleMat(k, m, w);
    UnfoldScaleMulVecZ(k, m, w);
    Lin3ScaleCoeffs(m.c0.z, m.c1.z, m.c2.z, k, w);
  }

  lemma UnfoldScaleMat(k: real, m: Mat3, w: Vec3)
    ensures MulVec(ScaleMat(k, m), w).x == Lin3(k * m.c0.x, k * m.c1.x, k * m.c2.x, w)
    ensures MulVec(ScaleMat(k, m), w).y == Lin3(k * m.c0.y, k * m.c1.y, k * m.c2.y, w)
    ensures MulVec(ScaleMat(k, m), w).z == Lin3(k * m.c0.z, k * m.c1.z, k * m.c2.z, w)
  {
  }

  lemma UnfoldScaleMulVecX(k: real, m: Mat3, w: Vec3)
    ensures Scale(k, MulVec(m, w)).x == k * Lin3(m.c0.x, m.c1.x, m.c2.x, w)
  {
  }

  lemma UnfoldScaleMulVecY(k: real, m: Mat3, w: Vec3)
    ensures Scale(k, MulVec(m, w)).y == k * Lin3(m.c0.y, m.c1.y, m.c2.y, w)
  {
  }

  lemma UnfoldScaleMulVecZ(k: real, m: Mat3, w: Vec3)
    ensures Scale(k, MulVec(m, w)).z == k * Lin3(m.c0.z, m.c1.z, m.c2.z, w)
  {
  }

  lemma Lin3ScaleCoeffs(a: real, b: real, c: real, k: real, w: Vec3)
    ensures Lin3(k * a, k * b, k * c, w) == k * Lin3(a, b, c, w)
  {
    Lin3ScaleCoeffsScalar(a, b, c, k, w.x, w.y, w.z);
  }

  lemma Lin3ScaleCoeffsScalar(a: real, b: real, c: real, k: real, w0: real, w1: real, w2: real)
    ensures (k * a) * w0 + (k * b) * w1 + (k * c) * w2 == k * (a * w0 + b * w1 + c * w2)
  {
  }

  /** Adjugate times matrix is the determinant times the identity. */
  lemma AdjugateLeft(m: Mat3, q: Vec3)
    ensures AdjApply(m, MulVec(m, q)) == Scale(Det3(m), q)
  {
    var a, b, c := m.c0, m.c1, m.c2;
    var d := Det3(m);
    CrossOrthogonal(b, c);
    CrossOrthogonal(c, a);
    CrossOrthogonal(a, b);
    TripleProductCyclic(a, b, c);
    AdjugateLeftRow(Cross(b, c), m, q, d, 0.0, 0.0);
    AdjugateLeftRow(Cross(c, a), m, q, 0.0, d, 0.0);
    AdjugateLeftRow(Cross(a, b), m, q, 0.0, 0.0, d);
  }


  /** Matrix times adjugate is the determinant times the identity. */
  lemma AdjugateRight(m: Mat3, q: Vec3)
    ensures MulVec(m, AdjApply(m, q)) == Scale(Det3(m), q)
  {
    var a, b, c := m.c0, m.c1, m.c2;
    var p0, p1, p2 := Dot(Cross(b, c), q), Dot(Cross(c, a), q), Dot(Cross(a, b), q);
    ColumnsTimesRows(m, q, p0, p1, p2);
    AdjugateRightX(m, q, p0, p1, p2);
    AdjugateRightY(m, q, p0, p1, p2);
    AdjugateRightZ(m, q, p0, p1, p2);
  }


  lemma MulVecScale(m: Mat3, k: real, v: Vec3)
    ensures MulVec(m, Scale(k, v)) == Scale(k, MulVec(m, v))
  {
    Lin3Scale(m.c0.x, m.c1.x, m.c2.x, k, v);
    Lin3Scale(m.c0.y, m.c1.y, m.c2.y, k, v);
    Lin3Scale(m.c0.z, m.c1.z, m.c2.z, k, v);
  }

  /** Matrix-vector products distribute over vector sums. */
  lemma MulVecAdd(m: Mat3, u: Vec3, v: Vec3)
    ensures MulVec(m, Add(u, v)) == Add(MulVec(m, u), MulVec(m, v))
  {
    Lin3Add(m.c0.x, m.c1.x, m.c2.x, u, v);
    Lin3Add(m.c0.y, m.c1.y, m.c2.y, u, v);
    Lin3Add(m.c0.z, m.c1.z, m.c2.z, u, v);
  }

  lemma Lin3Add(a: real, b: real, c: real, u: Vec3, v: Vec3)
    ensures Lin3(a, b, c, Add(u, v)) == Lin3(a, b, c, u) + Lin3(a, b, c, v)
  {
    Lin3AddScalar(a, b, c, u.x, u.y, u.z, v.x, v.y, v.z);
  }

  lemma Lin3AddScalar(a: real, b: real, c: real, u0: real, u1: real, u2: real, v0: real, v1: real, v2: real)
    ensures a * (u0 + v0) + b * (u1 + v1) + c * (u2 + v2) == (a * u0 + b * u1 + c * u2) + (a * v0 + b * v1 + c * v2)
  {
  }

  lemma Lin3Scale(a: real, b: real, c: real, k: real, v: Vec3)
    ensures Lin3(a, b, c, Scale(k, v)) == k * Lin3(a, b, c, v)
  {
    Lin3ScaleScalar(a, b, c, k, v.x, v.y, v.z);
  }

  lemma Lin3ScaleScalar(a: real, b: real, c: real, k: real, v0: real, v1: real, v2: real)
    ensures a * (k * v0) + b * (k * v1) + c * (k * v2) == k * (a * v0 + b * v1 + c * v2)
  {
  }

  lemma MulVecIdentity(v: Vec3)
    ensures MulVec(Identity3, v) == v
  {
  }

  /** A matrix with orthonormal columns preserves inner products. */
  lemma OrthonormalPreservesDot(m: Mat3, u: Vec3, v: Vec3)
    requires IsOrthonormal(m)
    ensures Dot(MulVec(m, u), MulVec(m, v)) == Dot(u, v)
  {
    UnfoldDotOfMulVec(m, u, v);
    OrthonormalScalar(m.c0.x, m.c0.y, m.c0.z, m.c1.x, m.c1.y, m.c1.z, m.c2.x, m.c2.y, m.c2.z,
                      u.x, u.y, u.z, v.x, v.y, v.z);
  }

  /** The product of two matrices with orthonormal columns has orthonormal columns. */
  lemma OrthonormalProduct(a: Mat3, b: Mat3)
    requires IsOrthonormal(a) && IsOrthonormal(b)
    ensures IsOrthonormal(MatMul(a, b))
  {
    OrthonormalPreservesDot(a, b.c0, b.c0);
    OrthonormalPreservesDot(a, b.c1, b.c1);
    OrthonormalPreservesDot(a, b.c2, b.c2);
    OrthonormalPreservesDot(a, b.c0, b.c1);
    OrthonormalPreservesDot(a, b.c0, b.c2);
    OrthonormalPreservesDot(a, b.c1, b.c2);
  }

  // ---------------------------------------------------------------- Vec4 / Mat4

  function Add4(a: Vec4, b: Vec4): Vec4 {
    Vec4(a.x + b.x, a.y + b.y, a.z + b.z, a.w + b.w)
  }

  /** `.xyz` of a 4-vector: the w component is dropped, not divided by. */
  function Xyz(v: Vec4): Vec3 {
    Vec3(v.x, v.y, v.z)
  }

  /** A point in homogeneous coordinates, `simd_float4(p, 1)`. */
  function Point(p: Vec3): Vec4 {
    Vec4(p.x, p.y, p.z, 1.0)
  }

  /** A direction in homogeneous coordinates, `simd_float4(d, 0)`. */
  function Direction(d: Vec3): Vec4 {
    Vec4(d.x, d.y, d.z, 0.0)
  }

  /** One row of a 4x4 matrix-vector product. */
  function Lin4(a: real, b: real, c: real, d: real, v: Vec4): real {
    a * v.x + b * v.y + c * v.z + d * v.w
  }

  function MulVec4(m: Mat4, v: Vec4): Vec4 {
    Vec4(Lin4(m.c0.x, m.c1.x, m.c2.x, m.c3.x, v),
         Lin4(m.c0.y, m.c1.y, m.c2.y, m.c3.y, v),
         Lin4(m.c0.z, m.c1.z, m.c2.z, m.c3.z, v),
         Lin4(m.c0.w, m.c1.w, m.c2.w, m.c3.w, v))
  }

  function MatMul4(a: Mat4, b: Mat4): Mat4 {
    Mat4(MulVec4(a, b.c0), MulVec4(a, b.c1), MulVec4(a, b.c2), MulVec4(a, b.c3))
  }

  /** `simd_float4x4(diagonal:)`. */
  function Diagonal4(d: Vec4): Mat4 {
    Mat4(Vec4(d.x, 0.0, 0.0, 0.0), Vec4(0.0, d.y, 0.0, 0.0),
         Vec4(0.0, 0.0, d.z, 0.0), Vec4(0.0, 0.0, 0.0, d.w))
  }

  /** Applying a product is applying its factors in turn. */
  lemma MulVec4Assoc(a: Mat4, b: Mat4, v: Vec4)
    ensures MulVec4(MatMul4(a, b), v) == MulVec4(a, MulVec4(b, v))
  {
    Lin4Assoc(a.c0.x, a.c1.x, a.c2.x, a.c3.x, b, v);
    Lin4Assoc(a.c0.y, a.c1.y, a.c2.y, a.c3.y, b, v);
    Lin4Assoc(a.c0.z, a.c1.z, a.c2.z, a.c3.z, b, v);
    Lin4Assoc(a.c0.w, a.c1.w, a.c2.w, a.c3.w, b, v);
  }

  lemma Lin4Assoc(r0: real, r1: real, r2: real, r3: real, b: Mat4, v: Vec4)
    ensures Lin4(Lin4(r0, r1, r2, r3, b.c0), Lin4(r0, r1, r2, r3, b.c1),
                 Lin4(r0, r1, r2, r3, b.c2), Lin4(r0, r1, r2, r3, b.c3), v)
         == Lin4(r0, r1, r2, r3, MulVec4(b, v))
  {
    UnfoldLin4AssocL(r0, r1, r2, r3, b, v);
    UnfoldLin4AssocR(r0, r1, r2, r3, b, v);
    Lin4AssocScalar(r0, r1, r2, r3,
                    b.c0.x, b.c1.x, b.c2.x, b.c3.x, b.c0.y, b.c1.y, b.c2.y, b.c3.y,
                    b.c0.z, b.c1.z, b.c2.z, b.c3.z, b.c0.w, b.c1.w, b.c2.w, b.c3.w,
                    v.x, v.y, v.z, v.w);
  }

  function Scale4(k: real, v: Vec4): Vec4 {
    Vec4(k * v.x, k * v.y, k * v.z, k * v.w)
  }

  /** Matrix-vector products commute with scaling. */
  lemma MulVec4Scale(m: Mat4, k: real, v: Vec4)
    ensures MulVec4(m, Scale4(k, v)) == Scale4(k, MulVec4(m, v))
  {
    MulVec4ScaleRowX(m, k, v);
    MulVec4ScaleRowY(m, k, v);
    MulVec4ScaleRowZ(m, k, v);
    MulVec4ScaleRowW(m, k, v);
    Vec4Components(MulVec4(m, Scale4(k, v)), Scale4(k, MulVec4(m, v)));
  }

  lemma MulVec4ScaleRowX(m: Mat4, k: real, v: Vec4)
    ensures MulVec4(m, Scale4(k, v)).x == k * MulVec4(m, v).x
  {
    Lin4Scale(m.c0.x, m.c1.x, m.c2.x, m.c3.x, k, v);
  }

  lemma MulVec4ScaleRowY(m: Mat4, k: real, v: Vec4)
    ensures MulVec4(m, Scale4(k, v)).y == k * MulVec4(m, v).y
  {
    Lin4Scale(m.c0.y, m.c1.y, m.c2.y, m.c3.y, k, v);
  }

  lemma MulVec4ScaleRowZ(m: Mat4, k: real, v: Vec4)
    ensures MulVec4(m, Scale4(k, v)).z == k * MulVec4(m, v).z
  {
    Lin4Scale(m.c0.z, m.c1.z, m.c2.z, m.c3.z, k, v);
  }

  lemma MulVec4ScaleRowW(m: Mat4, k: real, v: Vec4)
    ensures MulVec4(m, Scale4(k, v)).w == k * MulVec4(m, v).w
  {
    Lin4Scale(m.c0.w, m.c1.w, m.c2.w, m.c3.w, k, v);
  }

  lemma Vec4Components(l: Vec4, r: Vec4)
    requires l.x == r.x && l.y == r.y && l.z == r.z && l.w == r.w
    ensures l == r
  {
  }

  lemma Lin4Scale(a: real, b: real, c: real, d: real, k: real, v: Vec4)
    ensures Lin4(a, b, c, d, Scale4(k, v)) == k * Lin4(a, b, c, d, v)
  {
    Lin4ScaleScalar(a, b, c, d, k, v.x, v.y, v.z, v.w);
  }

  lemma Lin4ScaleScalar(a: real, b: real, c: real, d: real, k: real, v0: real, v1: real, v2: real, v3: real)
    ensures a * (k * v0) + b * (k * v1) + c * (k * v2) + d * (k * v3) == k * (a * v0 + b * v1 + c * v2 + d * v3)
  {
  }

  /** Matrix-vector products distribute over vector sums. */
  lemma MulVec4Add(m: Mat4, u: Vec4, v: Vec4)
    ensures MulVec4(m, Add4(u, v)) == Add4(MulVec4(m, u), MulVec4(m, v))
  {
    Lin4Add(m.c0.x, m.c1.x, m.c2.x, m.c3.x, u, v);
    Lin4Add(m.c0.y, m.c1.y, m.c2.y, m.c3.y, u, v);
    Lin4Add(m.c0.z, m.c1.z, m.c2.z, m.c3.z, u, v);
    Lin4Add(m.c0.w, m.c1.w, m.c2.w, m.c3.w, u, v);
  }

  lemma Lin4Add(a: real, b: real, c: real, d: real, u: Vec4, v: Vec4)
    ensures Lin4(a, b, c, d, Add4(u, v)) == Lin4(a, b, c, d, u) + Lin4(a, b, c, d, v)
  {
    Lin4AddScalar(a, b, c, d, u.x, u.y, u.z, u.w, v.x, v.y, v.z, v.w);
  }

  // ---------------------------------------------------------------- ring identities
  // The solver proves polynomial identities over plain scalars far more
  // readily than over datatype fields, so each matrix fact above is split into
  // an unfolding step (no arithmetic) and a scalar identity (no datatypes).

  lemma UnfoldDotOfMulVec(m: Mat3, u: Vec3, v: Vec3)
    ensures Dot(MulVec(m, u), MulVec(m, v))
         == (m.c0.x*u.x + m.c1.x*u.y + m.c2.x*u.z) * (m.c0.x*v.x + m.c1.x*v.y + m.c2.x*v.z)
          + (m.c0.y*u.x + m.c1.y*u.y + m.c2.y*u.z) * (m.c0.y*v.x + m.c1.y*v.y + m.c2.y*v.z)
          + (m.c0.z*u.x + m.c1.z*u.y + m.c2.z*u.z) * (m.c0.z*v.x + m.c1.z*v.y + m.c2.z*v.z)
  {
  }

  lemma MulCongruence(p: real, a: real, b: real)
    requires a == b
    ensures p * a == p * b
  {
  }

  lemma ExpandDotOfCombinations(a00: real, a10: real, a20: real, a01: real, a11: real, a21: real,
                                a02: real, a12: real, a22: real,
                                u0: real, u1: real, u2: real, v0: real, v1: real, v2: real)
    ensures (a00*u0 + a01*u1 + a02*u2) * (a00*v0 + a01*v1 + a02*v2)
          + (a10*u0 + a11*u1 + a12*u2) * (a10*v0 + a11*v1 + a12*v2)
          + (a20*u0 + a21*u1 + a22*u2) * (a20*v0 + a21*v1 + a22*v2)
      == u0*v0*(a00*a00 + a10*a10 + a20*a20) + u0*v1*(a00*a01 + a10*a11 + a20*a21)
       + u0*v2*(a00*a02 + a10*a12 + a20*a22)
       + u1*v0*(a01*a00 + a11*a10 + a21*a20) + u1*v1*(a01*a01 + a11*a11 + a21*a21)
       + u1*v2*(a01*a02 + a11*a12 + a21*a22)
       + u2*v0*(a02*a00 + a12*a10 + a22*a20) + u2*v1*(a02*a01 + a12*a11 + a22*a21)
       + u2*v2*(a02*a02 + a12*a12 + a22*a22)
  {
  }

  lemma OrthonormalScalar(a00: real, a10: real, a20: real, a01: real, a11: real, a21: real,
                          a02: real, a12: real, a22: real,
                          u0: real, u1: real, u2: real, v0: real, v1: real, v2: real)
    requires a00*a00 + a10*a10 + a20*a20 == 1.0 && a01*a01 + a11*a11 + a21*a21 == 1.0
    requires a02*a02 + a12*a12 + a22*a22 == 1.0
    requires a00*a01 + a10*a11 + a20*a21 == 0.0 && a00*a02 + a10*a12 + a20*a22 == 0.0
    requires a01*a02 + a11*a12 + a21*a22 == 0.0
    ensures (a00*u0 + a01*u1 + a02*u2) * (a00*v0 + a01*v1 + a02*v2)
          + (a10*u0 + a11*u1 + a12*u2) * (a10*v0 + a11*v1 + a12*v2)
          + (a20*u0 + a21*u1 + a22*u2) * (a20*v0 + a21*v1 + a22*v2)
         == u0*v0 + u1*v1 + u2*v2
  {
    ExpandDotOfCombinations(a00, a10, a20, a01, a11, a21, a02, a12, a22, u0, u1, u2, v0, v1, v2);
    MulCongruence(u0*v0, a00*a00 + a10*a10 + a20*a20, 1.0);
    MulCongruence(u0*v1, a00*a01 + a10*a11 + a20*a21, 0.0);
    MulCongruence(u0*v2, a00*a02 + a10*a12 + a20*a22, 0.0);
    MulCongruence(u1*v0, a01*a00 + a11*a10 + a21*a20, 0.0);
    MulCongruence(u1*v1, a01*a01 + a11*a11 + a21*a21, 1.0);
    MulCongruence(u1*v2, a01*a02 + a11*a12 + a21*a22, 0.0);
    MulCongruence(u2*v0, a02*a00 + a12*a10 + a22*a20, 0.0);
    MulCongruence(u2*v1, a02*a01 + a12*a11 + a22*a21, 0.0);
    MulCongruence(u2*v2, a02*a02 + a12*a12 + a22*a22, 1.0);
  }

  lemma UnfoldDet(m: Mat3)
    ensures Det3(m) == m.c0.x*(m.c1.y*m.c2.z - m.c1.z*m.c2.y) + m.c0.y*(m.c1.z*m.c2.x - m.c1.x*m.c2.z)
                     + m.c0.z*(m.c1.x*m.c2.y - m.c1.y*m.c2.x)
  {
  }

  lemma TripleProductCyclic(a: Vec3, b: Vec3, c: Vec3)
    ensures Dot(Cross(b, c), a) == Dot(a, Cross(b, c))
    ensures Dot(Cross(c, a), b) == Dot(a, Cross(b, c))
    ensures Dot(Cross(a, b), c) == Dot(a, Cross(b, c))
  {
    CrossDot(b, c, a);
    CrossDot(c, a, b);
    CrossDot(a, b, c);
    DotCross(a, b, c);
    TripleScalar(a.x, a.y, a.z, b.x, b.y, b.z, c.x, c.y, c.z);
  }

  lemma DotCross(a: Vec3, b: Vec3, c: Vec3)
    ensures Dot(a, Cross(b, c)) == a.x*(b.y*c.z - b.z*c.y) + a.y*(b.z*c.x - b.x*c.z) + a.z*(b.x*c.y - b.y*c.x)
  {
  }

  lemma TripleScalar(a0: real, a1: real, a2: real, b0: real, b1: real, b2: real,
                     c0: real, c1: real, c2: real)
    ensures (b1*c2 - b2*c1)*a0 + (b2*c0 - b0*c2)*a1 + (b0*c1 - b1*c0)*a2
         == a0*(b1*c2 - b2*c1) + a1*(b2*c0 - b0*c2) + a2*(b0*c1 - b1*c0)
    ensures (c1*a2 - c2*a1)*b0 + (c2*a0 - c0*a2)*b1 + (c0*a1 - c1*a0)*b2
         == a0*(b1*c2 - b2*c1) + a1*(b2*c0 - b0*c2) + a2*(b0*c1 - b1*c0)
    ensures (a1*b2 - a2*b1)*c0 + (a2*b0 - a0*b2)*c1 + (a0*b1 - a1*b0)*c2
         == a0*(b1*c2 - b2*c1) + a1*(b2*c0 - b0*c2) + a2*(b0*c1 - b1*c0)
  {
  }

  /** `k . (m q)` expands along the columns of `m`. */
  lemma DotMulVec(k: Vec3, m: Mat3, q: Vec3)
    ensures Dot(k, MulVec(m, q)) == q.x * Dot(k, m.c0) + q.y * Dot(k, m.c1) + q.z * Dot(k, m.c2)
  {
    var v := MulVec(m, q);
    DotCombination(k.x, k.y, k.z, m.c0.x, m.c0.y, m.c0.z, m.c1.x, m.c1.y, m.c1.z,
                   m.c2.x, m.c2.y, m.c2.z, q.x, q.y, q.z, v.x, v.y, v.z);
  }


  lemma DotCombination(k0: real, k1: real, k2: real, a0: real, a1: real, a2: real,
                       b0: real, b1: real, b2: real, c0: real, c1: real, c2: real,
                       q0: real, q1: real, q2: real, v0: real, v1: real, v2: real)
    requires v0 == a0 * q0 + b0 * q1 + c0 * q2
    requires v1 == a1 * q0 + b1 * q1 + c1 * q2
    requires v2 == a2 * q0 + b2 * q1 + c2 * q2
    ensures k0 * v0 + k1 * v1 + k2 * v2
         == q0 * (k0 * a0 + k1 * a1 + k2 * a2) + q1 * (k0 * b0 + k1 * b1 + k2 * b2)
          + q2 * (k0 * c0 + k1 * c1 + k2 * c2)
  {
    MulCongruence(k0, v0, a0 * q0 + b0 * q1 + c0 * q2);
    MulCongruence(k1, v1, a1 * q0 + b1 * q1 + c1 * q2);
    MulCongruence(k2, v2, a2 * q0 + b2 * q1 + c2 * q2);
  }


  lemma AdjugateLeftRow(k: Vec3, m: Mat3, q: Vec3, d0: real, d1: real, d2: real)
    requires Dot(k, m.c0) == d0 && Dot(k, m.c1) == d1 && Dot(k, m.c2) == d2
    ensures Dot(k, MulVec(m, q)) == q.x * d0 + q.y * d1 + q.z * d2
  {
    DotMulVec(k, m, q);
    MulCongruence(q.x, Dot(k, m.c0), d0);
    MulCongruence(q.y, Dot(k, m.c1), d1);
    MulCongruence(q.z, Dot(k, m.c2), d2);
  }


  lemma CrossDot(b: Vec3, c: Vec3, q: Vec3)
    ensures Dot(Cross(b, c), q) == (b.y*c.z - b.z*c.y)*q.x + (b.z*c.x - b.x*c.z)*q.y + (b.x*c.y - b.y*c.x)*q.z
  {
  }


  lemma ColumnsTimesRows(m: Mat3, q: Vec3, p0: real, p1: real, p2: real)
    requires p0 == Dot(Cross(m.c1, m.c2), q) && p1 == Dot(Cross(m.c2, m.c0), q)
    requires p2 == Dot(Cross(m.c0, m.c1), q)
    ensures MulVec(m, AdjApply(m, q)).x == m.c0.x * p0 + m.c1.x * p1 + m.c2.x * p2
    ensures MulVec(m, AdjApply(m, q)).y == m.c0.y * p0 + m.c1.y * p1 + m.c2.y * p2
    ensures MulVec(m, AdjApply(m, q)).z == m.c0.z * p0 + m.c1.z * p1 + m.c2.z * p2
  {
  }


  lemma AdjugateRightX(m: Mat3, q: Vec3, p0: real, p1: real, p2: real)
    requires p0 == Dot(Cross(m.c1, m.c2), q) && p1 == Dot(Cross(m.c2, m.c0), q)
    requires p2 == Dot(Cross(m.c0, m.c1), q)
    ensures m.c0.x * p0 + m.c1.x * p1 + m.c2.x * p2 == Det3(m) * q.x
  {
    var a, b, c := m.c0, m.c1, m.c2;
    CrossDot(b, c, q);
    CrossDot(c, a, q);
    CrossDot(a, b, q);
    UnfoldDet(m);
    AdjRightRowX(a.x, a.y, a.z, b.x, b.y, b.z, c.x, c.y, c.z, q.x, q.y, q.z, p0, p1, p2, Det3(m));
  }


  lemma AdjugateRightY(m: Mat3, q: Vec3, p0: real, p1: real, p2: real)
    requires p0 == Dot(Cross(m.c1, m.c2), q) && p1 == Dot(Cross(m.c2, m.c0), q)
    requires p2 == Dot(Cross(m.c0, m.c1), q)
    ensures m.c0.y * p0 + m.c1.y * p1 + m.c2.y * p2 == Det3(m) * q.y
  {
    var a, b, c := m.c0, m.c1, m.c2;
    CrossDot(b, c, q);
    CrossDot(c, a, q);
    CrossDot(a, b, q);
    UnfoldDet(m);
    AdjRightRowY(a.x, a.y, a.z, b.x, b.y, b.z, c.x, c.y, c.z, q.x, q.y, q.z, p0, p1, p2, Det3(m));
  }


  lemma AdjugateRightZ(m: Mat3, q: Vec3, p0: real, p1: real, p2: real)
    requires p0 == Dot(Cross(m.c1, m.c2), q) && p1 == Dot(Cross(m.c2, m.c0), q)
    requires p2 == Dot(Cross(m.c0, m.c1), q)
    ensures m.c0.z * p0 + m.c1.z * p1 + m.c2.z * p2 == Det3(m) * q.z
  {
    var a, b, c := m.c0, m.c1, m.c2;
    CrossDot(b, c, q);
    CrossDot(c, a, q);
    CrossDot(a, b, q);
    UnfoldDet(m);
    AdjRightRowZ(a.x, a.y, a.z, b.x, b.y, b.z, c.x, c.y, c.z, q.x, q.y, q.z, p0, p1, p2, Det3(m));
  }


  lemma AdjRightRowX(a0: real, a1: real, a2: real, b0: real, b1: real, b2: real,
                    c0: real, c1: real, c2: real, q0: real, q1: real, q2: real,
                    p0: real, p1: real, p2: real, d: real)
    requires p0 == (b1*c2 - b2*c1)*q0 + (b2*c0 - b0*c2)*q1 + (b0*c1 - b1*c0)*q2
    requires p1 == (c1*a2 - c2*a1)*q0 + (c2*a0 - c0*a2)*q1 + (c0*a1 - c1*a0)*q2
    requires p2 == (a1*b2 - a2*b1)*q0 + (a2*b0 - a0*b2)*q1 + (a0*b1 - a1*b0)*q2
    requires d == a0*(b1*c2 - b2*c1) + a1*(b2*c0 - b0*c2) + a2*(b0*c1 - b1*c0)
    ensures a0 * p0 + b0 * p1 + c0 * p2 == d * q0
  {
    MulCongruence(a0, p0, (b1*c2 - b2*c1)*q0 + (b2*c0 - b0*c2)*q1 + (b0*c1 - b1*c0)*q2);
    MulCongruence(b0, p1, (c1*a2 - c2*a1)*q0 + (c2*a0 - c0*a2)*q1 + (c0*a1 - c1*a0)*q2);
    MulCongruence(c0, p2, (a1*b2 - a2*b1)*q0 + (a2*b0 - a0*b2)*q1 + (a0*b1 - a1*b0)*q2);
    MulCongruence(q0, d, a0*(b1*c2 - b2*c1) + a1*(b2*c0 - b0*c2) + a2*(b0*c1 - b1*c0));
  }


  lemma AdjRightRowY(a0: real, a1: real, a2: real, b0: real, b1: real, b2: real,
                    c0: real, c1: real, c2: real, q0: real, q1: real, q2: real,
                    p0: real, p1: real, p2: real, d: real)
    requires p0 == (b1*c2 - b2*c1)*q0 + (b2*c0 - b0*c2)*q1 + (b0*c1 - b1*c0)*q2
    requires p1 == (c1*a2 - c2*a1)*q0 + (c2*a0 - c0*a2)*q1 + (c0*a1 - c1*a0)*q2
    requires p2 == (a1*b2 - a2*b1)*q0 + (a2*b0 - a0*b2)*q1 + (a0*b1 - a1*b0)*q2
    requires d == a0*(b1*c2 - b2*c1) + a1*(b2*c0 - b0*c2) + a2*(b0*c1 - b1*c0)
    ensures a1 * p0 + b1 * p1 + c1 * p2 == d * q1
  {
    MulCongruence(a1, p0, (b1*c2 - b2*c1)*q0 + (b2*c0 - b0*c2)*q1 + (b0*c1 - b1*c0)*q2);
    MulCongruence(b1, p1, (c1*a2 - c2*a1)*q0 + (c2*a0 - c0*a2)*q1 + (c0*a1 - c1*a0)*q2);
    MulCongruence(c1, p2, (a1*b2 - a2*b1)*q0 + (a2*b0 - a0*b2)*q1 + (a0*b1 - a1*b0)*q2);
    MulCongruence(q1, d, a0*(b1*c2 - b2*c1) + a1*(b2*c0 - b0*c2) + a2*(b0*c1 - b1*c0));
  }


  lemma AdjRightRowZ(a0: real, a1: real, a2: real, b0: real, b1: real, b2: real,
                    c0: real, c1: real, c2: real, q0: real, q1: real, q2: real,
                    p0: real, p1: real, p2: real, d: real)
    requires p0 == (b1*c2 - b2*c1)*q0 + (b2*c0 - b0*c2)*q1 + (b0*c1 - b1*c0)*q2
    requires p1 == (c1*a2 - c2*a1)*q0 + (c2*a0 - c0*a2)*q1 + (c0*a1 - c1*a0)*q2
    requires p2 == (a1*b2 - a2*b1)*q0 + (a2*b0 - a0*b2)*q1 + (a0*b1 - a1*b0)*q2
    requires d == a0*(b1*c2 - b2*c1) + a1*(b2*c0 - b0*c2) + a2*(b0*c1 - b1*c0)
    ensures a2 * p0 + b2 * p1 + c2 * p2 == d * q2
  {
    MulCongruence(a2, p0, (b1*c2 - b2*c1)*q0 + (b2*c0 - b0*c2)*q1 + (b0*c1 - b1*c0)*q2);
    MulCongruence(b2, p1, (c1*a2 - c2*a1)*q0 + (c2*a0 - c0*a2)*q1 + (c0*a1 - c1*a0)*q2);
    MulCongruence(c2, p2, (a1*b2 - a2*b1)*q0 + (a2*b0 - a0*b2)*q1 + (a0*b1 - a1*b0)*q2);
    MulCongruence(q2, d, a0*(b1*c2 - b2*c1) + a1*(b2*c0 - b0*c2) + a2*(b0*c1 - b1*c0));
  }

  lemma UnfoldLin4AssocL(r0: real, r1: real, r2: real, r3: real, b: Mat4, v: Vec4)
    ensures Lin4(Lin4(r0, r1, r2, r3, b.c0), Lin4(r0, r1, r2, r3, b.c1),
                 Lin4(r0, r1, r2, r3, b.c2), Lin4(r0, r1, r2, r3, b.c3), v)
         == (r0*b.c0.x + r1*b.c0.y + r2*b.c0.z + r3*b.c0.w) * v.x
          + (r0*b.c1.x + r1*b.c1.y + r2*b.c1.z + r3*b.c1.w) * v.y
          + (r0*b.c2.x + r1*b.c2.y + r2*b.c2.z + r3*b.c2.w) * v.z
          + (r0*b.c3.x + r1*b.c3.y + r2*b.c3.z + r3*b.c3.w) * v.w
  {
  }

  lemma UnfoldLin4AssocR(r0: real, r1: real, r2: real, r3: real, b: Mat4, v: Vec4)
    ensures Lin4(r0, r1, r2, r3, MulVec4(b, v))
         == r0 * (b.c0.x*v.x + b.c1.x*v.y + b.c2.x*v.z + b.c3.x*v.w)
          + r1 * (b.c0.y*v.x + b.c1.y*v.y + b.c2.y*v.z + b.c3.y*v.w)
          + r2 * (b.c0.z*v.x + b.c1.z*v.y + b.c2.z*v.z + b.c3.z*v.w)
          + r3 * (b.c0.w*v.x + b.c1.w*v.y + b.c2.w*v.z + b.c3.w*v.w)
  {
  }

  lemma Lin4AssocScalar(a0: real, a1: real, a2: real, a3: real,
                        b00: real, b01: real, b02: real, b03: real,
                        b10: real, b11: real, b12: real, b13: real,
                        b20: real, b21: real, b22: real, b23: real,
                        b30: real, b31: real, b32: real, b33: real,
                        v0: real, v1: real, v2: real, v3: real)
    ensures (a0*b00 + a1*b10 + a2*b20 + a3*b30) * v0 + (a0*b01 + a1*b11 + a2*b21 + a3*b31) * v1
          + (a0*b02 + a1*b12 + a2*b22 + a3*b32) * v2 + (a0*b03 + a1*b13 + a2*b23 + a3*b33) * v3
         == a0 * (b00*v0 + b01*v1 + b02*v2 + b03*v3) + a1 * (b10*v0 + b11*v1 + b12*v2 + b13*v3)
          + a2 * (b20*v0 + b21*v1 + b22*v2 + b23*v3) + a3 * (b30*v0 + b31*v1 + b32*v2 + b33*v3)
  {
  }

  lemma Lin4AddScalar(a: real, b: real, c: real, d: real,
                      u1: real, u2: real, u3: real, u4: real, v1: real, v2: real, v3: real, v4: real)
    ensures a*(u1+v1) + b*(u2+v2) + c*(u3+v3) + d*(u4+v4)
         == (a*u1 + b*u2 + c*u3 + d*u4) + (a*v1 + b*v2 + c*v3 + d*v4)
  {
  }
}

=== FILE: mpr_plane_material.dfy ===
/** The multi-planar reconstruction material: the uniforms the MPR shader
    reads (HU window, blend mode, slab, and the sampling plane in normalized
    texture coordinates) and the setters that change them. */
module MprMaterial {
  import opened Numeric
  import opened Linear
  import opened Results
  import opened Dataset
  import opened BodyParts
  import TextureFactory
  import DicomGeometry

  /** How samples across a thick slab are combined. */
  datatype BlendMode = Single | Mip | Minip | Mean

  function BlendRaw(b: BlendMode): (n: int)
    ensures 0 <= n <= 3
  {
    match b
    case Single => 0
    case Mip => 1
    case Minip => 2
    case Mean => 3
  }

  /** `BlendMode(rawValue:)`. */
  function BlendFromRaw(n: int): (r: Option<BlendMode>)
    ensures r.Some? <==> 0 <= n <= 3
  {
    if n == 0 then Some(Single)
    else if n == 1 then Some(Mip)
    else if n == 2 then Some(Minip)
    else if n == 3 then Some(Mean)
    else None
  }

  /** The raw values are distinct and each one reads back as its mode. */
  lemma BlendRawRoundTrip(b: BlendMode, n: int)
    ensures BlendFromRaw(BlendRaw(b)) == Some(b)
    ensures BlendFromRaw(n).Some? ==> BlendRaw(BlendFromRaw(n).value) == n
  {
  }

  datatype Uniforms = Uniforms(
    voxelMinValue: int, voxelMaxValue: int,
    blendMode: int,
    numSteps: int,
    slabHalf: real,
    planeOrigin: Vec3, planeX: Vec3, planeY: Vec3,
    useTFMpr: int)

  /** A thin single-sample axial-like plane at the origin over the CT window. */
  const DefaultUniforms: Uniforms :=
    Uniforms(-1024, 3071, 0, 1, 0.0, Zero3, UnitX, UnitY, 1)

  datatype Material = Material(
    uniforms: Uniforms,
    dimension: Dims,
    resolution: Vec3,
    textureFactory: TextureFactory.Factory)

  /** A fresh material: default uniforms, a one-voxel grid, and the
      placeholder factory of `.none`. */
  function InitialMaterial(): (m: Material)
    ensures m.uniforms == DefaultUniforms
    ensures m.dimension == Dims(1, 1, 1) && m.resolution == Vec3(1.0, 1.0, 1.0)
    ensures forall bundle: TextureFactory.Bundle ::
              m.textureFactory == TextureFactory.Factory(TextureFactory.DatasetFor(NoPart, bundle))
  {
    Material(DefaultUniforms, Dims(1, 1, 1), Vec3(1.0, 1.0, 1.0), TextureFactory.Factory(TextureFactory.Placeholder()))
  }

  /** `setDataset(dimension:resolution:)`: the grid and spacing only. */
  function SetDataset(m: Material, dimension: Dims, resolution: Vec3): (r: Material)
    ensures r.dimension == dimension && r.resolution == resolution
    ensures r.uniforms == m.uniforms && r.textureFactory == m.textureFactory
  {
    m.(dimension := dimension, resolution := resolution)
  }

  /** `setHU(min:max:)`: the window bounds verbatim, not reordered. */
  function SetHU(m: Material, lo: int, hi: int): (r: Material)
    ensures r.uniforms.voxelMinValue == lo && r.uniforms.voxelMaxValue == hi
    ensures r.uniforms.(voxelMinValue := m.uniforms.voxelMinValue, voxelMaxValue := m.uniforms.voxelMaxValue) == m.uniforms
    ensures r.(uniforms := m.uniforms) == m
  {
    m.(uniforms := m.uniforms.(voxelMinValue := lo, voxelMaxValue := hi))
  }

  /** `setBlend(_:)`. */
  function SetBlend(m: Material, b: BlendMode): (r: Material)
    ensures BlendFromRaw(r.uniforms.blendMode) == Some(b)
    ensures r.uniforms.(blendMode := m.uniforms.blendMode) == m.uniforms
    ensures r.(uniforms := m.uniforms) == m
  {
    BlendRawRoundTrip(b, 0);
    m.(uniforms := m.uniforms.(blendMode := BlendRaw(b)))
  }

  /** `setUseTF(_:)`: true is 1, false is 0. */
  function SetUseTF(m: Material, on: bool): (r: Material)
    ensures r.uniforms.useTFMpr == 1 <==> on
    ensures r.uniforms.useTFMpr == 0 <==> !on
    ensures r.uniforms.(useTFMpr := m.uniforms.useTFMpr) == m.uniforms
    ensures r.(uniforms := m.uniforms) == m
  {
    m.(uniforms := m.uniforms.(useTFMpr := if on then 1 else 0))
  }

  // ---------------------------------------------------------------- slab

  /** The grid size along `axis` (0 = x, 1 = y, anything else = z). */
  function DimAlong(d: Dims, axis: int): (n: int)
    ensures axis == 0 ==> n == d.x
    ensures axis == 1 ==> n == d.y
    ensures axis != 0 && axis != 1 ==> n == d.z
  {
    if axis == 0 then d.x else if axis == 1 then d.y else d.z
  }

  /** The divisor that turns voxels into normalized units along an axis:
      the grid size, but at least 1. */
  function AxisDenominator(d: Dims, axis: int): (r: real)
    ensures r >= 1.0
    ensures DimAlong(d, axis) >= 1 ==> r == DimAlong(d, axis) as real
  {
    MaxReal(1.0, DimAlong(d, axis) as real)
  }

  /** `setSlab(thicknessInVoxels:axis:steps:)`: half the thickness in
      normalized units along the axis, and at least one sample. */
  function SetSlab(m: Material, thicknessInVoxels: int, axis: int, steps: int): (r: Material)
    ensures r.uniforms.numSteps >= 1
    ensures steps >= 1 ==> r.uniforms.numSteps == steps
    ensures 2.0 * r.uniforms.slabHalf * AxisDenominator(m.dimension, axis) == thicknessInVoxels as real
    ensures r.uniforms.(slabHalf := m.uniforms.slabHalf, numSteps := m.uniforms.numSteps) == m.uniforms
    ensures r.(uniforms := m.uniforms) == m
  {
    var denom := AxisDenominator(m.dimension, axis);
    m.(uniforms := m.uniforms.(slabHalf := 0.5 * thicknessInVoxels as real / denom, numSteps := MaxInt(1, steps)))
  }

  /** A zero thickness is a thin slice; an axis other than 0 and 1 means z. */
  lemma SlabEdgeCases(m: Material, axis: int, steps: int)
    ensures SetSlab(m, 0, axis, steps).uniforms.slabHalf == 0.0
    ensures axis != 0 && axis != 1 ==> forall t :: SetSlab(m, t, axis, steps) == SetSlab(m, t, 2, steps)
  {
  }

  // ---------------------------------------------------------------- canonical planes

  /** The slice index clamped into `[0, dim - 1]` (to 0 for an empty axis). */
  function ClampSlice(k: int, dim: int): (r: int)
    ensures r >= 0
    ensures dim >= 1 ==> r <= dim - 1
    ensures 0 <= k < dim ==> r == k
  {
    MaxInt(0, MinInt(dim - 1, k))
  }

  /** The normalized coordinate of the centre of slice `k`: half a voxel
      past the start of the clamped slice, in units of the axis length. An
      empty axis puts the plane in the middle. */
  function SliceCoord(k: int, dim: int): (z: real)
    ensures z > 0.0
    ensures dim >= 1 ==> z * dim as real == ClampSlice(k, dim) as real + 0.5
    ensures dim < 1 ==> z == 0.5
  {
    (ClampSlice(k, dim) as real + 0.5) / MaxReal(1.0, dim as real)
  }

  /** For a non-empty axis every slice centre lies strictly inside (0, 1),
      and the slice it came from can be read back from it. */
  lemma SliceCoordInside(k: int, dim: int)
    requires dim >= 1
    ensures 0.0 < SliceCoord(k, dim) < 1.0
    ensures (SliceCoord(k, dim) * dim as real).Floor == ClampSlice(k, dim)
  {
    var c, d := ClampSlice(k, dim) as real, dim as real;
    var z := (c + 0.5) / d;
    assert z * d == c + 0.5;
    assert 0.0 < z by {
      assert z <= 0.0 ==> z * d <= 0.0;
    }
    assert z < 1.0 by {
      assert z >= 1.0 ==> z * d >= d;
    }
  }

  /** Indices beyond either end give the plane of the nearest end slice. */
  lemma SliceCoordSaturates(k: int, dim: int)
    requires dim >= 1
    ensures k < 0 ==> SliceCoord(k, dim) == SliceCoord(0, dim)
    ensures k >= dim ==> SliceCoord(k, dim) == SliceCoord(dim - 1, dim)
  {
  }

  /** The slice centre is the voxel-to-texture map of the voxel centre
      along that axis. */
  lemma SliceCoordIsVoxelCentre(g: DicomGeometry.Geometry, k: int)
    requires DicomGeometry.HasExtent(g) && g.slices >= 1
    ensures SliceCoord(k, g.slices)
         == DicomGeometry.VoxelCentreTex(g, Vec3(0.0, 0.0, ClampSlice(k, g.slices) as real)).z
  {
  }

  function SetPlane(m: Material, origin: Vec3, axisU: Vec3, axisV: Vec3): Material {
    m.(uniforms := m.uniforms.(planeOrigin := origin, planeX := axisU, planeY := axisV))
  }

  /** `setAxial(slice:)`: the plane z = centre of slice k, spanned by x and y. */
  function SetAxial(m: Material, k: int): (r: Material)
    ensures r.uniforms.planeOrigin == Vec3(0.0, 0.0, SliceCoord(k, m.dimension.z))
    ensures r.uniforms.planeX == UnitX && r.uniforms.planeY == UnitY
    ensures r.uniforms.(planeOrigin := m.uniforms.planeOrigin, planeX := m.uniforms.planeX, planeY := m.uniforms.planeY) == m.uniforms
    ensures r.(uniforms := m.uniforms) == m
  {
    var kz := ClampSlice(k, m.dimension.z);
    var z := (kz as real + 0.5) / MaxReal(1.0, m.dimension.z as real);
    SetPlane(m, Vec3(0.0, 0.0, z), UnitX, UnitY)
  }

  /** `setSagittal(column:)`: the plane x = centre of column i, spanned by y and z. */
  function SetSagittal(m: Material, i: int): (r: Material)
    ensures r.uniforms.planeOrigin == Vec3(SliceCoord(i, m.dimension.x), 0.0, 0.0)
    ensures r.uniforms.planeX == UnitY && r.uniforms.planeY == UnitZ
    ensures r.uniforms.(planeOrigin := m.uniforms.planeOrigin, planeX := m.uniforms.planeX, planeY := m.uniforms.planeY) == m.uniforms
    ensures r.(uniforms := m.uniforms) == m
  {
    var ix := ClampSlice(i, m.dimension.x);
    var x := (ix as real + 0.5) / MaxReal(1.0, m.dimension.x as real);
    SetPlane(m, Vec3(x, 0.0, 0.0), UnitY, UnitZ)
  }

  /** `setCoronal(row:)`: the plane y = centre of row j, spanned by x and z. */
  function SetCoronal(m: Material, j: int): (r: Material)
    ensures r.uniforms.planeOrigin == Vec3(0.0, SliceCoord(j, m.dimension.y), 0.0)
    ensures r.uniforms.planeX == UnitX && r.uniforms.planeY == UnitZ
    ensures r.uniforms.(planeOrigin := m.uniforms.planeOrigin, planeX := m.uniforms.planeX, planeY := m.uniforms.planeY) == m.uniforms
    ensures r.(uniforms := m.uniforms) == m
  {
    var jy := ClampSlice(j, m.dimension.y);
    var y := (jy as real + 0.5) / MaxReal(1.0, m.dimension.y as real);
    SetPlane(m, Vec3(0.0, y, 0.0), UnitX, UnitZ)
  }

  /** A point of the plane at parameters (s, t). */
  function PlanePoint(u: Uniforms, s: real, t: real): Vec3 {
    Add(Add(u.planeOrigin, Scale(s, u.planeX)), Scale(t, u.planeY))
  }

  /** Every point of a canonical plane has the slice's coordinate along the
      plane's own axis, and the two spanning axes are orthonormal. */
  lemma CanonicalPlanesAreSlices(m: Material, k: int, s: real, t: real)
    ensures PlanePoint(SetAxial(m, k).uniforms, s, t).z == SliceCoord(k, m.dimension.z)
    ensures PlanePoint(SetSagittal(m, k).uniforms, s, t).x == SliceCoord(k, m.dimension.x)
    ensures PlanePoint(SetCoronal(m, k).uniforms, s, t).y == SliceCoord(k, m.dimension.y)
    ensures Cross(SetAxial(m, k).uniforms.planeX, SetAxial(m, k).uniforms.planeY) == UnitZ
    ensures Cross(SetSagittal(m, k).uniforms.planeX, SetSagittal(m, k).uniforms.planeY) == UnitX
    ensures Cross(SetCoronal(m, k).uniforms.planeX, SetCoronal(m, k).uniforms.planeY) == Vec3(0.0, -1.0, 0.0)
  {
  }

  /** `setOblique(origin:axisU:axisV:)`: the plane verbatim, nothing else. */
  function SetOblique(m: Material, origin: Vec3, axisU: Vec3, axisV: Vec3): (r: Material)
    ensures r.uniforms.planeOrigin == origin && r.uniforms.planeX == axisU && r.uniforms.planeY == axisV
    ensures r.uniforms.(planeOrigin := m.uniforms.planeOrigin, planeX := m.uniforms.planeX, planeY := m.uniforms.planeY) == m.uniforms
    ensures r.(uniforms := m.uniforms) == m
  {
    SetPlane(m, origin, axisU, axisV)
  }

  /** The canonical setters are oblique planes with fixed axes. */
  lemma CanonicalIsOblique(m: Material, k: int)
    ensures SetAxial(m, k) == SetOblique(m, Vec3(0.0, 0.0, SliceCoord(k, m.dimension.z)), UnitX, UnitY)
    ensures SetSagittal(m, k) == SetOblique(m, Vec3(SliceCoord(k, m.dimension.x), 0.0, 0.0), UnitY, UnitZ)
    ensures SetCoronal(m, k) == SetOblique(m, Vec3(0.0, SliceCoord(k, m.dimension.y), 0.0), UnitX, UnitZ)
  {
  }

  // ---------------------------------------------------------------- apply

  /** `apply(factory:device:)`: the factory is always kept; the grid, the
      spacing and the HU window follow the dataset only when the texture
      could be generated. */
  function Apply(m: Material, factory: TextureFactory.Factory, deviceMakesTexture: bool): (r: Material)
    ensures r.textureFactory == factory
    ensures !deviceMakesTexture ==> r == m.(textureFactory := factory)
    ensures deviceMakesTexture ==>
              && r.dimension == factory.dataset.dimensions
              && r.resolution == factory.dataset.spacing
              && r.uniforms.voxelMinValue == factory.dataset.intensityRange.lower
              && r.uniforms.voxelMaxValue == factory.dataset.intensityRange.upper
              && r.uniforms.(voxelMinValue := m.uniforms.voxelMinValue, voxelMaxValue := m.uniforms.voxelMaxValue) == m.uniforms
  {
    var m1 := m.(textureFactory := factory);
    if TextureFactory.Generate(factory, deviceMakesTexture).None? then m1
    else
      var range := factory.dataset.intensityRange;
      SetHU(m1.(dimension := TextureFactory.Dimension(factory), resolution := TextureFactory.Resolution(factory)),
            range.lower, range.upper)
  }

  /** `setPart(device:part:)`: the factory of a body part. */
  function SetPart(m: Material, part: BodyPart, bundle: TextureFactory.Bundle, deviceMakesTexture: bool): (r: Material)
    ensures r.textureFactory.dataset == TextureFactory.DatasetFor(part, bundle)
    ensures deviceMakesTexture ==>
              && r.dimension == TextureFactory.DatasetFor(part, bundle).dimensions
              && r.uniforms.voxelMinValue == TextureFactory.CTWindow.lower
              && r.uniforms.voxelMaxValue == TextureFactory.CTWindow.upper
  {
    Apply(m, TextureFactory.Factory(TextureFactory.DatasetFor(part, bundle)), deviceMakesTexture)
  }

  /** `setDataset(device:dataset:)`: the factory of a loaded dataset. */
  function SetVolume(m: Material, dataset: VolumeDataset, deviceMakesTexture: bool): (r: Material)
    ensures r.textureFactory.dataset == dataset
    ensures deviceMakesTexture ==>
              && r.dimension == dataset.dimensions && r.resolution == dataset.spacing
              && IntensityRange(r.uniforms.voxelMinValue, r.uniforms.voxelMaxValue) == dataset.intensityRange
  {
    Apply(m, TextureFactory.Factory(dataset), deviceMakesTexture)
  }
}

=== FILE: node_basis.dfy ===
/** The pose of a slice plane's scene node, built from a plane given in
    texture coordinates: a corner `o` and two edges `u`, `v`. The node's
    orientation has columns (Û, V̂, N̂): Û is `u` normalized, V̂ is the part
    of `v` perpendicular to Û, normalized, and N̂ is their cross product,
    normalized. Its position is the plane's centre in the cube's local space,
    which is the texture cube shifted to [-0.5, 0.5]^3. Lengths are witness
    parameters, as in `Linear.Normalize`. */
module NodeBasis {
  import opened Linear
  import opened Results
  import Rodrigues
  import TriPlanar

  /** The node's orientation, position, and plane size. The orientation is
      `None` when the frame has no finite third axis, where the source's
      quaternion would hold NaN; position and size are set on every input. */
  datatype NodePose = NodePose(rotation: Option<Mat3>, position: Vec3, width: real, height: real)

  /** A vector has length 0 exactly when it is the zero vector. */
  lemma ZeroLength(v: Vec3, len: real)
    requires IsLength(v, len)
    ensures len == 0.0 <==> v == Zero3
  {
    if len == 0.0 {
      assert Dot(v, v) == 0.0;
      SumOfSquaresIsZero(v);
    }
    if v == Zero3 {
      assert len * len == 0.0;
      SquareIsZero(len);
    }
  }

  lemma SumOfSquaresIsZero(v: Vec3)
    requires Dot(v, v) == 0.0
    ensures v == Zero3
  {
    SquareNonnegative(v.x);
    SquareNonnegative(v.y);
    SquareNonnegative(v.z);
    SquareIsZero(v.x);
    SquareIsZero(v.y);
    SquareIsZero(v.z);
  }

  lemma SquareNonnegative(x: real)
    ensures x * x >= 0.0
  {
    if x < 0.0 {
      assert x * x > 0.0;
    }
  }

  /** Only zero squares to zero. */
  lemma SquareIsZero(x: real)
    requires x * x == 0.0
    ensures x == 0.0
  {
    if x != 0.0 {
      ProductZero(x, x);
    }
  }

  lemma ProductZero(x: real, y: real)
    requires x * y == 0.0 && x != 0.0
    ensures y == 0.0
  {
  }

  /** `length > 0 ? simd_normalize(v) : fallback`. */
  function NormalizeOr(v: Vec3, len: real, fallback: Vec3): (r: Vec3)
    requires IsLength(v, len)
    ensures v != Zero3 ==> IsUnit(r) && Scale(len, r) == v
    ensures v == Zero3 ==> r == fallback
  {
    ZeroLength(v, len);
    if len > 0.0 then Normalize(v, len)
    else
      assert v == Zero3;
      fallback
  }

  /** Û: the direction of `u`, or x when `u` is zero. */
  function UHat(u: Vec3, lenU: real): (r: Vec3)
    requires IsLength(u, lenU)
    ensures IsUnit(r)
  {
    NormalizeOr(u, lenU, UnitX)
  }

  /** `v - dot(v, Û) Û`: the part of `v` perpendicular to a unit Û. */
  function VOrtho(v: Vec3, uHat: Vec3): (r: Vec3)
    ensures IsUnit(uHat) ==> Dot(r, uHat) == 0.0
    ensures Add(r, Scale(Dot(v, uHat), uHat)) == v
  {
    var r := Sub(v, Scale(Dot(v, uHat), uHat));
    RemoveComponent(v, uHat, Dot(v, uHat));
    r
  }

  lemma RemoveComponent(v: Vec3, a: Vec3, k: real)
    requires k == Dot(v, a)
    ensures Dot(Sub(v, Scale(k, a)), a) == k - k * Dot(a, a)
  {
    DotScaleLeft(k, a, a);
  }

  /** V̂: the direction of the perpendicular part of `v`, or y when `v` is
      parallel to Û. */
  function VHat(vOrtho: Vec3, lenVo: real): (r: Vec3)
    requires IsLength(vOrtho, lenVo)
    ensures IsUnit(r)
  {
    NormalizeOr(vOrtho, lenVo, UnitY)
  }

  /** The orientation (Û, V̂, N̂) of `setTransformFromBasisTex`. `lenU`,
      `lenVo` and `lenN` are the lengths of `u`, of the perpendicular part of
      `v`, and of Û × V̂. When Û × V̂ is zero, normalizing it gives no finite
      axis, which is `None` here. */
  function Orientation(u: Vec3, v: Vec3, lenU: real, lenVo: real, lenN: real): (r: Option<Mat3>)
    requires IsLength(u, lenU)
    requires IsLength(VOrtho(v, UHat(u, lenU)), lenVo)
    requires IsLength(Cross(UHat(u, lenU), VHat(VOrtho(v, UHat(u, lenU)), lenVo)), lenN)
    ensures r.None? <==> Cross(UHat(u, lenU), VHat(VOrtho(v, UHat(u, lenU)), lenVo)) == Zero3
  {
    var uHat := UHat(u, lenU);
    var vHat := VHat(VOrtho(v, uHat), lenVo);
    var c := Cross(uHat, vHat);
    ZeroLength(c, lenN);
    if lenN == 0.0 then None
    else
      var nHat := Normalize(c, lenN);
      Some(Mat3(uHat, vHat, nHat))
  }

  /** The first axis points along `u`, and all three are unit vectors. */
  lemma OrientationAxes(u: Vec3, v: Vec3, lenU: real, lenVo: real, lenN: real)
    requires IsLength(u, lenU)
    requires IsLength(VOrtho(v, UHat(u, lenU)), lenVo)
    requires IsLength(Cross(UHat(u, lenU), VHat(VOrtho(v, UHat(u, lenU)), lenVo)), lenN)
    requires Orientation(u, v, lenU, lenVo, lenN).Some?
    ensures u != Zero3 ==> Scale(lenU, Orientation(u, v, lenU, lenVo, lenN).value.c0) == u
    ensures IsUnit(Orientation(u, v, lenU, lenVo, lenN).value.c0)
    ensures IsUnit(Orientation(u, v, lenU, lenVo, lenN).value.c1)
    ensures IsUnit(Orientation(u, v, lenU, lenVo, lenN).value.c2)
  {
    var uHat := UHat(u, lenU);
    var vHat := VHat(VOrtho(v, uHat), lenVo);
    var c := Cross(uHat, vHat);
    ZeroLength(c, lenN);
    assert Orientation(u, v, lenU, lenVo, lenN).value == Mat3(uHat, vHat, Normalize(c, lenN));
  }

  /** `setTransformFromBasisTex(originTex:UTex:VTex:)`: the orientation,
      the plane's centre shifted into the cube's local space, and the
      plane's size. `lenV` is the length of `v`. */
  function SetTransformFromBasis(o: Vec3, u: Vec3, v: Vec3, lenU: real, lenV: real, lenVo: real, lenN: real)
    : (r: NodePose)
    requires IsLength(u, lenU) && IsLength(v, lenV)
    requires IsLength(VOrtho(v, UHat(u, lenU)), lenVo)
    requires IsLength(Cross(UHat(u, lenU), VHat(VOrtho(v, UHat(u, lenU)), lenVo)), lenN)
    ensures r.rotation.None? <==> Cross(UHat(u, lenU), VHat(VOrtho(v, UHat(u, lenU)), lenVo)) == Zero3
    ensures r.rotation == Orientation(u, v, lenU, lenVo, lenN)
    ensures IsLength(u, r.width) && IsLength(v, r.height)
    ensures Add(r.position, Half3) == TriPlanar.Centre(TriPlanar.PlanePose(o, u, v))
  {
    var centre := Sub(Add(Add(o, Scale(0.5, u)), Scale(0.5, v)), Half3);
    SubAddCancel(Add(Add(o, Scale(0.5, u)), Scale(0.5, v)), Half3);
    NodePose(Orientation(u, v, lenU, lenVo, lenN), centre, lenU, lenV)
  }

  lemma SubAddCancel(a: Vec3, b: Vec3)
    ensures Add(Sub(a, b), b) == a
  {
  }

  // ---------------------------------------------------------------- a proper rotation

  /** The scalar triple product is invariant under moving the cross. */
  lemma TripleCyclic(a: Vec3, b: Vec3, c: Vec3)
    ensures Dot(a, Cross(b, c)) == Dot(Cross(a, b), c)
  {
  }

  /** The cross product of two perpendicular unit vectors is a unit vector. */
  lemma CrossOfOrthonormal(a: Vec3, b: Vec3)
    requires IsUnit(a) && IsUnit(b) && Dot(a, b) == 0.0
    ensures IsUnit(Cross(a, b))
  {
    Rodrigues.Lagrange(a, b, b);
  }

  /** Three columns `a`, `b`, `a × b` with `a`, `b` perpendicular unit
      vectors form a rotation: orthonormal with determinant 1. */
  lemma RightHandedFrame(a: Vec3, b: Vec3)
    requires IsUnit(a) && IsUnit(b) && Dot(a, b) == 0.0
    ensures IsOrthonormal(Mat3(a, b, Cross(a, b)))
    ensures Det3(Mat3(a, b, Cross(a, b))) == 1.0
  {
    CrossOfOrthonormal(a, b);
    CrossOrthogonal(a, b);
    Rodrigues.DotSymmetric(a, Cross(a, b));
    Rodrigues.DotSymmetric(b, Cross(a, b));
    TripleCyclic(a, b, Cross(a, b));
  }

  /** The normalized perpendicular part of `v` is perpendicular to Û. */
  lemma VHatPerpendicular(uHat: Vec3, vOrtho: Vec3, lenVo: real)
    requires IsUnit(uHat) && Dot(vOrtho, uHat) == 0.0
    requires IsLength(vOrtho, lenVo) && lenVo > 0.0
    ensures Dot(uHat, VHat(vOrtho, lenVo)) == 0.0
  {
    var vHat := VHat(vOrtho, lenVo);
    ZeroLength(vOrtho, lenVo);
    DotScaleLeft(lenVo, vHat, uHat);
    assert lenVo * Dot(vHat, uHat) == 0.0;
    Rodrigues.DotSymmetric(uHat, vHat);
  }

  /** Unless `v` is parallel to `u`, the node's orientation is a proper
      rotation, so it has a quaternion. */
  lemma RotationIsProper(u: Vec3, v: Vec3, lenU: real, lenVo: real, lenN: real)
    requires IsLength(u, lenU)
    requires IsLength(VOrtho(v, UHat(u, lenU)), lenVo)
    requires IsLength(Cross(UHat(u, lenU), VHat(VOrtho(v, UHat(u, lenU)), lenVo)), lenN)
    requires VOrtho(v, UHat(u, lenU)) != Zero3
    ensures Orientation(u, v, lenU, lenVo, lenN).Some?
    ensures IsOrthonormal(Orientation(u, v, lenU, lenVo, lenN).value)
    ensures Det3(Orientation(u, v, lenU, lenVo, lenN).value) == 1.0
  {
    var uHat := UHat(u, lenU);
    var vo := VOrtho(v, uHat);
    var vHat := VHat(vo, lenVo);
    ZeroLength(vo, lenVo);
    VHatPerpendicular(uHat, vo, lenVo);
    RightHandedFrame(uHat, vHat);
    var c := Cross(uHat, vHat);
    TriPlanar.UnitLength(c, lenN);
    UnitNormalize(c);
  }

  /** Normalizing a unit vector leaves it unchanged. */
  lemma UnitNormalize(c: Vec3)
    requires IsUnit(c)
    ensures IsLength(c, 1.0) && Normalize(c, 1.0) == c
  {
    var n := Normalize(c, 1.0);
    assert Scale(1.0, n) == n;
  }

  // ---------------------------------------------------------------- viewport planes

  /** A viewport plane of an orthonormal navigator frame gives the node the
      frame's own axes, unit size, and the crosshair as centre. */
  lemma ViewportNode(p: TriPlanar.Plane, n: TriPlanar.Navigator, lenU: real, lenV: real, lenVo: real, lenN: real)
    requires IsOrthonormal(n.r)
    requires IsLength(TriPlanar.ViewportPose(p, n).u, lenU) && IsLength(TriPlanar.ViewportPose(p, n).v, lenV)
    requires IsLength(VOrtho(TriPlanar.ViewportPose(p, n).v, UHat(TriPlanar.ViewportPose(p, n).u, lenU)), lenVo)
    requires IsLength(Cross(UHat(TriPlanar.ViewportPose(p, n).u, lenU),
                            VHat(VOrtho(TriPlanar.ViewportPose(p, n).v, UHat(TriPlanar.ViewportPose(p, n).u, lenU)), lenVo)), lenN)
    ensures var pose := TriPlanar.ViewportPose(p, n);
            var r := SetTransformFromBasis(pose.origin, pose.u, pose.v, lenU, lenV, lenVo, lenN);
            && r.rotation == Some(Mat3(pose.u, pose.v, Cross(pose.u, pose.v)))
            && r.position == Sub(n.cross, Half3)
            && r.width == 1.0 && r.height == 1.0
  {
    var pose := TriPlanar.ViewportPose(p, n);
    var u, v := pose.u, pose.v;
    TriPlanar.ViewportIsNormalToAxis(p, n);
    TriPlanar.OrthonormalColumnIsUnit(n.r, TriPlanar.UAxis(p));
    TriPlanar.OrthonormalColumnIsUnit(n.r, TriPlanar.VAxis(p));
    TriPlanar.UnitLength(u, lenU);
    TriPlanar.UnitLength(v, lenV);
    UnitNormalize(u);
    UnitNormalize(v);
    assert UHat(u, lenU) == u;
    UnitDotZero(u, v);
    assert VOrtho(v, u) == v by {
      Rodrigues.DotSymmetric(v, u);
    }
    TriPlanar.UnitLength(v, lenVo);
    assert VHat(v, lenVo) == v;
    CrossOfOrthonormal(u, v);
    TriPlanar.UnitLength(Cross(u, v), lenN);
    UnitNormalize(Cross(u, v));
    SubAddCancel(Add(Add(pose.origin, Scale(0.5, u)), Scale(0.5, v)), Half3);
    AddSubCancel(n.cross, Half3);
  }

  lemma UnitDotZero(u: Vec3, v: Vec3)
    ensures Dot(v, u) == 0.0 ==> Sub(v, Scale(Dot(v, u), u)) == v
  {
  }

  lemma AddSubCancel(a: Vec3, b: Vec3)
    ensures Sub(Add(Sub(a, b), b), b) == Sub(a, b)
  {
  }

  // ---------------------------------------------------------------- degenerate input

  /** A unit vector is its own direction. */
  lemma UHatOfUnit(u: Vec3)
    requires IsUnit(u)
    ensures IsLength(u, 1.0) && UHat(u, 1.0) == u
  {
    UnitNormalize(u);
    ZeroLength(u, 1.0);
  }

  /** A vector along x has no part perpendicular to x. */
  lemma VOrthoAlongX(v: Vec3)
    requires v.y == 0.0 && v.z == 0.0
    ensures VOrtho(v, UnitX) == Zero3
  {
    assert Dot(v, UnitX) == v.x;
  }

  /** A vector along y has no part perpendicular to y. */
  lemma VOrthoAlongY(v: Vec3)
    requires v.x == 0.0 && v.z == 0.0
    ensures VOrtho(v, UnitY) == Zero3
  {
    assert Dot(v, UnitY) == v.y;
  }

  lemma ZeroFallsBackToY(lenVo: real)
    requires IsLength(Zero3, lenVo)
    ensures lenVo == 0.0 && VHat(Zero3, lenVo) == UnitY
  {
    ZeroLength(Zero3, lenVo);
  }

  /** When `v` is parallel to `u` the fallback V̂ is y. If `u` itself lies
      along y, Û × V̂ is zero and the node gets no orientation. */
  lemma ParallelAlongYIsDegenerate(v: Vec3, lenU: real, lenVo: real, lenN: real)
    requires v.x == 0.0 && v.z == 0.0
    requires IsLength(UnitY, lenU)
    requires IsLength(VOrtho(v, UHat(UnitY, lenU)), lenVo)
    requires IsLength(Cross(UHat(UnitY, lenU), VHat(VOrtho(v, UHat(UnitY, lenU)), lenVo)), lenN)
    ensures Orientation(UnitY, v, lenU, lenVo, lenN).None?
  {
    AlongYPieces(v, lenU, lenVo);
    YCrossYIsZero();
  }

  lemma AlongYPieces(v: Vec3, lenU: real, lenVo: real)
    requires v.x == 0.0 && v.z == 0.0
    requires IsLength(UnitY, lenU)
    requires IsLength(VOrtho(v, UHat(UnitY, lenU)), lenVo)
    ensures UHat(UnitY, lenU) == UnitY
    ensures VHat(VOrtho(v, UHat(UnitY, lenU)), lenVo) == UnitY
  {
    AxisLength(UnitY, lenU);
    UHatOfUnit(UnitY);
    VOrthoAlongY(v);
    ZeroFallsBackToY(lenVo);
  }

  lemma YCrossYIsZero()
    ensures Cross(UnitY, UnitY) == Zero3
  {
  }

  /** When `v` is parallel to `u` and `u` lies along x, the fallback still
      gives a proper frame: (x, y, z). */
  lemma ParallelAlongXFallsBack(v: Vec3, lenU: real, lenVo: real, lenN: real)
    requires v.y == 0.0 && v.z == 0.0
    requires IsLength(UnitX, lenU)
    requires IsLength(VOrtho(v, UHat(UnitX, lenU)), lenVo)
    requires IsLength(Cross(UHat(UnitX, lenU), VHat(VOrtho(v, UHat(UnitX, lenU)), lenVo)), lenN)
    ensures Orientation(UnitX, v, lenU, lenVo, lenN) == Some(Identity3)
  {
    AlongXPieces(v, lenU, lenVo);
    XCrossYIsZ();
    AxisLength(UnitZ, lenN);
    UnitZIsNormalized();
    OrientationUnfolds(UnitX, v, lenU, lenVo, lenN);
  }

  lemma AlongXPieces(v: Vec3, lenU: real, lenVo: real)
    requires v.y == 0.0 && v.z == 0.0
    requires IsLength(UnitX, lenU)
    requires IsLength(VOrtho(v, UHat(UnitX, lenU)), lenVo)
    ensures UHat(UnitX, lenU) == UnitX
    ensures VHat(VOrtho(v, UHat(UnitX, lenU)), lenVo) == UnitY
  {
    AxisLength(UnitX, lenU);
    UHatOfUnit(UnitX);
    VOrthoAlongX(v);
    ZeroFallsBackToY(lenVo);
  }

  lemma UnitZIsNormalized()
    ensures IsLength(UnitZ, 1.0) && Normalize(UnitZ, 1.0) == UnitZ
  {
    UnitNormalize(UnitZ);
  }

  lemma XCrossYIsZ()
    ensures Cross(UnitX, UnitY) == UnitZ
  {
  }

  /** A coordinate axis has length 1. */
  lemma AxisLength(a: Vec3, len: real)
    requires a == UnitX || a == UnitY || a == UnitZ
    requires IsLength(a, len)
    ensures len == 1.0
  {
    assert IsUnit(a);
    TriPlanar.UnitLength(a, len);
  }

  /** A non-degenerate orientation is (Û, V̂, N̂) with N̂ = Û × V̂ normalized. */
  lemma OrientationUnfolds(u: Vec3, v: Vec3, lenU: real, lenVo: real, lenN: real)
    requires IsLength(u, lenU)
    requires IsLength(VOrtho(v, UHat(u, lenU)), lenVo)
    requires IsLength(Cross(UHat(u, lenU), VHat(VOrtho(v, UHat(u, lenU)), lenVo)), lenN)
    requires lenN != 0.0
    ensures Orientation(u, v, lenU, lenVo, lenN)
      == Some(Mat3(UHat(u, lenU), VHat(VOrtho(v, UHat(u, lenU)), lenVo),
                   Normalize(Cross(UHat(u, lenU), VHat(VOrtho(v, UHat(u, lenU)), lenVo)), lenN)))
  {
    ZeroLength(Cross(UHat(u, lenU), VHat(VOrtho(v, UHat(u, lenU)), lenVo)), lenN);
  }

}

=== FILE: numeric.dfy ===
/** Integer and real helpers shared by the volume model: the rounding and
    truncation rules of the platform's numeric conversions, clamping, and the
    fixed-width integer bounds the source relies on. Floating point is modelled
    as exact `real` arithmetic throughout. */
module Numeric {

  const Int16Min: int := -32768
  const Int16Max: int := 32767
  const UInt16Max: int := 65535
  const Int32Min: int := -2147483648
  const Int32Max: int := 2147483647

  function MinInt(a: int, b: int): (r: int)
    ensures r <= a && r <= b
    ensures r == a || r == b
  {
    if a <= b then a else b
  }

  function MaxInt(a: int, b: int): (r: int)
    ensures r >= a && r >= b
    ensures r == a || r == b
  {
    if a >= b then a else b
  }

  function MinReal(a: real, b: real): (r: real)
    ensures r <= a && r <= b
    ensures r == a || r == b
  {
    if a <= b then a else b
  }

  function MaxReal(a: real, b: real): (r: real)
    ensures r >= a && r >= b
    ensures r == a || r == b
  {
    if a >= b then a else b
  }

  /** `max(lo, min(hi, x))`, the clamp idiom used throughout the source. */
  function Clamp(lo: int, hi: int, x: int): (r: int)
    ensures lo <= hi ==> lo <= r <= hi
    ensures lo <= x <= hi ==> r == x
    ensures x < lo ==> r == lo
    ensures lo <= hi && hi < x ==> r == hi
  {
    MaxInt(lo, MinInt(hi, x))
  }

  /** The same clamp over reals (`simd_clamp` per component). */
  function ClampReal(lo: real, hi: real, x: real): (r: real)
    ensures lo <= hi ==> lo <= r <= hi
    ensures lo <= x <= hi ==> r == x
    ensures x < lo ==> r == lo
    ensures lo <= hi && hi < x ==> r == hi
  {
    MaxReal(lo, MinReal(hi, x))
  }

  /** Round half away from zero, the rule of C's `lround` and of Swift's
      `round`. The two ensures characterise the result uniquely. */
  function Round(x: real): (r: int)
    ensures x >= 0.0 ==> r as real <= x + 0.5 < r as real + 1.0
    ensures x < 0.0 ==> r as real - 1.0 < x - 0.5 <= r as real
  {
    if x >= 0.0 then (x + 0.5).Floor else -((0.5 - x).Floor)
  }

  /** Conversion of a floating value to an integer type (`Int32(step)`):
      truncation toward zero. */
  function Trunc(x: real): (r: int)
    ensures x >= 0.0 ==> 0 <= r && r as real <= x < r as real + 1.0
    ensures x < 0.0 ==> r <= 0 && r as real - 1.0 < x <= r as real
  {
    if x >= 0.0 then x.Floor else -((-x).Floor)
  }

  lemma FloorMonotone(a: real, b: real)
    requires a <= b
    ensures a.Floor <= b.Floor
  {
  }

  /** Rounding never reverses the order of two values. */
  lemma RoundMonotone(a: real, b: real)
    requires a <= b
    ensures Round(a) <= Round(b)
  {
    if a >= 0.0 {
      FloorMonotone(a + 0.5, b + 0.5);
    } else if b < 0.0 {
      FloorMonotone(0.5 - b, 0.5 - a);
    }
  }

  /** Rounding an integral value gives that value back. */
  lemma RoundOfInt(n: int)
    ensures Round(n as real) == n
  {
  }

  /** Clamping is monotone in the clamped value. */
  lemma ClampMonotone(lo: int, hi: int, a: int, b: int)
    requires lo <= hi && a <= b
    ensures Clamp(lo, hi, a) <= Clamp(lo, hi, b)
  {
  }
}

=== FILE: results.dfy ===
/** Optional values and fallible results, used wherever the source returns
    an optional, throws, or traps. */
module Results {

  datatype Option<+T> = None | Some(value: T) {
    function GetOr(default: T): T {
      match this
      case Some(v) => v
      case None => default
    }
  }

  datatype Result<+R, +E> = Success(value: R) | Failure(error: E)
}

=== FILE: rodrigues.dfy ===
/** The incremental rotation of the tri-planar navigator
    (`TriMPRState.rotate`): Rodrigues' formula, the textbook matrix that
    realises it, and the matrix the navigator actually builds. cos/sin are
    not computed: an angle is represented by a pair `(c, s)` with
    `c * c + s * s == 1`.

    The proofs here are deliberately split into an unfolding step (no
    arithmetic), a scalar identity (no datatypes), and a step that chains the
    two: the solver handles each alone but not their union. */
module Rodrigues {
  import opened Linear

  /** Rodrigues' formula: `v` rotated about the unit axis `a` by the angle whose
      cosine is `c` and sine is `s`, that is `c v + s (a x v) + (1 - c)(a . v) a`. */
  function Rotate(a: Vec3, c: real, s: real, v: Vec3): Vec3 {
    Add(Add(Scale(c, v), Scale(s, Cross(a, v))), Scale((1.0 - c) * Dot(a, v), a))
  }

  /** The textbook rotation matrix `c I + s [a]x + (1 - c) a a^T`, by columns. */
  function Textbook(a: Vec3, c: real, s: real): Mat3 {
    Mat3(Vec3(c + a.x * a.x * (1.0 - c), a.y * a.x * (1.0 - c) + a.z * s, a.z * a.x * (1.0 - c) - a.y * s),
         Vec3(a.x * a.y * (1.0 - c) - a.z * s, c + a.y * a.y * (1.0 - c), a.z * a.y * (1.0 - c) + a.x * s),
         Vec3(a.x * a.z * (1.0 - c) + a.y * s, a.y * a.z * (1.0 - c) - a.x * s, c + a.z * a.z * (1.0 - c)))
  }

  /** The matrix `rotate` builds: the textbook rows, handed to the column
      initialiser. */
  function AsWritten(a: Vec3, c: real, s: real): Mat3 {
    Mat3(Vec3(c + a.x * a.x * (1.0 - c), a.x * a.y * (1.0 - c) - a.z * s, a.x * a.z * (1.0 - c) + a.y * s),
         Vec3(a.y * a.x * (1.0 - c) + a.z * s, c + a.y * a.y * (1.0 - c), a.y * a.z * (1.0 - c) - a.x * s),
         Vec3(a.z * a.x * (1.0 - c) - a.y * s, a.z * a.y * (1.0 - c) + a.x * s, c + a.z * a.z * (1.0 - c)))
  }

  /** The navigator's matrix is the transpose of the textbook one. */
  lemma AsWrittenIsTranspose(a: Vec3, c: real, s: real)
    ensures AsWritten(a, c, s) == Transpose(Textbook(a, c, s))
  {
  }

  /** ... which is the textbook matrix for the opposite angle. */
  lemma AsWrittenIsReverse(a: Vec3, c: real, s: real)
    ensures AsWritten(a, c, s) == Textbook(a, c, -s)
  {
    var m, t := AsWritten(a, c, s), Textbook(a, c, -s);
    SignSwap(a.x, a.y, a.z, 1.0 - c, s);
    SignSwap(a.y, a.x, a.z, 1.0 - c, -s);
    SignSwap(a.x, a.z, a.y, 1.0 - c, -s);
    SignSwap(a.z, a.x, a.y, 1.0 - c, s);
    SignSwap(a.y, a.z, a.x, 1.0 - c, s);
    SignSwap(a.z, a.y, a.x, 1.0 - c, -s);
    assert m.c0 == t.c0;
    assert m.c1 == t.c1;
    assert m.c2 == t.c2;
  }

  lemma SignSwap(p: real, q: real, r: real, k: real, s: real)
    ensures p * q * k - r * s == q * p * k + r * -s
  {
  }

  lemma MulSubst(p: real, p2: real, q: real, q2: real)
    requires p == p2 && q == q2
    ensures p * q == p2 * q2
  {
  }

  lemma DotOfComponents(e0: real, e1: real, e2: real, f0: real, f1: real, f2: real)
    ensures Dot(Vec3(e0, e1, e2), Vec3(f0, f1, f2)) == e0 * f0 + e1 * f1 + e2 * f2
  {
  }

  /** Lagrange's identity for two cross products sharing a factor. */
  lemma Lagrange(a: Vec3, u: Vec3, v: Vec3)
    ensures Dot(Cross(a, u), Cross(a, v)) == Dot(a, a) * Dot(u, v) - Dot(a, u) * Dot(a, v)
  {
    UnfoldCrossDot(a, u, v);
    UnfoldDotProducts(a, u, v);
    LagrangeScalar(a.x, a.y, a.z, u.x, u.y, u.z, v.x, v.y, v.z);
  }

  lemma UnfoldCrossDot(a: Vec3, u: Vec3, v: Vec3)
    ensures Dot(Cross(a, u), Cross(a, v))
         == (a.y * u.z - a.z * u.y) * (a.y * v.z - a.z * v.y)
          + (a.z * u.x - a.x * u.z) * (a.z * v.x - a.x * v.z)
          + (a.x * u.y - a.y * u.x) * (a.x * v.y - a.y * v.x)
  {
    DotOfComponents(a.y * u.z - a.z * u.y, a.z * u.x - a.x * u.z, a.x * u.y - a.y * u.x,
                    a.y * v.z - a.z * v.y, a.z * v.x - a.x * v.z, a.x * v.y - a.y * v.x);
  }

  lemma UnfoldDotProducts(a: Vec3, u: Vec3, v: Vec3)
    ensures Dot(a, a) * Dot(u, v) - Dot(a, u) * Dot(a, v)
         == (a.x * a.x + a.y * a.y + a.z * a.z) * (u.x * v.x + u.y * v.y + u.z * v.z)
          - (a.x * u.x + a.y * u.y + a.z * u.z) * (a.x * v.x + a.y * v.y + a.z * v.z)
  {
    MulSubst(Dot(a, a), a.x * a.x + a.y * a.y + a.z * a.z, Dot(u, v), u.x * v.x + u.y * v.y + u.z * v.z);
    MulSubst(Dot(a, u), a.x * u.x + a.y * u.y + a.z * u.z, Dot(a, v), a.x * v.x + a.y * v.y + a.z * v.z);
  }

  lemma LagrangeScalar(a0: real, a1: real, a2: real, u0: real, u1: real, u2: real, v0: real, v1: real, v2: real)
    ensures (a1 * u2 - a2 * u1) * (a1 * v2 - a2 * v1)
          + (a2 * u0 - a0 * u2) * (a2 * v0 - a0 * v2)
          + (a0 * u1 - a1 * u0) * (a0 * v1 - a1 * v0)
         == (a0 * a0 + a1 * a1 + a2 * a2) * (u0 * v0 + u1 * v1 + u2 * v2)
          - (a0 * u0 + a1 * u1 + a2 * u2) * (a0 * v0 + a1 * v1 + a2 * v2)
  {
  }

  /** A rotation preserves dot products, hence lengths and angles. */
  lemma RotatePreservesDot(a: Vec3, c: real, s: real, u: Vec3, v: Vec3)
    requires IsUnit(a) && c * c + s * s == 1.0
    ensures Dot(Rotate(a, c, s, u), Rotate(a, c, s, v)) == Dot(u, v)
  {
    RotatePreservesDotWith(a, c, s, u, v, (1.0 - c) * Dot(a, u), (1.0 - c) * Dot(a, v));
  }

  lemma RotatePreservesDotWith(a: Vec3, c: real, s: real, u: Vec3, v: Vec3, ku: real, kv: real)
    requires IsUnit(a) && c * c + s * s == 1.0
    requires ku == (1.0 - c) * Dot(a, u) && kv == (1.0 - c) * Dot(a, v)
    ensures Dot(Rotate(a, c, s, u), Rotate(a, c, s, v)) == Dot(u, v)
  {
    ExpandRotateDot(a, c, s, u, v, ku, kv);
    CollapseRotateDot(a, c, s, u, v, ku, kv);
  }

  lemma CollapseRotateDot(a: Vec3, c: real, s: real, u: Vec3, v: Vec3, ku: real, kv: real)
    requires IsUnit(a) && c * c + s * s == 1.0
    requires ku == (1.0 - c) * Dot(a, u) && kv == (1.0 - c) * Dot(a, v)
    ensures (c * c) * Dot(u, v) + (c * s) * Dot(u, Cross(a, v)) + (c * kv) * Dot(u, a)
          + (s * c) * Dot(Cross(a, u), v) + (s * s) * Dot(Cross(a, u), Cross(a, v))
          + (s * kv) * Dot(Cross(a, u), a)
          + (ku * c) * Dot(a, v) + (ku * s) * Dot(a, Cross(a, v))
          + (ku * kv) * Dot(a, a)
         == Dot(u, v)
  {
    RotateDotFacts(a, u, v);
    RotateDotScalar(c, s, ku, kv, Dot(u, v), Dot(a, u), Dot(u, a), Dot(a, v), Dot(a, a),
                    Dot(u, Cross(a, v)), Dot(Cross(a, u), v), Dot(Cross(a, u), Cross(a, v)),
                    Dot(Cross(a, u), a), Dot(a, Cross(a, v)));
  }

  lemma ExpandRotateDot(a: Vec3, c: real, s: real, u: Vec3, v: Vec3, ku: real, kv: real)
    requires ku == (1.0 - c) * Dot(a, u) && kv == (1.0 - c) * Dot(a, v)
    ensures Dot(Rotate(a, c, s, u), Rotate(a, c, s, v))
         == (c * c) * Dot(u, v) + (c * s) * Dot(u, Cross(a, v)) + (c * kv) * Dot(u, a)
          + (s * c) * Dot(Cross(a, u), v) + (s * s) * Dot(Cross(a, u), Cross(a, v))
          + (s * kv) * Dot(Cross(a, u), a)
          + (ku * c) * Dot(a, v) + (ku * s) * Dot(a, Cross(a, v))
          + (ku * kv) * Dot(a, a)
  {
    RotateAsSum(a, c, s, u, ku);
    RotateAsSum(a, c, s, v, kv);
    DotBilinear3(c, s, ku, u, Cross(a, u), a, c, s, kv, v, Cross(a, v), a);
  }

  lemma RotateAsSum(a: Vec3, c: real, s: real, v: Vec3, k: real)
    requires k == (1.0 - c) * Dot(a, v)
    ensures Rotate(a, c, s, v) == Add(Add(Scale(c, v), Scale(s, Cross(a, v))), Scale(k, a))
  {
  }

  /** The dot product of two three-term combinations, expanded term by term. */
  lemma DotBilinear3(k1: real, k2: real, k3: real, x1: Vec3, x2: Vec3, x3: Vec3,
                     m1: real, m2: real, m3: real, y1: Vec3, y2: Vec3, y3: Vec3)
    ensures Dot(Add(Add(Scale(k1, x1), Scale(k2, x2)), Scale(k3, x3)),
                Add(Add(Scale(m1, y1), Scale(m2, y2)), Scale(m3, y3)))
         == (k1 * m1) * Dot(x1, y1) + (k1 * m2) * Dot(x1, y2) + (k1 * m3) * Dot(x1, y3)
          + (k2 * m1) * Dot(x2, y1) + (k2 * m2) * Dot(x2, y2) + (k2 * m3) * Dot(x2, y3)
          + (k3 * m1) * Dot(x3, y1) + (k3 * m2) * Dot(x3, y2) + (k3 * m3) * Dot(x3, y3)
  {
    DotSum3(Scale(k1, x1), Scale(k2, x2), Scale(k3, x3), Scale(m1, y1), Scale(m2, y2), Scale(m3, y3));
    DotScales(k1, m1, x1, y1);
    DotScales(k1, m2, x1, y2);
    DotScales(k1, m3, x1, y3);
    DotScales(k2, m1, x2, y1);
    DotScales(k2, m2, x2, y2);
    DotScales(k2, m3, x2, y3);
    DotScales(k3, m1, x3, y1);
    DotScales(k3, m2, x3, y2);
    DotScales(k3, m3, x3, y3);
  }

  lemma RotateDotFacts(a: Vec3, u: Vec3, v: Vec3)
    ensures Dot(u, a) == Dot(a, u)
    ensures Dot(Cross(a, u), a) == 0.0 && Dot(a, Cross(a, v)) == 0.0
    ensures Dot(u, Cross(a, v)) + Dot(Cross(a, u), v) == 0.0
    ensures Dot(Cross(a, u), Cross(a, v)) == Dot(a, a) * Dot(u, v) - Dot(a, u) * Dot(a, v)
  {
    CrossOrthogonal(a, u);
    CrossOrthogonal(a, v);
    DotSymmetric(u, a);
    DotSymmetric(a, Cross(a, v));
    TripleSwap(a, u, v);
    Lagrange(a, u, v);
  }

  lemma RotateDotScalar(c: real, s: real, ku: real, kv: real, uv: real, ua: real, ua2: real, va: real, n: real,
                        t1: real, t2: real, l: real, z1: real, z2: real)
    requires ku == (1.0 - c) * ua && kv == (1.0 - c) * va
    requires n == 1.0 && c * c + s * s == 1.0
    requires ua2 == ua && z1 == 0.0 && z2 == 0.0
    requires t1 + t2 == 0.0
    requires l == n * uv - ua * va
    ensures (c * c) * uv + (c * s) * t1 + (c * kv) * ua2
          + (s * c) * t2 + (s * s) * l + (s * kv) * z1
          + (ku * c) * va + (ku * s) * z2
          + (ku * kv) * n
         == uv
  {
    MulSubst(c * kv, c * kv, ua2, ua);
    MulSubst(s * kv, s * kv, z1, 0.0);
    MulSubst(ku * s, ku * s, z2, 0.0);
    MulSubst(ku * kv, ku * kv, n, 1.0);
    MulSubst(s * s, s * s, l, uv - ua * va);
    MulSubst(c, c, kv, (1.0 - c) * va);
    MulSubst(ku, (1.0 - c) * ua, c, c);
    MulSubst(ku, (1.0 - c) * ua, kv, (1.0 - c) * va);
    RotateDotPolynomial(c, s, uv, ua, va);
  }

  lemma RotateDotPolynomial(c: real, s: real, uv: real, ua: real, va: real)
    requires c * c + s * s == 1.0
    ensures (c * c) * uv + (c * ((1.0 - c) * va)) * ua + (s * s) * (uv - ua * va)
          + (((1.0 - c) * ua) * c) * va + ((1.0 - c) * ua) * ((1.0 - c) * va)
         == uv
  {
    assert (c * c) * uv + (s * s) * uv == uv by {
      MulSubst(c * c + s * s, 1.0, uv, uv);
    }
    assert (c * ((1.0 - c) * va)) * ua + (((1.0 - c) * ua) * c) * va + ((1.0 - c) * ua) * ((1.0 - c) * va)
        == (1.0 - c * c) * (ua * va);
    assert (1.0 - c * c) * (ua * va) == (s * s) * (ua * va) by {
      MulSubst(1.0 - c * c, s * s, ua * va, ua * va);
    }
  }

  lemma DotSum3(p1: Vec3, p2: Vec3, p3: Vec3, q1: Vec3, q2: Vec3, q3: Vec3)
    ensures Dot(Add(Add(p1, p2), p3), Add(Add(q1, q2), q3))
         == Dot(p1, q1) + Dot(p1, q2) + Dot(p1, q3)
          + Dot(p2, q1) + Dot(p2, q2) + Dot(p2, q3)
          + Dot(p3, q1) + Dot(p3, q2) + Dot(p3, q3)
  {
  }

  lemma DotScales(k: real, m: real, u: Vec3, v: Vec3)
    ensures Dot(Scale(k, u), Scale(m, v)) == (k * m) * Dot(u, v)
  {
  }

  lemma DotSymmetric(u: Vec3, v: Vec3)
    ensures Dot(u, v) == Dot(v, u)
  {
  }

  /** Swapping the two outer factors of a triple product negates it. */
  lemma TripleSwap(a: Vec3, u: Vec3, v: Vec3)
    ensures Dot(u, Cross(a, v)) + Dot(Cross(a, u), v) == 0.0
  {
  }

  // ---------------------------------------------------------------- the matrix as written

  /** The matrix `rotate` builds applies Rodrigues' formula with the sine
      negated: it turns vectors by minus the requested angle. */
  lemma AsWrittenApply(a: Vec3, c: real, s: real, v: Vec3)
    ensures MulVec(AsWritten(a, c, s), v) == Rotate(a, c, -s, v)
  {
    var l, r := MulVec(AsWritten(a, c, s), v), Rotate(a, c, -s, v);
    assert l.x == r.x by { AsWrittenApplyX(a, c, s, -s, v); }
    assert l.y == r.y by { AsWrittenApplyY(a, c, s, -s, v); }
    assert l.z == r.z by { AsWrittenApplyZ(a, c, s, -s, v); }
  }

  lemma AsWrittenApplyX(a: Vec3, c: real, s: real, t: real, v: Vec3)
    requires t == -s
    ensures MulVec(AsWritten(a, c, s), v).x == Rotate(a, c, t, v).x
  {
    var m := AsWritten(a, c, s);
    RowFactsX(a, c, s, v);
    ApplyScalar(m.c0.x, m.c1.x, m.c2.x, Cross(a, v).x, Dot(a, v), a.x, a.y, a.z, c, s, t, v.x, v.y, v.z);
    MulVecRows(m, v);
    RotateRows(a, c, t, v);
  }

  lemma AsWrittenApplyY(a: Vec3, c: real, s: real, t: real, v: Vec3)
    requires t == -s
    ensures MulVec(AsWritten(a, c, s), v).y == Rotate(a, c, t, v).y
  {
    var m := AsWritten(a, c, s);
    RowFactsY(a, c, s, v);
    ApplyScalar(m.c1.y, m.c2.y, m.c0.y, Cross(a, v).y, Dot(a, v), a.y, a.z, a.x, c, s, t, v.y, v.z, v.x);
    MulVecRows(m, v);
    RotateRows(a, c, t, v);
  }

  lemma AsWrittenApplyZ(a: Vec3, c: real, s: real, t: real, v: Vec3)
    requires t == -s
    ensures MulVec(AsWritten(a, c, s), v).z == Rotate(a, c, t, v).z
  {
    var m := AsWritten(a, c, s);
    RowFactsZ(a, c, s, v);
    ApplyScalar(m.c2.z, m.c0.z, m.c1.z, Cross(a, v).z, Dot(a, v), a.z, a.x, a.y, c, s, t, v.z, v.x, v.y);
    MulVecRows(m, v);
    RotateRows(a, c, t, v);
  }

  lemma MulVecRows(m: Mat3, v: Vec3)
    ensures MulVec(m, v).x == m.c0.x * v.x + m.c1.x * v.y + m.c2.x * v.z
    ensures MulVec(m, v).y == m.c0.y * v.x + m.c1.y * v.y + m.c2.y * v.z
    ensures MulVec(m, v).z == m.c0.z * v.x + m.c1.z * v.y + m.c2.z * v.z
  {
  }

  lemma RotateRows(a: Vec3, c: real, s: real, v: Vec3)
    ensures Rotate(a, c, s, v).x == c * v.x + s * Cross(a, v).x + ((1.0 - c) * Dot(a, v)) * a.x
    ensures Rotate(a, c, s, v).y == c * v.y + s * Cross(a, v).y + ((1.0 - c) * Dot(a, v)) * a.y
    ensures Rotate(a, c, s, v).z == c * v.z + s * Cross(a, v).z + ((1.0 - c) * Dot(a, v)) * a.z
  {
  }

  /** One row of the as-written product, against one component of the formula,
      written for the component `x` with the cyclically following `y`, `z`. */
  lemma ApplyScalar(p: real, q: real, r: real, cr: real, d: real, x: real, y: real, z: real,
                    c: real, s: real, t: real, v0: real, v1: real, v2: real)
    requires p == c + x * x * (1.0 - c)
    requires q == y * x * (1.0 - c) + z * s
    requires r == z * x * (1.0 - c) - y * s
    requires cr == y * v2 - z * v1
    requires d == x * v0 + y * v1 + z * v2
    requires t == -s
    ensures p * v0 + q * v1 + r * v2 == c * v0 + t * cr + ((1.0 - c) * d) * x
  {
    MulSubst(p, c + x * x * (1.0 - c), v0, v0);
    MulSubst(q, y * x * (1.0 - c) + z * s, v1, v1);
    MulSubst(r, z * x * (1.0 - c) - y * s, v2, v2);
    MulSubst(t, -s, cr, y * v2 - z * v1);
    MulSubst((1.0 - c) * d, (1.0 - c) * (x * v0 + y * v1 + z * v2), x, x);
  }

  lemma RowFactsX(a: Vec3, c: real, s: real, v: Vec3)
    ensures AsWritten(a, c, s).c0.x == c + a.x * a.x * (1.0 - c)
    ensures AsWritten(a, c, s).c1.x == a.y * a.x * (1.0 - c) + a.z * s
    ensures AsWritten(a, c, s).c2.x == a.z * a.x * (1.0 - c) - a.y * s
    ensures Cross(a, v).x == a.y * v.z - a.z * v.y
    ensures Dot(a, v) == a.x * v.x + a.y * v.y + a.z * v.z
  {
  }

  lemma RowFactsY(a: Vec3, c: real, s: real, v: Vec3)
    ensures AsWritten(a, c, s).c1.y == c + a.y * a.y * (1.0 - c)
    ensures AsWritten(a, c, s).c2.y == a.z * a.y * (1.0 - c) + a.x * s
    ensures AsWritten(a, c, s).c0.y == a.x * a.y * (1.0 - c) - a.z * s
    ensures Cross(a, v).y == a.z * v.x - a.x * v.z
    ensures Dot(a, v) == a.y * v.y + a.z * v.z + a.x * v.x
  {
  }

  lemma RowFactsZ(a: Vec3, c: real, s: real, v: Vec3)
    ensures AsWritten(a, c, s).c2.z == c + a.z * a.z * (1.0 - c)
    ensures AsWritten(a, c, s).c0.z == a.x * a.z * (1.0 - c) + a.y * s
    ensures AsWritten(a, c, s).c1.z == a.y * a.z * (1.0 - c) - a.x * s
    ensures Cross(a, v).z == a.x * v.y - a.y * v.x
    ensures Dot(a, v) == a.z * v.z + a.x * v.x + a.y * v.y
  {
  }

  /** Rodrigues' formula leaves its (unit) axis where it is. */
  lemma RotateFixesAxis(a: Vec3, c: real, s: real)
    requires IsUnit(a)
    ensures Rotate(a, c, s, a) == a
  {
    var r := Rotate(a, c, s, a);
    assert r.x == a.x by {
      FixScalar(c, s, Dot(a, a), a.x, Cross(a, a).x);
      RotateRows(a, c, s, a);
    }
    assert r.y == a.y by {
      FixScalar(c, s, Dot(a, a), a.y, Cross(a, a).y);
      RotateRows(a, c, s, a);
    }
    assert r.z == a.z by {
      FixScalar(c, s, Dot(a, a), a.z, Cross(a, a).z);
      RotateRows(a, c, s, a);
    }
  }

  lemma FixScalar(c: real, s: real, d: real, x: real, cr: real)
    requires d == 1.0 && cr == 0.0
    ensures c * x + s * cr + ((1.0 - c) * d) * x == x
  {
    MulSubst(s, s, cr, 0.0);
    MulSubst((1.0 - c) * d, 1.0 - c, x, x);
  }

  lemma MulVecUnits(m: Mat3)
    ensures MulVec(m, UnitX) == m.c0 && MulVec(m, UnitY) == m.c1 && MulVec(m, UnitZ) == m.c2
  {
  }

  /** Column j of the as-written matrix is basis vector j turned by minus the angle. */
  lemma AsWrittenColumns(a: Vec3, c: real, s: real)
    ensures AsWritten(a, c, s).c0 == Rotate(a, c, -s, UnitX)
    ensures AsWritten(a, c, s).c1 == Rotate(a, c, -s, UnitY)
    ensures AsWritten(a, c, s).c2 == Rotate(a, c, -s, UnitZ)
  {
    MulVecUnits(AsWritten(a, c, s));
    AsWrittenApply(a, c, s, UnitX);
    AsWrittenApply(a, c, s, UnitY);
    AsWrittenApply(a, c, s, UnitZ);
  }

  /** For a unit axis and a genuine cosine/sine pair, the as-written matrix is
      orthogonal. */
  lemma AsWrittenOrthonormal(a: Vec3, c: real, s: real)
    requires IsUnit(a) && c * c + s * s == 1.0
    ensures IsOrthonormal(AsWritten(a, c, s))
  {
    assert c * c + -s * -s == 1.0;
    AsWrittenColumns(a, c, s);
    RotatedBasisOrthonormal(a, c, -s);
  }

  /** The images of the three unit vectors under a rotation are orthonormal. */
  lemma RotatedBasisOrthonormal(a: Vec3, c: real, s: real)
    requires IsUnit(a) && c * c + s * s == 1.0
    ensures IsOrthonormal(Mat3(Rotate(a, c, s, UnitX), Rotate(a, c, s, UnitY), Rotate(a, c, s, UnitZ)))
  {
    RotatePreservesDot(a, c, s, UnitX, UnitX);
    RotatePreservesDot(a, c, s, UnitY, UnitY);
    RotatePreservesDot(a, c, s, UnitZ, UnitZ);
    RotatePreservesDot(a, c, s, UnitX, UnitY);
    RotatePreservesDot(a, c, s, UnitX, UnitZ);
    RotatePreservesDot(a, c, s, UnitY, UnitZ);
  }

  /** The as-written matrix fixes its axis. */
  lemma AsWrittenFixesAxis(a: Vec3, c: real, s: real)
    requires IsUnit(a)
    ensures MulVec(AsWritten(a, c, s), a) == a
  {
    AsWrittenApply(a, c, s, a);
    RotateFixesAxis(a, c, -s);
  }

  /** At a zero angle (cosine 1, sine 0) the as-written matrix is the identity,
      whatever the axis. */
  lemma AsWrittenAtZero(a: Vec3)
    ensures AsWritten(a, 1.0, 0.0) == Identity3
  {
  }

  /** The textbook matrix does apply Rodrigues' formula. */
  lemma TextbookApply(a: Vec3, c: real, s: real, v: Vec3)
    ensures MulVec(Textbook(a, c, s), v) == Rotate(a, c, s, v)
  {
    AsWrittenIsReverse(a, c, -s);
    assert Textbook(a, c, - -s) == Textbook(a, c, s);
    AsWrittenApply(a, c, -s, v);
    assert Rotate(a, c, - -s, v) == Rotate(a, c, s, v);
  }
}

=== FILE: scene_controller.dfy ===
/** The scene controller: which of the volume and the MPR plane is shown,
    which axis the slice slider moves along, how a slider value becomes a
    slice index, and the lower ray-marching quality while the camera is
    being moved. The scene graph, the camera and the transfer-function
    textures are not modelled; the two scene nodes are represented by their
    visibility and scale. The model starts after `onAppear`, which creates
    the volume material that every other member relies on. */
module SceneController {
  import opened Numeric
  import opened Linear
  import opened Results
  import opened Dataset
  import opened BodyParts
  import TextureFactory
  import MprMaterial
  import CubeMaterial
  import TriPlanar

  /** The five volume-rendering methods, and the single-plane MPR view. */
  datatype RenderMode = SurfMode | DvrMode | MipMode | MinipMode | AvgMode | MprMode

  /** The MPR plane's node and material. */
  datatype MprView = MprView(material: MprMaterial.Material, hidden: bool, scale: Vec3)

  datatype Controller = Controller(
    volumeMaterial: CubeMaterial.Material,
    volumeHidden: bool,
    volumeScale: Vec3,
    mpr: Option<MprView>,
    activeRenderMode: RenderMode,
    adaptiveOn: bool,
    lastStep: real,
    currentPlaneAxis: int)

  /** The share of the quality kept while interacting, and its floor. */
  const InteractionFactor: real := 0.35
  const MinInteractiveStep: real := 64.0
  const InitialStep: real := 128.0

  // ---------------------------------------------------------------- render modes

  /** `mapToVRMethod`: the method a render mode runs; MPR has none and gets
      direct volume rendering. */
  function MapToVRMethod(mode: RenderMode): (m: CubeMaterial.Method)
    ensures mode == MprMode ==> m == CubeMaterial.Dvr
  {
    match mode
    case SurfMode => CubeMaterial.Surf
    case DvrMode => CubeMaterial.Dvr
    case MipMode => CubeMaterial.Mip
    case MinipMode => CubeMaterial.Minip
    case AvgMode => CubeMaterial.Avg
    case MprMode => CubeMaterial.Dvr
  }

  /** The render mode named after a method: the one volume-rendering mode
      that runs it. */
  function ModeOf(m: CubeMaterial.Method): (mode: RenderMode)
    ensures mode != MprMode
    ensures MapToVRMethod(mode) == m
  {
    match m
    case Surf => SurfMode
    case Dvr => DvrMode
    case Mip => MipMode
    case Minip => MinipMode
    case Avg => AvgMode
  }

  /** The mapping is the identity on the five shared cases, in both
      directions. */
  lemma MapToVRMethodIsIdentityOnShared(m: CubeMaterial.Method, mode: RenderMode)
    ensures MapToVRMethod(ModeOf(m)) == m
    ensures mode != MprMode ==> ModeOf(MapToVRMethod(mode)) == mode
  {
  }

  /** The visible node and the volume's method match the active mode:
      exactly one of the volume and the MPR plane is shown, and a
      volume-rendering mode runs its own method. */
  predicate ShowsActiveMode(c: Controller) {
    && (c.volumeHidden <==> c.activeRenderMode == MprMode)
    && (c.mpr.Some? ==> (c.mpr.value.hidden <==> c.activeRenderMode != MprMode))
    && (c.activeRenderMode != MprMode ==>
          CubeMaterial.MethodFromId(c.volumeMaterial.uniforms.renderMethod) == Some(MapToVRMethod(c.activeRenderMode)))
  }

  /** `setRenderMode(_:)`: MPR hides the volume and shows the plane; every
      other mode does the opposite and selects its method. */
  function SetRenderMode(c: Controller, mode: RenderMode): (r: Controller)
    ensures r.activeRenderMode == mode
    ensures r.volumeHidden <==> mode == MprMode
    ensures r.mpr.Some? <==> c.mpr.Some?
    ensures r.mpr.Some? ==> (r.mpr.value.hidden <==> mode != MprMode)
                            && r.mpr.value.(hidden := c.mpr.value.hidden) == c.mpr.value
    ensures mode != MprMode ==>
              CubeMaterial.MethodFromId(r.volumeMaterial.uniforms.renderMethod) == Some(MapToVRMethod(mode))
    ensures mode == MprMode ==> r.volumeMaterial == c.volumeMaterial
    ensures r.(volumeMaterial := c.volumeMaterial, volumeHidden := c.volumeHidden, mpr := c.mpr,
               activeRenderMode := c.activeRenderMode) == c
  {
    var isMpr := mode == MprMode;
    var mpr := match c.mpr
      case None => None
      case Some(view) => Some(view.(hidden := !isMpr));
    var mat := if !isMpr then CubeMaterial.SetMethod(c.volumeMaterial, MapToVRMethod(mode)) else c.volumeMaterial;
    c.(activeRenderMode := mode, volumeHidden := isMpr, mpr := mpr, volumeMaterial := mat)
  }

  /** After any mode change the screen shows that mode, and changing to the
      same mode again changes nothing. */
  lemma SetRenderModeShowsMode(c: Controller, mode: RenderMode)
    ensures ShowsActiveMode(SetRenderMode(c, mode))
    ensures SetRenderMode(SetRenderMode(c, mode), mode) == SetRenderMode(c, mode)
  {
  }

  // ---------------------------------------------------------------- slice selection

  /** `Int32 / 2`: halving that truncates toward zero. */
  function HalfTowardZero(n: int): (h: int)
    ensures n >= 0 ==> 0 <= h && 2 * h <= n < 2 * h + 2
    ensures n < 0 ==> h <= 0 && 2 * h - 2 < n <= 2 * h
  {
    if n >= 0 then n / 2 else -((-n) / 2)
  }

  /** `setMPRPlane`'s axis for each picker choice: the plane's normal. */
  function PlaneAxis(p: TriPlanar.Plane): (axis: int)
    ensures 0 <= axis <= 2
    ensures axis == TriPlanar.NormalAxis(p)
    ensures axis != TriPlanar.UAxis(p) && axis != TriPlanar.VAxis(p)
  {
    match p
    case Axial => 2
    case Coronal => 1
    case Sagittal => 0
  }

  /** The picker's axis is the normal axis of the same viewport in the
      tri-planar view. */
  lemma PlaneAxisIsNormalAxis(p: TriPlanar.Plane)
    ensures PlaneAxis(p) == TriPlanar.NormalAxis(p)
  {
  }

  /** The plane of slice coordinate `coord` along `axis` (0 = x, 1 = y,
      anything else = z), spanned by the other two axes in order. */
  predicate IsSliceAlong(u: MprMaterial.Uniforms, axis: int, coord: real) {
    && (axis == 0 ==> u.planeOrigin == Vec3(coord, 0.0, 0.0) && u.planeX == UnitY && u.planeY == UnitZ)
    && (axis == 1 ==> u.planeOrigin == Vec3(0.0, coord, 0.0) && u.planeX == UnitX && u.planeY == UnitZ)
    && (axis != 0 && axis != 1 ==> u.planeOrigin == Vec3(0.0, 0.0, coord) && u.planeX == UnitX && u.planeY == UnitY)
  }

  /** `setMPRPlaneSagittal`, `setMPRPlaneCoronal` and `setMPRPlaneAxial`,
      chosen by axis: show slice `k` along the axis, when there is an MPR
      material. Only the plane changes. */
  function ShowSlice(c: Controller, axis: int, k: int): (r: Controller)
    ensures c.mpr.None? ==> r == c
    ensures c.mpr.Some? ==>
              && r.mpr.Some? && r.(mpr := c.mpr) == c
              && r.mpr.value.(material := c.mpr.value.material) == c.mpr.value
              && r.mpr.value.material.(uniforms := c.mpr.value.material.uniforms) == c.mpr.value.material
              && IsSliceAlong(r.mpr.value.material.uniforms, axis,
                              MprMaterial.SliceCoord(k, MprMaterial.DimAlong(c.mpr.value.material.dimension, axis)))
  {
    match c.mpr
    case None => c
    case Some(view) =>
      var m := view.material;
      var m1 := if axis == 0 then MprMaterial.SetSagittal(m, k)
                else if axis == 1 then MprMaterial.SetCoronal(m, k)
                else MprMaterial.SetAxial(m, k);
      c.(mpr := Some(view.(material := m1)))
  }

  /** `mprDimCurrent`: the slice count along the current axis, or 1 without
      an MPR material. */
  function MprDimCurrent(c: Controller): (n: int)
    ensures c.mpr.None? ==> n == 1
    ensures c.mpr.Some? && c.currentPlaneAxis == 0 ==> n == c.mpr.value.material.dimension.x
    ensures c.mpr.Some? && c.currentPlaneAxis == 1 ==> n == c.mpr.value.material.dimension.y
    ensures c.mpr.Some? && c.currentPlaneAxis != 0 && c.currentPlaneAxis != 1 ==>
              n == c.mpr.value.material.dimension.z
  {
    match c.mpr
    case None => 1
    case Some(view) => MprMaterial.DimAlong(view.material.dimension, c.currentPlaneAxis)
  }

  /** `mprDimZ`: the slice count along z, or 1 without an MPR material. */
  function MprDimZ(c: Controller): (n: int)
    ensures c.mpr.None? ==> n == 1
    ensures c.mpr.Some? ==> n == c.mpr.value.material.dimension.z
  {
    match c.mpr
    case None => 1
    case Some(view) => view.material.dimension.z
  }

  /** `setMPRPlane(_:)`: select the plane's axis and show its middle slice.
      Without an MPR material nothing changes, not even the axis. */
  function SetMprPlane(c: Controller, p: TriPlanar.Plane): (r: Controller)
    ensures c.mpr.None? ==> r == c
    ensures c.mpr.Some? ==>
              var dim := MprMaterial.DimAlong(c.mpr.value.material.dimension, PlaneAxis(p));
              && r.currentPlaneAxis == PlaneAxis(p)
              && r.mpr.Some?
              && IsSliceAlong(r.mpr.value.material.uniforms, PlaneAxis(p),
                              MprMaterial.SliceCoord(HalfTowardZero(dim), dim))
              && MprDimCurrent(r) == dim
  {
    match c.mpr
    case None => c
    case Some(view) =>
      var axis := PlaneAxis(p);
      var d := view.material.dimension;
      ShowSlice(c.(currentPlaneAxis := axis), axis, HalfTowardZero(MprMaterial.DimAlong(d, axis)))
  }

  /** The middle slice's centre is the middle of the volume, or half a voxel
      past it when the count is even. */
  lemma MiddleSliceIsCentred(dim: int)
    requires dim >= 1
    ensures 0.5 <= MprMaterial.SliceCoord(HalfTowardZero(dim), dim) <= 0.5 + 0.5 / dim as real
  {
    var h := HalfTowardZero(dim);
    assert MprMaterial.ClampSlice(h, dim) == h;
    assert MprMaterial.SliceCoord(h, dim) == (h as real + 0.5) / dim as real;
    QuotientNearHalf(h as real + 0.5, dim as real);
  }

  /** A value within half a unit above the midpoint of [0, d], divided by d. */
  lemma QuotientNearHalf(a: real, d: real)
    requires d >= 1.0 && 0.5 * d <= a <= 0.5 * d + 0.5
    ensures 0.5 <= a / d <= 0.5 + 0.5 / d
  {
    QuotientBelow(a, d);
    QuotientAbove(a, d);
  }

  lemma QuotientBelow(a: real, d: real)
    requires d >= 1.0 && 0.5 * d <= a
    ensures 0.5 <= a / d
  {
    assert a / d * d == a;
  }

  lemma QuotientAbove(a: real, d: real)
    requires d >= 1.0 && a <= 0.5 * d + 0.5
    ensures a / d <= 0.5 + 0.5 / d
  {
    DivideMonotone(a, 0.5 * d + 0.5, d);
    assert (0.5 * d + 0.5) / d == 0.5 + 0.5 / d;
  }

  lemma DivideMonotone(a: real, b: real, d: real)
    requires a <= b && d > 0.0
    ensures a / d <= b / d
  {
    assert b / d - a / d == (b - a) / d;
  }

  /** The slice index of a slider value in [0, 1]: `round(v * max(1, d - 1))`. */
  function SliceIndex(v: real, d: int): (k: int)
    ensures v == 0.0 ==> k == 0
    ensures d >= 2 && v == 1.0 ==> k == d - 1
    ensures 0.0 <= v <= 1.0 ==> 0 <= k <= MaxInt(1, d - 1)
  {
    var n := MaxInt(1, d - 1);
    RoundOfInt(0);
    RoundOfInt(n);
    RoundWithin(v, n);
    RoundScaled(v, n)
  }

  /** `round(v * Float(n))`. */
  function RoundScaled(v: real, n: int): int {
    Round(v * n as real)
  }

  /** Rounding `v * n` for `v` in [0, 1] lands in [0, n]. */
  lemma RoundWithin(v: real, n: int)
    requires n >= 1
    ensures 0.0 <= v <= 1.0 ==> 0 <= RoundScaled(v, n) <= n
  {
    if 0.0 <= v <= 1.0 {
      assert 0.0 <= v * n as real <= n as real;
      RoundMonotone(0.0, v * n as real);
      RoundMonotone(v * n as real, n as real);
      RoundOfInt(0);
      RoundOfInt(n);
    }
  }

  /** Every slice index is reached by the slider value `k / max(1, d - 1)`:
      the slider reaches every slice. */
  lemma SliceIndexReachesEverySlice(k: int, d: int)
    requires 0 <= k <= MaxInt(1, d - 1)
    ensures SliceIndex(k as real / MaxInt(1, d - 1) as real, d) == k
  {
    var n := MaxInt(1, d - 1) as real;
    assert k as real / n * n == k as real;
    RoundOfInt(k);
  }

  /** A larger slider value never gives an earlier slice. */
  lemma SliceIndexMonotone(v: real, w: real, d: int)
    requires v <= w
    ensures SliceIndex(v, d) <= SliceIndex(w, d)
  {
    RoundScaledMonotone(v, w, MaxInt(1, d - 1));
  }

  lemma RoundScaledMonotone(v: real, w: real, n: int)
    requires v <= w && n >= 0
    ensures RoundScaled(v, n) <= RoundScaled(w, n)
  {
    ScaleMonotone(v, w, n as real);
    RoundMonotone(v * n as real, w * n as real);
  }

  lemma ScaleMonotone(v: real, w: real, n: real)
    requires v <= w && n >= 0.0
    ensures v * n <= w * n
  {
    assert (w - v) * n >= 0.0;
  }

  /** `updateSlice(normalizedValue:)`: the slice of the slider value along
      the current axis. */
  function UpdateSlice(c: Controller, v: real): (r: Controller)
    ensures c.mpr.None? ==> r == c
    ensures r.currentPlaneAxis == c.currentPlaneAxis
    ensures c.mpr.Some? ==>
              var dim := MprDimCurrent(c);
              && r.mpr.Some?
              && IsSliceAlong(r.mpr.value.material.uniforms, c.currentPlaneAxis,
                              MprMaterial.SliceCoord(SliceIndex(v, dim), dim))
  {
    match c.mpr
    case None => c
    case Some(view) =>
      var d := MprMaterial.DimAlong(view.material.dimension, c.currentPlaneAxis);
      ShowSlice(c, c.currentPlaneAxis, SliceIndex(v, d))
  }

  /** The two ends of the slider show the first and the last slice. */
  lemma SliderEndsShowEndSlices(c: Controller)
    requires c.mpr.Some? && MprDimCurrent(c) >= 2
    ensures IsSliceAlong(UpdateSlice(c, 0.0).mpr.value.material.uniforms, c.currentPlaneAxis,
                         0.5 / MprDimCurrent(c) as real)
    ensures IsSliceAlong(UpdateSlice(c, 1.0).mpr.value.material.uniforms, c.currentPlaneAxis,
                         (MprDimCurrent(c) as real - 0.5) / MprDimCurrent(c) as real)
  {
  }

  /** `updateAxialSlice(normalizedValue:)`: the same mapping, always along z. */
  function UpdateAxialSlice(c: Controller, v: real): (r: Controller)
    ensures c.mpr.None? ==> r == c
    ensures r.currentPlaneAxis == c.currentPlaneAxis
    ensures c.mpr.Some? ==>
              && r.mpr.Some?
              && IsSliceAlong(r.mpr.value.material.uniforms, 2,
                              MprMaterial.SliceCoord(SliceIndex(v, MprDimZ(c)), MprDimZ(c)))
  {
    match c.mpr
    case None => c
    case Some(view) =>
      var sliceIndex := SliceIndex(v, view.material.dimension.z);
      ShowSlice(c, 2, sliceIndex)
  }

  /** With the axial plane selected the two slider handlers agree. */
  lemma AxialSliderAgrees(c: Controller, v: real)
    requires c.currentPlaneAxis == 2
    ensures UpdateAxialSlice(c, v) == UpdateSlice(c, v)
  {
  }

  // ---------------------------------------------------------------- quality while interacting

  /** `setStep(step:)`: the quality the user chose, remembered and applied. */
  function SetStep(c: Controller, step: real): (r: Controller)
    ensures r.lastStep == step
    ensures r.volumeMaterial == CubeMaterial.SetStep(c.volumeMaterial, step)
    ensures r.(lastStep := c.lastStep, volumeMaterial := c.volumeMaterial) == c
  {
    c.(lastStep := step, volumeMaterial := CubeMaterial.SetStep(c.volumeMaterial, step))
  }

  /** `setAdaptive(_:)`. */
  function SetAdaptive(c: Controller, on: bool): (r: Controller)
    ensures r.adaptiveOn == on && r.(adaptiveOn := c.adaptiveOn) == c
  {
    c.(adaptiveOn := on)
  }

  /** The renderer runs at the quality the user chose. */
  predicate AtChosenQuality(c: Controller) {
    c.volumeMaterial == CubeMaterial.SetStep(c.volumeMaterial, c.lastStep)
  }

  lemma SetStepIsChosenQuality(c: Controller, step: real)
    ensures AtChosenQuality(SetStep(c, step))
  {
  }

  /** The gesture recognizer states the handlers distinguish. */
  datatype GestureState = Possible | Began | Changed | Ended | Cancelled | Failed

  /** The quality used while a gesture is in progress. */
  function InteractionStep(last: real): (s: real)
    ensures s >= MinInteractiveStep
    ensures last >= MinInteractiveStep ==> s <= last
    ensures s == MinInteractiveStep || s == last * InteractionFactor
  {
    MaxReal(MinInteractiveStep, last * InteractionFactor)
  }

  /** `handlePan`, `handlePinch` and `handleRotate`, which share one body:
      with adaptive quality on, a gesture's start lowers the quality and its
      end, cancellation or failure restores the chosen one. The chosen
      quality itself never changes. */
  function OnGesture(c: Controller, state: GestureState): (r: Controller)
    ensures r.lastStep == c.lastStep
    ensures r.(volumeMaterial := c.volumeMaterial) == c
    ensures !c.adaptiveOn || state in {Possible, Changed} ==> r == c
    ensures c.adaptiveOn && state == Began ==>
              r.volumeMaterial == CubeMaterial.SetStep(c.volumeMaterial, InteractionStep(c.lastStep))
              && r.volumeMaterial.uniforms.renderingQuality >= 64
    ensures c.adaptiveOn && state in {Ended, Cancelled, Failed} ==>
              AtChosenQuality(r) && r.volumeMaterial == CubeMaterial.SetStep(c.volumeMaterial, c.lastStep)
  {
    if !c.adaptiveOn then c
    else
      match state
      case Began => c.(volumeMaterial := CubeMaterial.SetStep(c.volumeMaterial, InteractionStep(c.lastStep)))
      case Ended => c.(volumeMaterial := CubeMaterial.SetStep(c.volumeMaterial, c.lastStep))
      case Cancelled => c.(volumeMaterial := CubeMaterial.SetStep(c.volumeMaterial, c.lastStep))
      case Failed => c.(volumeMaterial := CubeMaterial.SetStep(c.volumeMaterial, c.lastStep))
      case _ => c
  }

  /** A whole gesture leaves the renderer as it found it, when it was at
      the chosen quality. */
  lemma GestureRestoresQuality(c: Controller, ending: GestureState)
    requires AtChosenQuality(c)
    requires ending in {Ended, Cancelled, Failed}
    ensures OnGesture(OnGesture(c, Began), ending) == c
  {
  }

  // ---------------------------------------------------------------- slab and dataset

  /** `setMPRSlab(thicknessInVoxels:steps:)`: a slab along z, then the same
      slab along the current axis. */
  function SetMprSlab(c: Controller, thicknessInVoxels: int, steps: int): (r: Controller)
    ensures c.mpr.None? ==> r == c
    ensures c.mpr.Some? ==>
              && r.mpr.Some? && r.(mpr := c.mpr) == c
              && r.mpr.value.(material := c.mpr.value.material) == c.mpr.value
              && r.mpr.value.material.uniforms.numSteps >= 1
  {
    match c.mpr
    case None => c
    case Some(view) =>
      var m1 := MprMaterial.SetSlab(view.material, thicknessInVoxels, 2, steps);
      var m2 := MprMaterial.SetSlab(m1, thicknessInVoxels, c.currentPlaneAxis, steps);
      c.(mpr := Some(view.(material := m2)))
  }

  /** Only the second call counts: the slab is the one along the current
      axis. */
  lemma SlabFollowsCurrentAxis(c: Controller, thicknessInVoxels: int, steps: int)
    requires c.mpr.Some?
    ensures SetMprSlab(c, thicknessInVoxels, steps).mpr.value.material
         == MprMaterial.SetSlab(c.mpr.value.material, thicknessInVoxels, c.currentPlaneAxis, steps)
  {
  }

  /** `setDatasetForMPROnly(dimension:resolution:)`: the plane material's grid
      and the plane node's scale, spacing times dimension. */
  function SetDatasetForMprOnly(c: Controller, dimension: Dims, resolution: Vec3): (r: Controller)
    ensures c.mpr.None? ==> r == c
    ensures c.mpr.Some? ==>
              && r.mpr.Some? && r.(mpr := c.mpr) == c
              && r.mpr.value.material == MprMaterial.SetDataset(c.mpr.value.material, dimension, resolution)
              && r.mpr.value.scale
                 == Hadamard(resolution, Vec3(dimension.x as real, dimension.y as real, dimension.z as real))
              && r.mpr.value.hidden == c.mpr.value.hidden
  {
    match c.mpr
    case None => c
    case Some(view) =>
      var scale := Vec3(resolution.x * dimension.x as real,
                        resolution.y * dimension.y as real,
                        resolution.z * dimension.z as real);
      c.(mpr := Some(MprView(MprMaterial.SetDataset(view.material, dimension, resolution), view.hidden, scale)))
  }

  /** The plane node gets the scale the volume node gets from a dataset with
      the same grid and spacing, so the two line up. */
  lemma MprOnlyScaleMatchesVolume(c: Controller, d: VolumeDataset, deviceMakesTexture: bool)
    requires c.mpr.Some?
    ensures SetDatasetForMprOnly(c, d.dimensions, d.spacing).mpr.value.scale
         == CubeMaterial.Scale(CubeMaterial.SetDataset(c.volumeMaterial, d, deviceMakesTexture))
  {
  }

  // ---------------------------------------------------------------- body parts

  /** The plane material of a freshly loaded part: the part's dataset, its
      middle axial slice, and a thin slab of one sample. */
  predicate ShowsPartMiddle(m: MprMaterial.Material, part: BodyPart, bundle: TextureFactory.Bundle) {
    && m.textureFactory.dataset == TextureFactory.DatasetFor(part, bundle)
    && m.uniforms.slabHalf == 0.0 && m.uniforms.numSteps == 1
    && IsSliceAlong(m.uniforms, 2, MprMaterial.SliceCoord(HalfTowardZero(m.dimension.z), m.dimension.z))
  }

  /** What `setPart(part:)` does to the plane material for a real part. */
  function LoadPartIntoPlane(m: MprMaterial.Material, part: BodyPart, bundle: TextureFactory.Bundle,
                             deviceMakesTexture: bool): (r: MprMaterial.Material)
    ensures ShowsPartMiddle(r, part, bundle)
    ensures r.dimension == MprMaterial.SetPart(m, part, bundle, deviceMakesTexture).dimension
  {
    var m1 := MprMaterial.SetPart(m, part, bundle, deviceMakesTexture);
    var m2 := MprMaterial.SetAxial(m1, HalfTowardZero(m1.dimension.z));
    MprMaterial.SlabEdgeCases(m2, 2, 1);
    MprMaterial.SetSlab(m2, 0, 2, 1)
  }

  /** The plane node after `setPart(part:)`: it takes the volume's scale,
      and its material loads a real part. */
  function PlaneAfterPart(view: MprView, part: BodyPart, bundle: TextureFactory.Bundle,
                          deviceMakesTexture: bool, scale: Vec3): (r: MprView)
    ensures r.scale == scale && r.hidden == view.hidden
    ensures part == NoPart ==> r.material == view.material
    ensures part != NoPart ==> ShowsPartMiddle(r.material, part, bundle)
  {
    if part == NoPart then view.(scale := scale)
    else MprView(LoadPartIntoPlane(view.material, part, bundle, deviceMakesTexture), view.hidden, scale)
  }

  /** `setPart(part:)`: the volume shows the part and the plane node takes
      the volume's transform; for a real part the plane material loads it
      too and shows its middle axial slice as a thin slab; the active mode
      is then applied again. `volumeTexture` and `mprTexture` say whether
      the device could create each texture. */
  function SetPart(c: Controller, part: BodyPart, bundle: TextureFactory.Bundle,
                   volumeTexture: bool, mprTexture: bool): (r: Controller)
    ensures r.volumeScale == DatasetScale(TextureFactory.DatasetFor(part, bundle))
    ensures ShowsActiveMode(r) && r.activeRenderMode == c.activeRenderMode
    ensures r.mpr.Some? <==> c.mpr.Some?
    ensures r.mpr.Some? ==> r.mpr.value.scale == r.volumeScale
    ensures r.mpr.Some? && part == NoPart ==> r.mpr.value.material == c.mpr.value.material
    ensures r.mpr.Some? && part != NoPart ==> ShowsPartMiddle(r.mpr.value.material, part, bundle)
    ensures r.lastStep == c.lastStep && r.adaptiveOn == c.adaptiveOn && r.currentPlaneAxis == c.currentPlaneAxis
  {
    var mat := CubeMaterial.SetPart(c.volumeMaterial, part, bundle, volumeTexture);
    var scale := CubeMaterial.Scale(mat);
    var mpr := match c.mpr
      case None => None
      case Some(view) => Some(PlaneAfterPart(view, part, bundle, mprTexture, scale));
    SetRenderMode(c.(volumeMaterial := mat, volumeScale := scale, mpr := mpr), c.activeRenderMode)
  }

  // ---------------------------------------------------------------- start-up

  /** The volume material `onAppear` builds: `init(device:)`, the part
      `.none` once more, then the initial quality. */
  function StartupVolume(bundle: TextureFactory.Bundle, deviceMakesTexture: bool): (m: CubeMaterial.Material)
    ensures m.uniforms == CubeMaterial.DefaultUniforms.(renderingQuality := 128)
    ensures m.textureGenerator.dataset == TextureFactory.Placeholder()
  {
    CubeMaterial.InitialIsDefault(bundle, deviceMakesTexture);
    CubeMaterial.InitialIsStable(bundle, deviceMakesTexture);
    CubeMaterial.SetStep(CubeMaterial.SetPart(CubeMaterial.Initial(bundle, deviceMakesTexture), NoPart, bundle,
                                              deviceMakesTexture),
                         InitialStep)
  }

  /** The plane material `onAppear` builds: a new material with the part
      `.none`. */
  function StartupPlane(bundle: TextureFactory.Bundle, deviceMakesTexture: bool): (m: MprMaterial.Material)
    ensures m.textureFactory.dataset == TextureFactory.Placeholder()
  {
    MprMaterial.SetPart(MprMaterial.InitialMaterial(), NoPart, bundle, deviceMakesTexture)
  }

  /** The start-up volume sits at the initial quality on a unit cube. */
  lemma StartupVolumeIsSettled(bundle: TextureFactory.Bundle, deviceMakesTexture: bool)
    ensures CubeMaterial.SetStep(StartupVolume(bundle, deviceMakesTexture), InitialStep)
         == StartupVolume(bundle, deviceMakesTexture)
    ensures CubeMaterial.Scale(StartupVolume(bundle, deviceMakesTexture)) == Vec3(1.0, 1.0, 1.0)
  {
    var m := StartupVolume(bundle, deviceMakesTexture);
    assert m.uniforms.renderingQuality == 128;
    assert Trunc(InitialStep) == 128;
  }

  /** The controller `onAppear` leaves behind, given its two materials:
      direct volume rendering with adaptive quality, the volume shown, the
      plane node hidden in the volume's frame, and the axial axis. */
  function Started(mat: CubeMaterial.Material, plane: MprMaterial.Material): (c: Controller)
    ensures c.volumeMaterial == mat && c.mpr == Some(MprView(plane, true, c.volumeScale))
    ensures c.volumeScale == CubeMaterial.Scale(mat) && !c.volumeHidden
    ensures c.activeRenderMode == DvrMode && c.adaptiveOn && c.currentPlaneAxis == 2
    ensures c.lastStep == InitialStep
  {
    var scale := CubeMaterial.Scale(mat);
    Controller(mat, false, scale, Some(MprView(plane, true, scale)), DvrMode, true, InitialStep, 2)
  }

  /** The state right after start-up: direct volume rendering on a unit
      cube at the chosen quality of 128 steps, with the hidden plane node in
      the cube's frame showing the placeholder, adaptive quality on and the
      axial axis selected. */
  predicate IsStartState(c: Controller) {
    && ShowsActiveMode(c) && AtChosenQuality(c)
    && c.activeRenderMode == DvrMode && !c.volumeHidden && c.adaptiveOn && c.currentPlaneAxis == 2
    && c.volumeMaterial.uniforms.renderingQuality == 128
    && c.volumeScale == Vec3(1.0, 1.0, 1.0)
    && c.mpr.Some? && c.mpr.value.hidden && c.mpr.value.scale == c.volumeScale
    && c.mpr.value.material.textureFactory.dataset == TextureFactory.Placeholder()
  }

  /** `onAppear(_:)`: the volume material with the part `.none` at the
      initial quality, and the plane material with the placeholder. */
  function OnAppear(bundle: TextureFactory.Bundle, volumeTexture: bool, mprTexture: bool): (c: Controller)
    ensures IsStartState(c)
  {
    StartupFacts(bundle, volumeTexture, mprTexture);
    Started(StartupVolume(bundle, volumeTexture), StartupPlane(bundle, mprTexture))
  }

  lemma StartupFacts(bundle: TextureFactory.Bundle, volumeTexture: bool, mprTexture: bool)
    ensures IsStartState(Started(StartupVolume(bundle, volumeTexture), StartupPlane(bundle, mprTexture)))
  {
    var mat := StartupVolume(bundle, volumeTexture);
    StartupVolumeIsSettled(bundle, volumeTexture);
    CubeMaterial.DefaultsAreConsistent();
    StartedIsSettled(mat, StartupPlane(bundle, mprTexture));
  }

  /** A start with a volume material that runs direct volume rendering at
      the initial quality shows that mode at the chosen quality. */
  lemma StartedIsSettled(mat: CubeMaterial.Material, plane: MprMaterial.Material)
    requires CubeMaterial.MethodFromId(mat.uniforms.renderMethod) == Some(CubeMaterial.Dvr)
    requires CubeMaterial.SetStep(mat, InitialStep) == mat
    ensures ShowsActiveMode(Started(mat, plane)) && AtChosenQuality(Started(mat, plane))
  {
  }

  /** Moving the slice or the slab keeps the visible node and the method
      in line with the active mode. */
  lemma SliceControlsKeepMode(c: Controller, axis: int, k: int, t: int, steps: int, p: TriPlanar.Plane)
    requires ShowsActiveMode(c)
    ensures ShowsActiveMode(ShowSlice(c, axis, k))
    ensures ShowsActiveMode(SetMprSlab(c, t, steps))
    ensures ShowsActiveMode(SetMprPlane(c, p))
  {
  }
}

=== FILE: tri_planar.dfy ===
/** The tri-planar navigator: an orthonormal frame `R`, whose columns are the
    axes x', y', z', and a crosshair point, both in normalized texture
    coordinates. Three viewports share them. Each viewport shows the plane
    through the crosshair spanned by two of the axes. Drag gestures slide the
    crosshair along an axis, and a two-finger twist turns the frame about the
    viewport's normal axis. */
module TriPlanar {
  import opened Numeric
  import opened Linear
  import opened Results
  import Dataset
  import Rodrigues
  import MprMaterial

  /** The margin that keeps the crosshair strictly inside the unit cube. */
  const Eps: real := 0.00001

  datatype Navigator = Navigator(r: Mat3, cross: Vec3)

  /** The identity frame, with the crosshair at the centre of the volume:
      an orthonormal frame and a crosshair inside the box. */
  function Initial(): (n: Navigator)
    ensures n.r == Identity3 && n.cross == Half3
    ensures IsOrthonormal(n.r) && InBox(n.cross)
  {
    IdentityIsOrthonormal();
    HalfInBox();
    Navigator(Identity3, Half3)
  }

  lemma IdentityIsOrthonormal()
    ensures IsOrthonormal(Identity3)
  {
    StandardAxesOrthonormal(UnitX, UnitY, UnitZ);
  }

  lemma StandardAxesOrthonormal(a: Vec3, b: Vec3, c: Vec3)
    requires a == Vec3(1.0, 0.0, 0.0) && b == Vec3(0.0, 1.0, 0.0) && c == Vec3(0.0, 0.0, 1.0)
    ensures IsOrthonormal(Mat3(a, b, c))
  {
  }

  /** The cube `[Eps, 1 - Eps]^3` the crosshair is kept in. */
  predicate InBox(p: Vec3) {
    && Eps <= p.x <= 1.0 - Eps
    && Eps <= p.y <= 1.0 - Eps
    && Eps <= p.z <= 1.0 - Eps
  }

  lemma HalfInBox()
    ensures InBox(Half3)
  {
  }

  // ---------------------------------------------------------------- frame axes

  /** The standard basis vector with the index convention of `BaseColumn`. */
  function Basis(i: int): Vec3 {
    if i == 0 then UnitX else if i == 1 then UnitY else UnitZ
  }

  /** `baseColumn(i)`: axis `i` of the frame, i.e. the frame applied to basis
      vector `i`. Index 0 is x', 1 is y', and any other index is z'. */
  function BaseColumn(r: Mat3, i: int): (col: Vec3)
    ensures col == MulVec(r, Basis(i))
  {
    Rodrigues.MulVecUnits(r);
    if i == 0 then r.c0 else if i == 1 then r.c1 else r.c2
  }

  lemma BaseColumnIndices(r: Mat3, i: int)
    ensures BaseColumn(r, 0) == r.c0 && BaseColumn(r, 1) == r.c1
    ensures i != 0 && i != 1 ==> BaseColumn(r, i) == r.c2
  {
  }

  /** The columns of an orthonormal frame are unit vectors. */
  lemma OrthonormalColumnIsUnit(r: Mat3, i: int)
    requires IsOrthonormal(r)
    ensures IsUnit(BaseColumn(r, i))
  {
  }

  // ---------------------------------------------------------------- translate

  /** `simd_clamp` of a point into the crosshair box, per component. */
  function ClampToBox(p: Vec3): (q: Vec3)
    ensures InBox(q)
    ensures InBox(p) ==> q == p
  {
    Vec3(ClampReal(Eps, 1.0 - Eps, p.x), ClampReal(Eps, 1.0 - Eps, p.y), ClampReal(Eps, 1.0 - Eps, p.z))
  }

  /** `translate(alongBaseAxis:deltaNormalized:)`: slide the crosshair along
      a frame axis, then clamp it back into the box. */
  function Translate(n: Navigator, i: int, delta: real): (r: Navigator)
    ensures r.r == n.r
    ensures InBox(r.cross)
    ensures InBox(Add(n.cross, Scale(delta, BaseColumn(n.r, i)))) ==>
              r.cross == Add(n.cross, Scale(delta, BaseColumn(n.r, i)))
    ensures delta == 0.0 && InBox(n.cross) ==> r == n
  {
    Navigator(n.r, ClampToBox(Add(n.cross, Scale(delta, BaseColumn(n.r, i)))))
  }

  // ---------------------------------------------------------------- rotate

  lemma SquareMonotone(x: real)
    requires x >= 0.0
    ensures x < 1.0 ==> x * x < 1.0
    ensures x > 1.0 ==> x * x > 1.0
  {
    if x < 1.0 {
      assert x * x <= x * 1.0;
    }
    if x > 1.0 {
      assert x * x >= x * 1.0;
    }
  }

  /** A unit vector has length 1. */
  lemma UnitLength(v: Vec3, len: real)
    requires IsUnit(v) && IsLength(v, len)
    ensures len == 1.0
  {
    SquareMonotone(len);
  }

  /** `rotate(aroundBaseAxis:deltaRadians:)`. The axis is frame column `i`,
      normalized; `len` is its length and `(c, s)` the cosine and sine of the
      angle. The frame becomes `rot * R`, where `rot` is the matrix the source
      builds (`Rodrigues.AsWritten`). Normalizing a zero column gives no
      finite axis, which is `None` here. */
  function Rotate(n: Navigator, i: int, len: real, c: real, s: real): (r: Option<Navigator>)
    requires IsLength(BaseColumn(n.r, i), len)
    ensures r.None? <==> len == 0.0
    ensures IsOrthonormal(n.r) ==> r.Some?
    ensures r.Some? ==> r.value.cross == n.cross
    ensures r.Some? && IsOrthonormal(n.r) && c * c + s * s == 1.0 ==> IsOrthonormal(r.value.r)
    ensures r.Some? && IsOrthonormal(n.r) ==> BaseColumn(r.value.r, i) == BaseColumn(n.r, i)
    ensures r.Some? && c == 1.0 && s == 0.0 ==> r.value == n
  {
    if len == 0.0 then
      assert IsOrthonormal(n.r) ==> IsUnit(BaseColumn(n.r, i)) by {
        if IsOrthonormal(n.r) { OrthonormalColumnIsUnit(n.r, i); }
      }
      None
    else
      var axis := Normalize(BaseColumn(n.r, i), len);
      var rot := Rodrigues.AsWritten(axis, c, s);
      RotateFacts(n.r, i, len, axis, c, s);
      Some(Navigator(MatMul(rot, n.r), n.cross))
  }

  lemma RotateFacts(r: Mat3, i: int, len: real, axis: Vec3, c: real, s: real)
    requires IsLength(BaseColumn(r, i), len) && len > 0.0
    requires axis == Normalize(BaseColumn(r, i), len)
    ensures IsOrthonormal(r) && c * c + s * s == 1.0 ==> IsOrthonormal(MatMul(Rodrigues.AsWritten(axis, c, s), r))
    ensures IsOrthonormal(r) ==> BaseColumn(MatMul(Rodrigues.AsWritten(axis, c, s), r), i) == BaseColumn(r, i)
    ensures c == 1.0 && s == 0.0 ==> MatMul(Rodrigues.AsWritten(axis, c, s), r) == r
  {
    var rot := Rodrigues.AsWritten(axis, c, s);
    if IsOrthonormal(r) && c * c + s * s == 1.0 {
      Rodrigues.AsWrittenOrthonormal(axis, c, s);
      OrthonormalProduct(rot, r);
    }
    if IsOrthonormal(r) {
      var col := BaseColumn(r, i);
      OrthonormalColumnIsUnit(r, i);
      UnitLength(col, len);
      assert axis == col;
      Rodrigues.AsWrittenFixesAxis(col, c, s);
      BaseColumnIndices(MatMul(rot, r), i);
      BaseColumnIndices(r, i);
    }
    if c == 1.0 && s == 0.0 {
      Rodrigues.AsWrittenAtZero(axis);
      MulVecIdentity(r.c0);
      MulVecIdentity(r.c1);
      MulVecIdentity(r.c2);
    }
  }

  // ---------------------------------------------------------------- viewports

  datatype Plane = Axial | Coronal | Sagittal

  /** The frame axis along the viewport's horizontal direction u. */
  function UAxis(p: Plane): (i: int)
    ensures 0 <= i < VAxis(p) && i != NormalAxis(p)
  {
    match p
    case Axial => 0
    case Coronal => 0
    case Sagittal => 1
  }

  /** The frame axis along the viewport's vertical direction v. */
  function VAxis(p: Plane): (i: int)
    ensures 1 <= i <= 2 && i != NormalAxis(p)
  {
    match p
    case Axial => 1
    case Coronal => 2
    case Sagittal => 2
  }

  /** The frame axis normal to the viewport's plane. */
  function NormalAxis(p: Plane): (i: int)
    ensures i == 2 <==> p == Axial
    ensures i == 1 <==> p == Coronal
    ensures i == 0 <==> p == Sagittal
  {
    match p
    case Axial => 2
    case Coronal => 1
    case Sagittal => 0
  }

  /** Every viewport uses the three frame axes once each. */
  lemma AxesArePermutation(p: Plane)
    ensures {UAxis(p), VAxis(p), NormalAxis(p)} == {0, 1, 2}
  {
  }

  /** A sampling plane: its lower-left corner and its two edge vectors. */
  datatype PlanePose = PlanePose(origin: Vec3, u: Vec3, v: Vec3)

  /** The plane's midpoint `origin + u/2 + v/2`. */
  function Centre(pose: PlanePose): Vec3 {
    Add(Add(pose.origin, Scale(0.5, pose.u)), Scale(0.5, pose.v))
  }

  /** The pose `MPRViewportController.apply` computes: `(u, v)` are (x', y')
      for axial, (x', z') for coronal and (y', z') for sagittal, and the
      origin is `cross - (u + v)/2`. */
  function ViewportPose(p: Plane, n: Navigator): (pose: PlanePose)
    ensures pose.u == BaseColumn(n.r, UAxis(p)) && pose.v == BaseColumn(n.r, VAxis(p))
    ensures Centre(pose) == n.cross
  {
    PoseAroundCentre(n.cross, n.r.c0, n.r.c1);
    PoseAroundCentre(n.cross, n.r.c0, n.r.c2);
    PoseAroundCentre(n.cross, n.r.c1, n.r.c2);
    match p
    case Axial => PoseAround(n.cross, n.r.c0, n.r.c1)
    case Coronal => PoseAround(n.cross, n.r.c0, n.r.c2)
    case Sagittal => PoseAround(n.cross, n.r.c1, n.r.c2)
  }

  /** The plane spanned by `u` and `v` whose centre is `cross`. */
  function PoseAround(cross: Vec3, u: Vec3, v: Vec3): PlanePose {
    PlanePose(Sub(cross, Scale(0.5, Add(u, v))), u, v)
  }

  /** Going back half of each edge from the centre, then forward again,
      returns to the centre. */
  lemma PoseAroundCentre(cross: Vec3, u: Vec3, v: Vec3)
    ensures Centre(PoseAround(cross, u, v)) == cross
  {
  }

  /** For an orthonormal frame each viewport's edges are perpendicular to
      its normal axis, so the plane it shows is the one normal to that axis. */
  lemma ViewportIsNormalToAxis(p: Plane, n: Navigator)
    requires IsOrthonormal(n.r)
    ensures Dot(ViewportPose(p, n).u, BaseColumn(n.r, NormalAxis(p))) == 0.0
    ensures Dot(ViewportPose(p, n).v, BaseColumn(n.r, NormalAxis(p))) == 0.0
    ensures Dot(ViewportPose(p, n).u, ViewportPose(p, n).v) == 0.0
  {
    DotSymmetricAll(n.r);
  }

  lemma DotSymmetricAll(r: Mat3)
    ensures Dot(r.c0, r.c1) == Dot(r.c1, r.c0)
    ensures Dot(r.c0, r.c2) == Dot(r.c2, r.c0)
    ensures Dot(r.c1, r.c2) == Dot(r.c2, r.c1)
  {
  }

  /** `apply(R:cross:)`: the material's oblique plane becomes the viewport's
      pose; nothing else in the material changes. */
  function ViewportApply(m: MprMaterial.Material, p: Plane, n: Navigator): (r: MprMaterial.Material)
    ensures r.uniforms.planeX == BaseColumn(n.r, UAxis(p)) && r.uniforms.planeY == BaseColumn(n.r, VAxis(p))
    ensures Centre(PlanePose(r.uniforms.planeOrigin, r.uniforms.planeX, r.uniforms.planeY)) == n.cross
    ensures r.(uniforms := m.uniforms) == m
    ensures r.uniforms.(planeOrigin := m.uniforms.planeOrigin, planeX := m.uniforms.planeX, planeY := m.uniforms.planeY)
         == m.uniforms
  {
    var pose := ViewportPose(p, n);
    MprMaterial.SetOblique(m, pose.origin, pose.u, pose.v)
  }

  /** With the identity frame, each viewport's edges are the unit vectors of
      its two in-plane axes. */
  lemma IdentityPoseAxes(p: Plane, cross: Vec3)
    ensures ViewportPose(p, Navigator(Identity3, cross)) == PoseAround(cross, Basis(UAxis(p)), Basis(VAxis(p)))
  {
    var n := Navigator(Identity3, cross);
    match p
    case Axial => assert ViewportPose(p, n) == PoseAround(cross, UnitX, UnitY);
    case Coronal => assert ViewportPose(p, n) == PoseAround(cross, UnitX, UnitZ);
    case Sagittal => assert ViewportPose(p, n) == PoseAround(cross, UnitY, UnitZ);
  }

  /** With the identity frame, the axial plane is z = cross.z, spanned by
      x and y, with its corner half a unit back along both. */
  lemma AxialCorner(cross: Vec3)
    ensures PoseAround(cross, UnitX, UnitY).origin == Vec3(cross.x - 0.5, cross.y - 0.5, cross.z)
  {
    PoseAroundOrigin(cross, UnitX, UnitY);
    HalfXY();
    SubComponents(cross, Vec3(0.5, 0.5, 0.0));
  }

  /** The coronal plane is y = cross.y, spanned by x and z. */
  lemma CoronalCorner(cross: Vec3)
    ensures PoseAround(cross, UnitX, UnitZ).origin == Vec3(cross.x - 0.5, cross.y, cross.z - 0.5)
  {
    PoseAroundOrigin(cross, UnitX, UnitZ);
    HalfXZ();
    SubComponents(cross, Vec3(0.5, 0.0, 0.5));
  }

  /** The sagittal plane is x = cross.x, spanned by y and z. */
  lemma SagittalCorner(cross: Vec3)
    ensures PoseAround(cross, UnitY, UnitZ).origin == Vec3(cross.x, cross.y - 0.5, cross.z - 0.5)
  {
    PoseAroundOrigin(cross, UnitY, UnitZ);
    HalfYZ();
    SubComponents(cross, Vec3(0.0, 0.5, 0.5));
  }

  lemma PoseAroundOrigin(cross: Vec3, u: Vec3, v: Vec3)
    ensures PoseAround(cross, u, v).origin == Sub(cross, Scale(0.5, Add(u, v)))
  {
  }

  lemma HalfXY()
    ensures Scale(0.5, Add(UnitX, UnitY)) == Vec3(0.5, 0.5, 0.0)
  {
  }

  lemma HalfXZ()
    ensures Scale(0.5, Add(UnitX, UnitZ)) == Vec3(0.5, 0.0, 0.5)
  {
  }

  lemma HalfYZ()
    ensures Scale(0.5, Add(UnitY, UnitZ)) == Vec3(0.0, 0.5, 0.5)
  {
  }

  lemma SubComponents(a: Vec3, b: Vec3)
    ensures Sub(a, b) == Vec3(a.x - b.x, a.y - b.y, a.z - b.z)
  {
  }

  /** With the identity frame and the crosshair at the centre, the origins
      are the corners the source's initial `apply` produces. */
  lemma InitialOrigins()
    ensures ViewportPose(Axial, Initial()).origin == Vec3(0.0, 0.0, 0.5)
    ensures ViewportPose(Coronal, Initial()).origin == Vec3(0.0, 0.5, 0.0)
    ensures ViewportPose(Sagittal, Initial()).origin == Vec3(0.5, 0.0, 0.0)
  {
    IdentityOrigins(Half3);
  }

  /** With the identity frame, each viewport's corner is half a unit back
      from the crosshair along both of its in-plane axes. */
  lemma IdentityOrigins(cross: Vec3)
    ensures ViewportPose(Axial, Navigator(Identity3, cross)).origin == Vec3(cross.x - 0.5, cross.y - 0.5, cross.z)
    ensures ViewportPose(Coronal, Navigator(Identity3, cross)).origin == Vec3(cross.x - 0.5, cross.y, cross.z - 0.5)
    ensures ViewportPose(Sagittal, Navigator(Identity3, cross)).origin == Vec3(cross.x, cross.y - 0.5, cross.z - 0.5)
  {
    IdentityPoseAxes(Axial, cross);
    IdentityPoseAxes(Coronal, cross);
    IdentityPoseAxes(Sagittal, cross);
    AxialCorner(cross);
    CoronalCorner(cross);
    SagittalCorner(cross);
  }

  /** With the identity frame, a viewport whose crosshair sits at the centre
      of a slice shows exactly the plane of the canonical setter. */
  lemma IdentityAxialIsCanonical(m: MprMaterial.Material, k: int)
    ensures ViewportApply(m, Axial, Navigator(Identity3, Vec3(0.5, 0.5, MprMaterial.SliceCoord(k, m.dimension.z))))
         == MprMaterial.SetAxial(m, k)
  {
    MprMaterial.CanonicalIsOblique(m, k);
    IdentityPoseAxes(Axial, Vec3(0.5, 0.5, MprMaterial.SliceCoord(k, m.dimension.z)));
    AxialCorner(Vec3(0.5, 0.5, MprMaterial.SliceCoord(k, m.dimension.z)));
  }

  lemma IdentityCoronalIsCanonical(m: MprMaterial.Material, k: int)
    ensures ViewportApply(m, Coronal, Navigator(Identity3, Vec3(0.5, MprMaterial.SliceCoord(k, m.dimension.y), 0.5)))
         == MprMaterial.SetCoronal(m, k)
  {
    MprMaterial.CanonicalIsOblique(m, k);
    IdentityPoseAxes(Coronal, Vec3(0.5, MprMaterial.SliceCoord(k, m.dimension.y), 0.5));
    CoronalCorner(Vec3(0.5, MprMaterial.SliceCoord(k, m.dimension.y), 0.5));
  }

  lemma IdentitySagittalIsCanonical(m: MprMaterial.Material, k: int)
    ensures ViewportApply(m, Sagittal, Navigator(Identity3, Vec3(MprMaterial.SliceCoord(k, m.dimension.x), 0.5, 0.5)))
         == MprMaterial.SetSagittal(m, k)
  {
    MprMaterial.CanonicalIsOblique(m, k);
    IdentityPoseAxes(Sagittal, Vec3(MprMaterial.SliceCoord(k, m.dimension.x), 0.5, 0.5));
    SagittalCorner(Vec3(MprMaterial.SliceCoord(k, m.dimension.x), 0.5, 0.5));
  }

  /** A viewport's `setDataset`: the grid and spacing, then a thin
      single-sample slab along z. */
  function ViewportSetDataset(m: MprMaterial.Material, dimension: Dataset.Dims, resolution: Vec3): (r: MprMaterial.Material)
    ensures r.dimension == dimension && r.resolution == resolution
    ensures r.uniforms.slabHalf == 0.0 && r.uniforms.numSteps == 1
    ensures r.uniforms.(slabHalf := m.uniforms.slabHalf, numSteps := m.uniforms.numSteps) == m.uniforms
    ensures r.textureFactory == m.textureFactory
  {
    MprMaterial.SlabEdgeCases(MprMaterial.SetDataset(m, dimension, resolution), 2, 1);
    MprMaterial.SetSlab(MprMaterial.SetDataset(m, dimension, resolution), 0, 2, 1)
  }

  /** The three viewports' materials. */
  datatype Viewports = Viewports(axial: MprMaterial.Material, coronal: MprMaterial.Material, sagittal: MprMaterial.Material)

  /** `syncAll`: every viewport re-applies the shared state, so all three
      planes are centred on the crosshair. */
  function SyncAll(vs: Viewports, n: Navigator): (r: Viewports)
    ensures Centre(PlanePose(r.axial.uniforms.planeOrigin, r.axial.uniforms.planeX, r.axial.uniforms.planeY)) == n.cross
    ensures Centre(PlanePose(r.coronal.uniforms.planeOrigin, r.coronal.uniforms.planeX, r.coronal.uniforms.planeY)) == n.cross
    ensures Centre(PlanePose(r.sagittal.uniforms.planeOrigin, r.sagittal.uniforms.planeX, r.sagittal.uniforms.planeY)) == n.cross
  {
    Viewports(ViewportApply(vs.axial, Axial, n), ViewportApply(vs.coronal, Coronal, n), ViewportApply(vs.sagittal, Sagittal, n))
  }

  // ---------------------------------------------------------------- gestures

  /** The overlay's gestures: a drag of the vertical line, a drag of the
      horizontal line, and a two-finger twist. */
  datatype Gesture = DragVertical | DragHorizontal | Twist

  /** The frame axis each viewport's gesture acts on, as wired in the panel. */
  function GestureAxis(p: Plane, g: Gesture): (axis: int)
    ensures g == DragVertical ==> axis == UAxis(p)
    ensures g == DragHorizontal ==> axis == VAxis(p)
    ensures g == Twist ==> axis == NormalAxis(p)
  {
    match (p, g)
    case (Axial, DragVertical) => 0
    case (Axial, DragHorizontal) => 1
    case (Axial, Twist) => 2
    case (Coronal, DragVertical) => 0
    case (Coronal, DragHorizontal) => 2
    case (Coronal, Twist) => 1
    case (Sagittal, DragVertical) => 1
    case (Sagittal, DragHorizontal) => 2
    case (Sagittal, Twist) => 0
  }

  /** A drag in viewport `p`, by `delta` normalized units. */
  function OnDrag(n: Navigator, p: Plane, g: Gesture, delta: real): (r: Navigator)
    requires g != Twist
    ensures r.r == n.r && InBox(r.cross)
    ensures var pose := ViewportPose(p, n);
            var along := if g == DragVertical then pose.u else pose.v;
            InBox(Add(n.cross, Scale(delta, along))) ==> r.cross == Add(n.cross, Scale(delta, along))
  {
    Translate(n, GestureAxis(p, g), delta)
  }

  /** A twist in viewport `p`: the frame turns about the viewport's normal
      axis, whose length is `len`; `(c, s)` is the angle's cosine and sine. */
  function OnTwist(n: Navigator, p: Plane, len: real, c: real, s: real): (r: Option<Navigator>)
    requires IsLength(BaseColumn(n.r, NormalAxis(p)), len)
    ensures IsOrthonormal(n.r) ==> r.Some?
    ensures r.Some? && IsOrthonormal(n.r) ==>
              && r.value.cross == n.cross
              && BaseColumn(r.value.r, NormalAxis(p)) == BaseColumn(n.r, NormalAxis(p))
              && Centre(ViewportPose(p, r.value)) == Centre(ViewportPose(p, n))
    ensures r.Some? && IsOrthonormal(n.r) && c * c + s * s == 1.0 ==> IsOrthonormal(r.value.r)
  {
    Rotate(n, GestureAxis(p, Twist), len, c, s)
  }

  // ---------------------------------------------------------------- twist deltas

  /** The deltas the rotation gesture reports while the fingers move: each
      event sends the new total angle minus the previous one. */
  function TwistDeltas(last: real, angles: seq<real>): (ds: seq<real>)
    ensures |ds| == |angles|
    decreases |angles|
  {
    if |angles| == 0 then [] else [angles[0] - last] + TwistDeltas(angles[0], angles[1..])
  }

  /** The angle remembered after the events: the last one reported. */
  function LastAngle(last: real, angles: seq<real>): real {
    if |angles| == 0 then last else angles[|angles| - 1]
  }

  /** `onEnded`: the remembered angle goes back to 0 for the next gesture. */
  function AngleAfterEnd(): real { 0.0 }

  function Sum(xs: seq<real>): real {
    if |xs| == 0 then 0.0 else xs[0] + Sum(xs[1..])
  }

  /** The reported deltas telescope to the total change of angle. */
  lemma {:induction false} TwistDeltasTelescope(last: real, angles: seq<real>)
    ensures Sum(TwistDeltas(last, angles)) == LastAngle(last, angles) - last
    decreases |angles|
  {
    if |angles| > 0 {
      TwistDeltasTelescope(angles[0], angles[1..]);
      assert TwistDeltas(last, angles)[1..] == TwistDeltas(angles[0], angles[1..]);
      assert |angles| > 1 ==> angles[1..][|angles[1..]| - 1] == angles[|angles| - 1];
    }
  }

  /** Over one gesture, which starts after the previous one ended, the deltas
      sum to the gesture's final angle. */
  lemma OneGestureSumsToFinalAngle(angles: seq<real>)
    requires |angles| > 0
    ensures Sum(TwistDeltas(AngleAfterEnd(), angles)) == angles[|angles| - 1]
  {
    TwistDeltasTelescope(AngleAfterEnd(), angles);
  }
}

=== FILE: volume_cube_material.dfy ===
/** The volume-rendering material: the rendering method, the uniform block
    the ray-marching shader reads (flags, quality, the HU window, the density
    and HU gates, the grid size), and how loading a dataset updates it. The
    uniform buffer's padding, the Metal textures and the transfer-function
    file are not modelled. */
module CubeMaterial {
  import opened Numeric
  import opened Linear
  import opened Results
  import opened Dataset
  import opened BodyParts
  import TextureFactory
  import MprMaterial

  // ---------------------------------------------------------------- methods

  /** Surface rendering, direct volume rendering, maximum, minimum and
      average intensity projection. */
  datatype Method = Surf | Dvr | Mip | Minip | Avg

  /** `Method.idInt32`: the id the shader's `switch` dispatches on. */
  function MethodId(m: Method): (n: int)
    ensures 0 <= n <= 4
  {
    match m
    case Surf => 0
    case Dvr => 1
    case Mip => 2
    case Minip => 3
    case Avg => 4
  }

  /** The method the shader runs for a given id, if any. */
  function MethodFromId(n: int): (r: Option<Method>)
    ensures r.Some? <==> 0 <= n <= 4
  {
    if n == 0 then Some(Surf)
    else if n == 1 then Some(Dvr)
    else if n == 2 then Some(Mip)
    else if n == 3 then Some(Minip)
    else if n == 4 then Some(Avg)
    else None
  }

  /** Ids and methods are in one-to-one correspondence: decoding an id gives
      back its method, and every id the shader knows comes from exactly one
      method. */
  lemma MethodIdRoundTrip(m: Method, n: int)
    ensures MethodFromId(MethodId(m)) == Some(m)
    ensures MethodFromId(n).Some? ==> MethodId(MethodFromId(n).value) == n
  {
  }

  lemma MethodIdInjective(a: Method, b: Method)
    ensures MethodId(a) == MethodId(b) ==> a == b
  {
    MethodIdRoundTrip(a, 0);
    MethodIdRoundTrip(b, 0);
  }

  // ---------------------------------------------------------------- uniforms

  /** The shader's uniform block. Flags are 0 or 1; the padding words are
      left out. */
  datatype Uniforms = Uniforms(
    isLightingOn: int, isBackwardOn: int,
    renderMethod: int, renderingQuality: int,
    voxelMinValue: int, voxelMaxValue: int,
    densityFloor: real, densityCeil: real,
    gateHuMin: int, gateHuMax: int, useHuGate: int,
    dimX: int, dimY: int, dimZ: int,
    useTFProj: int)

  /** The uniform block's initial values. */
  const DefaultUniforms: Uniforms :=
    Uniforms(1, 0, 1, 512, -1024, 3071, 0.02, 1.0, -900, -500, 0, 1, 1, 1, 0)

  /** The projection density gate is a sub-interval of [0, 1]. */
  predicate DensityGateOrdered(u: Uniforms) {
    0.0 <= u.densityFloor <= u.densityCeil <= 1.0
  }

  /** Every flag word holds 0 or 1. */
  predicate FlagsAreBits(u: Uniforms) {
    && u.isLightingOn in {0, 1} && u.isBackwardOn in {0, 1}
    && u.useHuGate in {0, 1} && u.useTFProj in {0, 1}
  }

  /** The defaults: direct volume rendering with lighting on, the CT window
      of the bundled presets, a density gate inside [0, 1], and a HU gate
      (air and lung) that lies inside the CT window. */
  lemma DefaultsAreConsistent()
    ensures MethodFromId(DefaultUniforms.renderMethod) == Some(Dvr)
    ensures IntensityRange(DefaultUniforms.voxelMinValue, DefaultUniforms.voxelMaxValue) == TextureFactory.CTWindow
    ensures DensityGateOrdered(DefaultUniforms) && FlagsAreBits(DefaultUniforms)
    ensures DefaultUniforms.voxelMinValue <= DefaultUniforms.gateHuMin
            <= DefaultUniforms.gateHuMax <= DefaultUniforms.voxelMaxValue
  {
  }

  /** The material: its uniforms and the factory of the dataset it shows. */
  datatype Material = Material(uniforms: Uniforms, textureGenerator: TextureFactory.Factory)

  /** The cube's scale: the dataset's physical extent. */
  function Scale(m: Material): (s: Vec3)
    ensures s == DatasetScale(m.textureGenerator.dataset)
  {
    TextureFactory.FactoryScale(m.textureGenerator)
  }

  /** `true` is 1 and `false` is 0. */
  function Flag(on: bool): (n: int)
    ensures n == 1 <==> on
    ensures n == 0 <==> !on
  {
    if on then 1 else 0
  }

  // ---------------------------------------------------------------- setters

  /** `setMethod(method:)`: the shader runs `meth` afterwards, and nothing
      else changes. */
  function SetMethod(m: Material, meth: Method): (r: Material)
    ensures MethodFromId(r.uniforms.renderMethod) == Some(meth)
    ensures r.uniforms.(renderMethod := m.uniforms.renderMethod) == m.uniforms
    ensures r.(uniforms := m.uniforms) == m
  {
    MethodIdRoundTrip(meth, 0);
    m.(uniforms := m.uniforms.(renderMethod := MethodId(meth)))
  }

  /** `setLighting(on:)`. */
  function SetLighting(m: Material, on: bool): (r: Material)
    ensures r.uniforms.isLightingOn == 1 <==> on
    ensures r.uniforms.isLightingOn == 0 <==> !on
    ensures r.uniforms.(isLightingOn := m.uniforms.isLightingOn) == m.uniforms
    ensures r.(uniforms := m.uniforms) == m
  {
    m.(uniforms := m.uniforms.(isLightingOn := Flag(on)))
  }

  /** `setUseTFOnProjections(_:)`. */
  function SetUseTFOnProjections(m: Material, on: bool): (r: Material)
    ensures r.uniforms.useTFProj == 1 <==> on
    ensures r.uniforms.useTFProj == 0 <==> !on
    ensures r.uniforms.(useTFProj := m.uniforms.useTFProj) == m.uniforms
    ensures r.(uniforms := m.uniforms) == m
  {
    m.(uniforms := m.uniforms.(useTFProj := Flag(on)))
  }

  /** `setHuGate(enabled:)`. */
  function SetHuGate(m: Material, enabled: bool): (r: Material)
    ensures r.uniforms.useHuGate == 1 <==> enabled
    ensures r.uniforms.useHuGate == 0 <==> !enabled
    ensures r.uniforms.(useHuGate := m.uniforms.useHuGate) == m.uniforms
    ensures r.(uniforms := m.uniforms) == m
  {
    m.(uniforms := m.uniforms.(useHuGate := Flag(enabled)))
  }

  /** The flag setters keep every flag word a bit. */
  lemma FlagSettersKeepBits(m: Material, on: bool)
    requires FlagsAreBits(m.uniforms)
    ensures FlagsAreBits(SetLighting(m, on).uniforms)
    ensures FlagsAreBits(SetUseTFOnProjections(m, on).uniforms)
    ensures FlagsAreBits(SetHuGate(m, on).uniforms)
  {
  }

  /** `setHuWindow(minHU:maxHU:)`: the HU gate bounds verbatim. */
  function SetHuWindow(m: Material, minHU: int, maxHU: int): (r: Material)
    ensures r.uniforms.gateHuMin == minHU && r.uniforms.gateHuMax == maxHU
    ensures r.uniforms.(gateHuMin := m.uniforms.gateHuMin, gateHuMax := m.uniforms.gateHuMax) == m.uniforms
    ensures r.(uniforms := m.uniforms) == m
  {
    m.(uniforms := m.uniforms.(gateHuMin := minHU, gateHuMax := maxHU))
  }

  /** The HU gate is not reordered: a reversed window stays reversed. */
  lemma HuWindowNotReordered(m: Material, minHU: int, maxHU: int)
    requires minHU > maxHU
    ensures SetHuWindow(m, minHU, maxHU).uniforms.gateHuMin > SetHuWindow(m, minHU, maxHU).uniforms.gateHuMax
  {
  }

  /** `setStep(step:)`: `Int32(step)` truncates toward zero. */
  function SetStep(m: Material, step: real): (r: Material)
    ensures step >= 0.0 ==> 0 <= r.uniforms.renderingQuality
                            && r.uniforms.renderingQuality as real <= step
                            < r.uniforms.renderingQuality as real + 1.0
    ensures r.uniforms.(renderingQuality := m.uniforms.renderingQuality) == m.uniforms
    ensures r.(uniforms := m.uniforms) == m
  {
    m.(uniforms := m.uniforms.(renderingQuality := Trunc(step)))
  }

  /** A whole-number step is stored exactly. */
  lemma WholeStepIsExact(m: Material, n: nat)
    ensures SetStep(m, n as real).uniforms.renderingQuality == n
  {
  }

  // ---------------------------------------------------------------- density gate

  /** `setDensityGate(floor:ceil:)`: the floor is clamped into [0, 1], and the
      ceiling into [floor, 1]. */
  function SetDensityGate(m: Material, floor: real, ceil: real): (r: Material)
    ensures DensityGateOrdered(r.uniforms)
    ensures r.uniforms.densityFloor == ClampReal(0.0, 1.0, floor)
    ensures r.uniforms.(densityFloor := m.uniforms.densityFloor, densityCeil := m.uniforms.densityCeil) == m.uniforms
    ensures r.(uniforms := m.uniforms) == m
  {
    var lo := MaxReal(0.0, MinReal(1.0, floor));
    var hi := MaxReal(lo, MinReal(1.0, ceil));
    m.(uniforms := m.uniforms.(densityFloor := lo, densityCeil := hi))
  }

  /** The ceiling the gate ends up with: the requested one when it fits
      between the stored floor and 1, and the nearest end otherwise. */
  lemma DensityCeilIsClamped(m: Material, floor: real, ceil: real)
    ensures var u := SetDensityGate(m, floor, ceil).uniforms;
            u.densityCeil == ClampReal(u.densityFloor, 1.0, ceil)
  {
  }

  /** An already ordered gate inside [0, 1] is stored exactly. */
  lemma DensityGateKeepsOrderedInput(m: Material, floor: real, ceil: real)
    requires 0.0 <= floor <= ceil <= 1.0
    ensures SetDensityGate(m, floor, ceil).uniforms.densityFloor == floor
    ensures SetDensityGate(m, floor, ceil).uniforms.densityCeil == ceil
  {
  }

  /** Setting the gate to what it already holds changes nothing, so setting
      it twice is the same as setting it once. */
  lemma DensityGateIdempotent(m: Material, floor: real, ceil: real)
    ensures var r := SetDensityGate(m, floor, ceil);
            SetDensityGate(r, r.uniforms.densityFloor, r.uniforms.densityCeil) == r
  {
    var r := SetDensityGate(m, floor, ceil);
    DensityGateKeepsOrderedInput(r, r.uniforms.densityFloor, r.uniforms.densityCeil);
  }

  // ---------------------------------------------------------------- datasets

  /** `apply(factory:device:)`: the factory is kept in every case; the grid
      size and the HU window follow its dataset only when the texture could
      be generated. */
  function Apply(m: Material, factory: TextureFactory.Factory, deviceMakesTexture: bool): (r: Material)
    ensures r.textureGenerator == factory
    ensures Scale(r) == DatasetScale(factory.dataset)
    ensures !deviceMakesTexture ==> r.uniforms == m.uniforms
    ensures deviceMakesTexture ==>
              && r.uniforms.dimX == factory.dataset.dimensions.x
              && r.uniforms.dimY == factory.dataset.dimensions.y
              && r.uniforms.dimZ == factory.dataset.dimensions.z
              && IntensityRange(r.uniforms.voxelMinValue, r.uniforms.voxelMaxValue) == factory.dataset.intensityRange
              && r.uniforms.(dimX := m.uniforms.dimX, dimY := m.uniforms.dimY, dimZ := m.uniforms.dimZ,
                             voxelMinValue := m.uniforms.voxelMinValue,
                             voxelMaxValue := m.uniforms.voxelMaxValue) == m.uniforms
  {
    var m1 := m.(textureGenerator := factory);
    match TextureFactory.Generate(factory, deviceMakesTexture)
    case None => m1
    case Some(_) =>
      var dimension := TextureFactory.Dimension(factory);
      var range := factory.dataset.intensityRange;
      m1.(uniforms := m1.uniforms.(dimX := dimension.x, dimY := dimension.y, dimZ := dimension.z,
                                   voxelMinValue := range.lower, voxelMaxValue := range.upper))
  }

  /** Applying the same factory twice is the same as applying it once. */
  lemma ApplyIdempotent(m: Material, factory: TextureFactory.Factory, deviceMakesTexture: bool)
    ensures Apply(Apply(m, factory, deviceMakesTexture), factory, deviceMakesTexture)
            == Apply(m, factory, deviceMakesTexture)
  {
  }

  /** Applying a factory keeps the density gate and the flags as they were. */
  lemma ApplyKeepsGateAndFlags(m: Material, factory: TextureFactory.Factory, deviceMakesTexture: bool)
    ensures DensityGateOrdered(Apply(m, factory, deviceMakesTexture).uniforms) <==> DensityGateOrdered(m.uniforms)
    ensures FlagsAreBits(Apply(m, factory, deviceMakesTexture).uniforms) <==> FlagsAreBits(m.uniforms)
  {
  }

  /** `setPart(device:part:)`: the factory of a body part. */
  function SetPart(m: Material, part: BodyPart, bundle: TextureFactory.Bundle, deviceMakesTexture: bool): (r: Material)
    ensures r.textureGenerator.dataset == TextureFactory.DatasetFor(part, bundle)
    ensures deviceMakesTexture ==>
              IntensityRange(r.uniforms.voxelMinValue, r.uniforms.voxelMaxValue) == TextureFactory.CTWindow
  {
    Apply(m, TextureFactory.Factory(TextureFactory.DatasetFor(part, bundle)), deviceMakesTexture)
  }

  /** `setDataset(device:dataset:)`: the factory of a loaded dataset. */
  function SetDataset(m: Material, dataset: VolumeDataset, deviceMakesTexture: bool): (r: Material)
    ensures r.textureGenerator.dataset == dataset
    ensures deviceMakesTexture ==>
              IntensityRange(r.uniforms.voxelMinValue, r.uniforms.voxelMaxValue) == dataset.intensityRange
  {
    Apply(m, TextureFactory.Factory(dataset), deviceMakesTexture)
  }

  /** `init(device:)`: default uniforms, then the part `.none`. */
  function Initial(bundle: TextureFactory.Bundle, deviceMakesTexture: bool): (m: Material)
    ensures m.textureGenerator.dataset == TextureFactory.Placeholder()
  {
    SetPart(Material(DefaultUniforms, TextureFactory.Factory(TextureFactory.Placeholder())), NoPart, bundle,
            deviceMakesTexture)
  }

  /** A new material shows the one-voxel placeholder on a unit cube, with
      the default uniforms: applying the placeholder writes back the
      defaults' own grid size and HU window. */
  lemma InitialIsDefault(bundle: TextureFactory.Bundle, deviceMakesTexture: bool)
    ensures Initial(bundle, deviceMakesTexture).uniforms == DefaultUniforms
    ensures Scale(Initial(bundle, deviceMakesTexture)) == Vec3(1.0, 1.0, 1.0)
  {
  }

  /** Loading the part `.none` into a new material again changes nothing. */
  lemma InitialIsStable(bundle: TextureFactory.Bundle, deviceMakesTexture: bool)
    ensures SetPart(Initial(bundle, deviceMakesTexture), NoPart, bundle, deviceMakesTexture)
         == Initial(bundle, deviceMakesTexture)
  {
    var f := TextureFactory.Factory(TextureFactory.Placeholder());
    ApplyIdempotent(Material(DefaultUniforms, f), f, deviceMakesTexture);
  }

  /** The cube material and the plane material read the same HU window and
      grid size from the dataset they are given. */
  lemma AgreesWithPlaneMaterial(m: Material, p: MprMaterial.Material, factory: TextureFactory.Factory)
    ensures var r := Apply(m, factory, true);
            var q := MprMaterial.Apply(p, factory, true);
            && r.uniforms.voxelMinValue == q.uniforms.voxelMinValue
            && r.uniforms.voxelMaxValue == q.uniforms.voxelMaxValue
            && Dims(r.uniforms.dimX, r.uniforms.dimY, r.uniforms.dimZ) == q.dimension
            && Scale(r) == DatasetScale(q.textureFactory.dataset)
  {
  }
}

=== FILE: volume_dataset.dfy ===
/** The in-memory volume: raw 16-bit samples, grid dimensions, physical voxel
    spacing, the sample format and the intensity range. */
module Dataset {
  import opened Numeric
  import opened Linear
  import opened Bytes
  import opened Results

  datatype PixelFormat = Int16Signed | Int16Unsigned

  /** The two GPU texture formats a dataset can be uploaded as. */
  datatype MetalPixelFormat = R16Sint | R16Uint

  /** `ClosedRange<Int32>`; building one with `lower > upper` traps. */
  datatype IntensityRange = IntensityRange(lower: int, upper: int)

  /** `int3`: grid dimensions in voxels. */
  datatype Dims = Dims(x: int, y: int, z: int)

  datatype VolumeDataset = VolumeDataset(
    data: seq<Byte>,
    dimensions: Dims,
    spacing: Vec3,
    pixelFormat: PixelFormat,
    intensityRange: IntensityRange)

  predicate Contains(r: IntensityRange, v: int) {
    r.lower <= v <= r.upper
  }

  /** The value one stored sample decodes to in the given format. */
  function Sample(f: PixelFormat, lo: Byte, hi: Byte): int {
    match f
    case Int16Signed => S16(lo, hi)
    case Int16Unsigned => U16(lo, hi)
  }

  function ToMetalPixelFormat(f: PixelFormat): (m: MetalPixelFormat)
    ensures m == R16Sint <==> f == Int16Signed
  {
    match f
    case Int16Signed => R16Sint
    case Int16Unsigned => R16Uint
  }

  /** Distinct sample formats upload as distinct texture formats. */
  lemma MetalPixelFormatInjective(a: PixelFormat, b: PixelFormat)
    ensures ToMetalPixelFormat(a) == ToMetalPixelFormat(b) ==> a == b
  {
  }

  /** Both formats store one `UInt16`-sized sample per voxel. */
  function BytesPerVoxel(f: PixelFormat): (n: nat)
    ensures n == 2
  {
    2
  }

  /** The full range of the sample type: `Int16.min...Int16.max` or
      `UInt16.min...UInt16.max`, widened to `Int32`. */
  function DefaultIntensityRange(f: PixelFormat): (r: IntensityRange)
    ensures r.lower <= r.upper
    ensures forall lo: Byte, hi: Byte :: Contains(r, Sample(f, lo, hi))
  {
    match f
    case Int16Signed => IntensityRange(Int16Min, Int16Max)
    case Int16Unsigned => IntensityRange(0, UInt16Max)
  }

  /** The default range is exactly the set of values a sample of the format
      can hold: every value in it has a two-byte encoding. */
  lemma DefaultRangeIsRepresentable(f: PixelFormat, v: int)
    ensures Contains(DefaultIntensityRange(f), v) <==> exists lo: Byte, hi: Byte :: Sample(f, lo, hi) == v
  {
    if Contains(DefaultIntensityRange(f), v) {
      match f
      case Int16Signed =>
        var bs := EncodeS16(v);
        assert Sample(f, bs[0], bs[1]) == v;
      case Int16Unsigned =>
        var lo := (v % 256) as Byte;
        var hi := (v / 256) as Byte;
        assert Sample(f, lo, hi) == v;
    }
  }

  /** `VolumeDataset.init`: every argument is stored verbatim, and a missing
      intensity range falls back to the format's default. Nothing is
      validated; in particular the data length is not compared with the
      voxel count. */
  function MakeDataset(data: seq<Byte>, dimensions: Dims, spacing: Vec3, pixelFormat: PixelFormat,
                       intensityRange: Option<IntensityRange>): (d: VolumeDataset)
    ensures d.data == data && d.dimensions == dimensions && d.spacing == spacing
    ensures d.pixelFormat == pixelFormat
    ensures intensityRange.Some? ==> d.intensityRange == intensityRange.value
    ensures intensityRange.None? ==> d.intensityRange == DefaultIntensityRange(pixelFormat)
  {
    VolumeDataset(data, dimensions, spacing, pixelFormat, intensityRange.GetOr(DefaultIntensityRange(pixelFormat)))
  }

  /** The initialiser accepts a buffer whose length does not match the
      grid: the length invariant has to come from the callers. */
  lemma MakeDatasetDoesNotValidate()
    ensures var d := MakeDataset([], Dims(1, 1, 1), Vec3(1.0, 1.0, 1.0), Int16Signed, None);
            |d.data| != VoxelCount(d) * BytesPerVoxel(d.pixelFormat)
  {
  }

  function VoxelCount(d: VolumeDataset): (n: int)
    ensures d.dimensions.x > 0 && d.dimensions.y > 0 && d.dimensions.z > 0 ==> n > 0
  {
    d.dimensions.x * d.dimensions.y * d.dimensions.z
  }

  /** The byte length a well-formed dataset's buffer has. */
  predicate HasConsistentLength(d: VolumeDataset) {
    |d.data| == VoxelCount(d) * BytesPerVoxel(d.pixelFormat)
  }

  /** The physical extent of the volume: spacing times dimension, axis by axis. */
  function DatasetScale(d: VolumeDataset): (s: Vec3)
    ensures s == Hadamard(d.spacing, Vec3(d.dimensions.x as real, d.dimensions.y as real, d.dimensions.z as real))
  {
    Vec3(d.spacing.x * d.dimensions.x as real,
         d.spacing.y * d.dimensions.y as real,
         d.spacing.z * d.dimensions.z as real)
  }
}

=== FILE: volume_texture_factory.dfy ===
/** The dataset-backed texture factory: preset volumes from the bundle, the
    1x1x1 placeholder every failure falls back to, and the byte layout of
    the 3D texture upload. Bundle lookup, archive reading and the GPU device
    are inputs; only their outcomes are modelled. */
module TextureFactory {
  import opened Numeric
  import opened Linear
  import opened Bytes
  import opened Results
  import opened Dataset
  import opened BodyParts

  /** What reading `<name>.raw.zip` from the bundle produced: the resource
      is missing, the archive cannot be opened, extracting an entry threw,
      or the bytes of every entry in archive order. */
  datatype ArchiveOutcome =
    | ResourceMissing
    | ArchiveUnreadable
    | ExtractionFailed
    | Extracted(entries: seq<seq<Byte>>)

  /** The bundle, as a map from resource name to what reading it gives. */
  type Bundle = string -> ArchiveOutcome

  /** The entries appended one after the other. */
  function Concat(entries: seq<seq<Byte>>): (data: seq<Byte>)
    ensures |data| == 0 <==> forall i :: 0 <= i < |entries| ==> entries[i] == []
  {
    if entries == [] then []
    else
      var rest := Concat(entries[1..]);
      assert forall i :: 1 <= i < |entries| ==> entries[i] == entries[1..][i - 1];
      entries[0] + rest
  }

  /** The CT window both bundled presets declare. */
  const CTWindow: IntensityRange := IntensityRange(-1024, 3071)

  const HeadDims: Dims := Dims(512, 512, 511)
  const HeadSpacing: Vec3 := Vec3(0.000449, 0.000449, 0.000501)
  const ChestDims: Dims := Dims(512, 512, 179)
  const ChestSpacing: Vec3 := Vec3(0.000586, 0.000586, 0.002)

  /** `placeholderDataset`: one zero voxel, unit spacing, the CT window. */
  function Placeholder(): (d: VolumeDataset)
    ensures d.dimensions == Dims(1, 1, 1) && d.spacing == Vec3(1.0, 1.0, 1.0)
    ensures d.pixelFormat == Int16Signed && d.intensityRange == CTWindow
    ensures HasConsistentLength(d) && |d.data| == 2
    ensures ReadS16(d.data, 0) == 0
  {
    MakeDataset([0, 0], Dims(1, 1, 1), Vec3(1.0, 1.0, 1.0), Int16Signed, Some(CTWindow))
  }

  /** `loadZippedResource`: the placeholder on every failure and on an empty
      extraction; otherwise the extracted bytes with the requested metadata,
      whatever their length. */
  function LoadZippedResource(outcome: ArchiveOutcome, dimensions: Dims, spacing: Vec3,
                              pixelFormat: PixelFormat, intensity: IntensityRange): (d: VolumeDataset)
    ensures !outcome.Extracted? ==> d == Placeholder()
    ensures outcome.Extracted? && Concat(outcome.entries) == [] ==> d == Placeholder()
    ensures outcome.Extracted? && Concat(outcome.entries) != [] ==>
              d == VolumeDataset(Concat(outcome.entries), dimensions, spacing, pixelFormat, intensity)
  {
    match outcome
    case ResourceMissing => Placeholder()
    case ArchiveUnreadable => Placeholder()
    case ExtractionFailed => Placeholder()
    case Extracted(entries) =>
      var data := Concat(entries);
      if |data| == 0 then Placeholder()
      else MakeDataset(data, dimensions, spacing, pixelFormat, Some(intensity))
  }

  /** `dataset(for:)`: the two bundled presets, and the placeholder for the
      other parts without looking at the bundle. */
  function DatasetFor(part: BodyPart, bundle: Bundle): (d: VolumeDataset)
    ensures part == NoPart || part == Dicom ==> d == Placeholder()
    ensures part == Head ==>
              d == Placeholder()
              || (d.dimensions == HeadDims && d.spacing == HeadSpacing
                  && d.pixelFormat == Int16Signed && d.intensityRange == CTWindow && |d.data| > 0)
    ensures part == Chest ==>
              d == Placeholder()
              || (d.dimensions == ChestDims && d.spacing == ChestSpacing
                  && d.pixelFormat == Int16Signed && d.intensityRange == CTWindow && |d.data| > 0)
  {
    match part
    case Head => LoadZippedResource(bundle("head"), HeadDims, HeadSpacing, Int16Signed, CTWindow)
    case Chest => LoadZippedResource(bundle("chest"), ChestDims, ChestSpacing, Int16Signed, CTWindow)
    case _ => Placeholder()
  }

  /** A preset comes back with its own metadata exactly when its archive
      yields some bytes. */
  lemma PresetLoadedIff(part: BodyPart, bundle: Bundle)
    requires part == Head || part == Chest
    ensures DatasetFor(part, bundle) != Placeholder()
        <==> bundle(RawValue(part)).Extracted? && Concat(bundle(RawValue(part)).entries) != []
  {
  }

  // ---------------------------------------------------------------- the factory object

  datatype Factory = Factory(dataset: VolumeDataset)

  /** `resolution`: the size of one voxel, the dataset's spacing. */
  function Resolution(f: Factory): (r: Vec3)
    ensures r == f.dataset.spacing
  {
    f.dataset.spacing
  }

  /** `dimension`: the dataset's grid. */
  function Dimension(f: Factory): (d: Dims)
    ensures d == f.dataset.dimensions
  {
    f.dataset.dimensions
  }

  /** `scale`: the physical extent of the volume, one voxel size per grid
      step along each axis. */
  function FactoryScale(f: Factory): (s: Vec3)
    ensures s == Hadamard(f.dataset.spacing,
                          Vec3(f.dataset.dimensions.x as real, f.dataset.dimensions.y as real,
                               f.dataset.dimensions.z as real))
  {
    DatasetScale(f.dataset)
  }

  /** `update(dataset:)` replaces the dataset, and every view of the
      factory then reads the new dataset. */
  function Update(f: Factory, d: VolumeDataset): (g: Factory)
    ensures g.dataset == d
    ensures Resolution(g) == d.spacing && Dimension(g) == d.dimensions
    ensures FactoryScale(g) == Hadamard(d.spacing, Vec3(d.dimensions.x as real, d.dimensions.y as real, d.dimensions.z as real))
  {
    Factory(d)
  }

  /** The texture descriptor and upload strides `generate` computes. */
  datatype TextureLayout = TextureLayout(
    format: MetalPixelFormat,
    width: int, height: int, depth: int,
    bytesPerRow: int, bytesPerImage: int)

  /** `generate(device:)`; `deviceMakesTexture` is whether the device could
      allocate the texture. The upload uses rows of `width` samples and
      images of `height` rows. */
  function Generate(f: Factory, deviceMakesTexture: bool): (r: Option<TextureLayout>)
    ensures r.Some? <==> deviceMakesTexture
    ensures r.Some? ==>
              var t := r.value;
              && t.format == ToMetalPixelFormat(f.dataset.pixelFormat)
              && t.width == f.dataset.dimensions.x && t.height == f.dataset.dimensions.y
              && t.depth == f.dataset.dimensions.z
              && t.bytesPerRow == BytesPerVoxel(f.dataset.pixelFormat) * t.width
              && t.bytesPerImage == t.bytesPerRow * t.height
  {
    if !deviceMakesTexture then None
    else
      var d := f.dataset;
      var bytesPerRow := BytesPerVoxel(d.pixelFormat) * d.dimensions.x;
      Some(TextureLayout(ToMetalPixelFormat(d.pixelFormat), d.dimensions.x, d.dimensions.y, d.dimensions.z,
                         bytesPerRow, bytesPerRow * d.dimensions.y))
  }

  /** For a dataset whose buffer matches its grid, the upload region covers
      the buffer exactly: `depth` images of `bytesPerImage` bytes. */
  lemma UploadCoversData(f: Factory)
    requires HasConsistentLength(f.dataset)
    ensures Generate(f, true).value.bytesPerImage * Generate(f, true).value.depth == |f.dataset.data|
  {
    var d := f.dataset.dimensions;
    assert 2 * d.x * d.y * d.z == d.x * d.y * d.z * 2;
  }
}

=== FILE: volume_texture_legacy.dfy ===
/** The older, part-keyed texture factory: fixed presets chosen in the
    initialiser, and a `generate` that reads the bundled archive itself. */
module LegacyTextureFactory {
  import opened Linear
  import opened Results
  import opened Dataset
  import opened BodyParts
  import TextureFactory

  datatype LegacyFactory = LegacyFactory(part: BodyPart, resolution: Vec3, dimension: Dims)

  /** `init(_:)`: head and chest get their scanned grid and spacing; every
      other part gets a single unit voxel. */
  function Init(part: BodyPart): (f: LegacyFactory)
    ensures f.part == part
    ensures part == Head ==> f.dimension == Dims(512, 512, 511) && f.resolution == Vec3(0.000449, 0.000449, 0.000501)
    ensures part == Chest ==> f.dimension == Dims(512, 512, 179) && f.resolution == Vec3(0.000586, 0.000586, 0.002)
    ensures part != Head && part != Chest ==> f.dimension == Dims(1, 1, 1) && f.resolution == Vec3(1.0, 1.0, 1.0)
  {
    if part == Head then LegacyFactory(part, Vec3(0.000449, 0.000449, 0.000501), Dims(512, 512, 511))
    else if part == Chest then LegacyFactory(part, Vec3(0.000586, 0.000586, 0.002), Dims(512, 512, 179))
    else LegacyFactory(part, Vec3(1.0, 1.0, 1.0), Dims(1, 1, 1))
  }

  /** Physical extent: resolution times dimension, axis by axis. */
  function LegacyScale(f: LegacyFactory): (s: Vec3)
    ensures s == Hadamard(f.resolution, Vec3(f.dimension.x as real, f.dimension.y as real, f.dimension.z as real))
  {
    Vec3(f.resolution.x * f.dimension.x as real,
         f.resolution.y * f.dimension.y as real,
         f.resolution.z * f.dimension.z as real)
  }

  /** Whenever the newer factory actually loads a preset, it uses the same
      grid and spacing as this initialiser, so both report the same scale;
      for the other parts both fall back to one unit voxel. */
  lemma PresetsAgree(part: BodyPart, bundle: TextureFactory.Bundle)
    ensures var d := TextureFactory.DatasetFor(part, bundle);
            d != TextureFactory.Placeholder() ==>
              Init(part).dimension == d.dimensions && Init(part).resolution == d.spacing
              && LegacyScale(Init(part)) == DatasetScale(d)
    ensures part == NoPart || part == Dicom ==>
              Init(part).dimension == TextureFactory.Placeholder().dimensions
              && Init(part).resolution == TextureFactory.Placeholder().spacing
  {
  }

  /** What `generate(device:)` ends in: a texture with its upload layout
      (none for the empty placeholder texture), `nil`, or a crash when an
      archive entry fails to extract under `try!`. */
  datatype GenerateOutcome =
    | Texture(layout: Option<TextureFactory.TextureLayout>)
    | NoTexture
    | Crash

  /** `generate(device:)`. Only `.none` short-circuits to a 1x1x1 texture
      without an upload; every other part, `.dicom` included, reads the
      archive named after its raw value. The upload always uses `Int16`
      samples, whatever the archive holds. */
  function Generate(f: LegacyFactory, bundle: TextureFactory.Bundle, deviceMakesTexture: bool): (r: GenerateOutcome)
    ensures f.part == NoPart ==> (r == Texture(None) <==> deviceMakesTexture) && (r == NoTexture <==> !deviceMakesTexture)
    ensures f.part != NoPart ==>
              match bundle(RawValue(f.part))
              case ResourceMissing => r == NoTexture
              case ArchiveUnreadable => r == NoTexture
              case ExtractionFailed => r == Crash
              case Extracted(_) => r.Crash? == false && (r.Texture? <==> deviceMakesTexture)
    ensures r.Texture? && r.layout.Some? ==>
              var t := r.layout.value;
              && t.format == R16Sint
              && t.width == f.dimension.x && t.height == f.dimension.y && t.depth == f.dimension.z
              && t.bytesPerRow == 2 * t.width && t.bytesPerImage == t.bytesPerRow * t.height
  {
    if f.part == NoPart then
      if deviceMakesTexture then Texture(None) else NoTexture
    else
      match bundle(RawValue(f.part))
      case ResourceMissing => NoTexture
      case ArchiveUnreadable => NoTexture
      case ExtractionFailed => Crash
      case Extracted(_) =>
        var bytesPerRow := 2 * f.dimension.x;
        if deviceMakesTexture then
          Texture(Some(TextureFactory.TextureLayout(R16Sint, f.dimension.x, f.dimension.y, f.dimension.z,
                                                    bytesPerRow, bytesPerRow * f.dimension.y)))
        else NoTexture
  }

  /** Unlike the newer factory, `.dicom` is not short-circuited: with no
      "dicom" archive in the bundle no texture is produced at all. */
  lemma DicomNeedsBundledArchive(bundle: TextureFactory.Bundle, deviceMakesTexture: bool)
    requires bundle("dicom") == TextureFactory.ResourceMissing
    ensures Generate(Init(Dicom), bundle, deviceMakesTexture) == NoTexture
    ensures TextureFactory.DatasetFor(Dicom, bundle) == TextureFactory.Placeholder()
  {
  }
}
